=== FILE: README.md ===
# Evergreen billing core in Dafny

This project models the billing core of the Evergreen ILS Rust crate:
- Interval parsing (`evergreen/src/date.rs`): turning texts such as `"1 day, 2 hours"` or `"02:20:05"` into seconds.
- The billing operations of `evergreen/src/common/billing.rs`:
  - voiding bills;
  - closing or reopening a transaction when its balance changes;
  - creating bills;
  - zeroing bills with account adjustments;
  - allocating payments to bills (`BillPaymentMap`);
  - asking whether a transaction had a recent payment;
  - the overdue-fine checks of `generate_fines_for_xact`, with their grace-period extension over closed days.

The database is an immutable `Store` of typed records: bills, payments with their optional account adjustment, billable transactions and circulations. Every operation is a pure function over the store. Operations that can fail return a `Result` carrying the new store or an error kind. Money is integer cents. Instants are epoch seconds.

Three things become parameters:
- the current time `now`;
- a month-addition oracle `addMonths`, for chrono's calendar months;
- the library settings, hours of operation and closed dates.

A transaction's `balance_owed` is derived from the store. It is the sum of its non-voided bills minus the sum of its non-voided payments, as the summary view defines it.

The modules follow the source:
- `Basics` holds `Option`, `Result` and the error kinds.
- `Text` handles splitting, joining, lower-casing and `i64` parsing.
- `Interval` models `date.rs`.
- `Records` holds the store.
- `OpenXact` models `check_open_xact`.
- `Ledger` models `void_bills`, `create_bill` and `xact_has_payment_within`.
- `Allocator` models `bill_payment_map_for_xact`.
- `ZeroBills` models `adjust_bills_to_zero` and `void_or_zero_bills_of_type`.
- `GracePeriod` models `extend_grace_period`.
- `Fines` models `generate_fines_for_xact`.
- `Sorting` is a stable insertion sort standing in for the SQL `ORDER BY` clauses.
- `IntervalExamples` proves the doc examples of `interval_to_seconds` and some texts it rejects.
- `ZeroExamples` works two concrete calls of `adjust_bills_to_zero` through to the store they leave.

Some behaviours of the code are kept as written:
- **The `"0s"` default is rejected.** A circulation without a grace period uses the text `"0s"`. `interval_to_seconds` rejects that text, because a single token must be `hh:mm:ss`. So `generate_fines_for_xact` fails for every such circulation (`Fines.NoGracePeriodFails`).
- **The residual allocation loop never ends.** The loop in `bill_payment_map_for_xact` has no exit once a bill still owes and a payment is left. That case is modelled as the error `Diverges`.
- **Saturday is never a closed weekday.** `extend_grace_period` scans the Rust range `0..6`, which is weekdays 0 to 5. Day 6 is never checked, so the "closed every day" branch cannot be reached (`GracePeriod.SaturdayNeverClosed`).
- **A paid bill is adjusted again.** `adjust_bills_to_zero` takes each bill's original amount, less only the adjustments it wrote itself, capped at `xact_total`. Payments already allocated to the bill are not subtracted, and the cap is not lowered after each adjustment. So on a transaction with a 500 bill paid in full and an unpaid 300 bill, listing both writes two 300 adjustments and leaves a balance of -300 (`ZeroExamples.PaidBillAdjustedAgain`).
- **A repeat call writes a 0-cent adjustment.** Read again, an earlier account adjustment counts as a payment in the allocation, not as an adjustment. So a second call on a bill the first call zeroed finds its full amount "not adjusted" and a cap of zero, and writes an adjustment of 0 (`ZeroExamples.RepeatWritesZero`). The guard against "double" adjustments does not stop it.
- **The grace-period check never fires.** `generate_fines_for_xact` only reaches it once the baseline is at or before now, and with a baseline equal to the due date, `now < due - grace` with a positive grace is then impossible. So the grace period, and everything `extend_grace_period` computes for it, never changes the outcome (`Fines.OutcomeNeverInGrace`).

## Model

| member | source | states |
|---|---|---|
| Interval.IntervalToSecondsLoop | evergreen/src/date.rs:20-73 | The imperative loop, with the same counter, early returns and `break` on the last token, always terminates. It yields exactly the recursive reading `IntervalToSeconds`: lower-case, split on spaces, read `count unit` pairs, and treat a final lone token as `hh:mm:ss`. |
| Interval.UnitWords | evergreen/src/date.rs:46-61 | Unit words are recognised by prefix: `s`, `min`, `h`, `d`, `mon`, `y`. So "seconds", "sec", "minutes", "hours", "days", "months" and "years" are accepted. "weeks", a bare "m" and the empty word are rejected. |
| Interval.AddUnit | evergreen/src/date.rs:46-58 | Adding `count` seconds, minutes, hours or days moves the instant by exactly `count` times the unit's length in seconds. |
| Interval.AddHmsOfText | evergreen/src/date.rs:75-93 | A token `h:m:s`, with any further `:`-separated pieces ignored, moves the instant by `h*3600 + m*60 + s`. |
| Interval.ClockTailShifts | evergreen/src/date.rs:33-38 | Reading an optional final `hh:mm:ss` token after the pairs adds exactly that clock's seconds, at any instant. |
| Interval.IntervalOfTerms | evergreen/src/date.rs:24-68 | Any text made of `count unit` pairs in fixed-length units, optionally followed by a clock token, parses to the sum of count × unit length plus the clock's seconds. Unit words may be in any case and carry commas. |
| Interval.IntervalOfClock | evergreen/src/date.rs:33-38 | A lone `h:m:s` text parses to `h*3600 + m*60 + s` seconds. |
| Interval.ParseFromAccepts | evergreen/src/date.rs:31-68 | From any token on, the loop succeeds iff the tokens there are `count unit` pairs with an `i64` count and a unit word (commas removed) of a recognised prefix, ending exactly or with one token `add_hms` reads. Every failure is the invalid-interval error. |
| Interval.IntervalAccepts | evergreen/src/date.rs:20-73 | A text is accepted iff its lower-cased, space-split tokens are readable in that sense; otherwise it is rejected with the invalid-interval error. |
| Interval.UnreadablePairRejected | evergreen/src/date.rs:41-61 | Any text in which a pair the loop reaches has a count that is not an `i64`, or a unit word with no recognised prefix, is rejected, whatever the other tokens are. |
| IntervalExamples.ClockExample | evergreen/src/date.rs:14-15 | `"02:20:05"` is 8405 seconds. |
| IntervalExamples.TermsExample | evergreen/src/date.rs:17-18 | `"1 min 2 seconds"` is 62 seconds. |
| IntervalExamples.CommaExample | evergreen/src/date.rs:44 | Commas and capitals in unit words are ignored: `"1 Day, 2 hours"` is 93600 seconds. |
| IntervalExamples.ShortTextsRejected | evergreen/src/date.rs:33-38 | The empty text, a bare count and `"0s"` are rejected as intervals, since a lone token must be `hh:mm:ss`. |
| IntervalExamples.WeekRejected | evergreen/src/date.rs:46-61 | `"1 week"` is rejected: no unit prefix matches. |
| IntervalExamples.DanglingCountRejected | evergreen/src/date.rs:33-38 | `"1 day 2"` is rejected: a trailing count is read as a clock token and fails. |
| OpenXact.Decide | evergreen/src/common/billing.rs:90-110 | The transaction is closed exactly when it owes nothing, is open, and has no circulation or a completed one. It is reopened exactly when it owes something and is closed. |
| OpenXact.CheckOpenXact | evergreen/src/common/billing.rs:73-113 | It fails, with not-found, exactly when the transaction is missing. Otherwise the transaction ends up settled (finished iff nothing owed, where a circulation allows). Only that transaction's finish changes. An already settled store is returned as is. |
| OpenXact.CheckOpenXactIdempotent | evergreen/src/common/billing.rs:90-110 | Checking the same transaction a second time, at any later instant, changes nothing. |
| OpenXact.CheckOpenXactActions | evergreen/src/common/billing.rs:90-110 | The finish is set to now iff the balance is zero, the transaction is open and no unfinished circulation holds it. It is cleared iff something is owed on a closed transaction. It is kept in every other case. |
| Ledger.VoidBills | evergreen/src/common/billing.rs:17-70 | Without a requestor it fails with `NoRequestor`. When no bill has a listed id it fails with not-found. On success only bills and transaction finishes change, and the bill count stays the same. |
| Ledger.VoidBillsEffect | evergreen/src/common/billing.rs:31-63 | Exactly the listed bills not already voided are voided; every other bill is unchanged. Each touched transaction ends up settled, and every transaction that was settled stays settled. |
| Ledger.VoidBillsFails | evergreen/src/common/billing.rs:27-41 | With a requestor, voiding fails iff no bill has a listed id, or a listed unvoided bill belongs to a missing transaction. |
| Ledger.VoidBillsPenalties | evergreen/src/common/billing.rs:47 | The (patron, location) pairs queued for penalty recalculation are exactly the payers of the listed unvoided bills' transactions. |
| Ledger.VoidedBillFields | evergreen/src/common/billing.rs:49-59 | A voided bill records voider and void time. Its note is the old note and the new one joined by a newline, or whichever exists. No other field changes, and it no longer counts toward any balance. |
| Ledger.CreateBill | evergreen/src/common/billing.rs:127-153 | The new bill is appended with a fresh id. Its note defaults to "SYSTEM GENERATED". Its transaction's balance rises by the amount, and every other balance is unchanged. |
| Ledger.XactHasPaymentWithin | evergreen/src/common/billing.rs:499-531 | With no payment on the transaction the answer is false. Otherwise it fails exactly when the interval text does not parse, with that error. |
| Ledger.XactHasPaymentWithinIff | evergreen/src/common/billing.rs:499-531 | The answer is true iff the interval parses and some payment of the transaction that is not an account adjustment, voided or not, is later than now minus the interval. |
| Allocator.SeedBalanced | evergreen/src/common/billing.rs:340-352 | The initial maps describe the bills one for one and are balanced: each bill's amount equals what is still owed plus what is recorded against it. |
| Allocator.AdjustmentPassNoOp | evergreen/src/common/billing.rs:386-391 | The adjustment pass only takes payments already in the used set, which is empty at that point, so it leaves maps and payments unchanged. |
| Allocator.ApplyAdjustments | evergreen/src/common/billing.rs:400-429 | Applying adjustments to one bill keeps the amount accounted for, never makes a non-negative bill amount negative, and keeps each payment's id and amount. |
| Allocator.ExactStep | evergreen/src/common/billing.rs:435-451 | An unused payment is attached to the first bill whose remaining amount equals it. That bill's remaining amount becomes zero and the payment is marked used. Every other bill is untouched. Without such a bill nothing changes. |
| Allocator.ResidualStep | evergreen/src/common/billing.rs:474-489 | A payment applied to an owing bill either is consumed (when it fits), or zeroes the bill and carries the remainder. The money recorded plus what is carried equals the payment. |
| Allocator.AllocateMaps | evergreen/src/common/billing.rs:334-495 | Without payments the maps are the seed. A successful allocation describes every bill and is balanced, keeping non-negative amounts non-negative. Failure is only the non-terminating residual case. |
| Allocator.AllocateMapsDiverges | evergreen/src/common/billing.rs:379-492 | The allocation diverges iff, after the exact-match pass, some bill still owes and some payment is unused. Otherwise the result is that pass's maps. |
| Allocator.BillsInOrder | evergreen/src/common/billing.rs:318-332 | The bills read are a permutation of the transaction's non-voided bills, oldest first. |
| Allocator.PaymentsInOrder | evergreen/src/common/billing.rs:354-377 | The payments read are a permutation of the transaction's non-voided payments, largest first. |
| Allocator.ExactStepsCommute | evergreen/src/common/billing.rs:435-451 | Two unused payments with different ids and different non-zero amounts never compete for one bill: the exact-amount pass takes them in either order to the same maps and used set. |
| Allocator.AllocateMapsSwap | evergreen/src/common/billing.rs:371-377 | Exchanging two neighbouring payments with different ids and different non-zero amounts does not change the allocation, so the order of unequal amounts the sort produces does not matter. |
| Allocator.BillPaymentMapForXact | evergreen/src/common/billing.rs:314-495 | The maps describe the ordered bills and are balanced. A transaction without open bills gets none, and one without payments gets the seed maps. The only failure is divergence. |
| ZeroBills.Capped | evergreen/src/common/billing.rs:266-268 | The adjustment amount is the smaller of what the bill still owes and what the transaction still owes. |
| ZeroBills.AdjustOneWrites | evergreen/src/common/billing.rs:258-286 | For a bill with something left to adjust (its original amount less the adjustments already recorded on its map), one account-adjustment payment is appended. It has the next id and points at that bill. Its amount is exactly what is left, capped at the transaction total. The map's adjustment amount grows by it and no other map changes. |
| ZeroBills.AdjustBillsToZero | evergreen/src/common/billing.rs:210-299 | With no listed bill nothing changes. Errors are only a missing transaction or a diverging allocation. On success bills are untouched, payments are only appended with fresh ids, and only transaction finishes change. |
| ZeroBills.AdjustBillsToZeroFails | evergreen/src/common/billing.rs:220-235 | It fails iff a listed bill's transaction is missing (a panic) or its allocation diverges. |
| ZeroBills.AdjustBillsToZeroSettles | evergreen/src/common/billing.rs:293-296 | After adjusting, the transaction is settled, and its payer is queued for penalty recalculation. |
| ZeroBills.AdjustBillsToZeroOthers | evergreen/src/common/billing.rs:293 | No other transaction's record changes. |
| ZeroBills.AdjustBillsToZeroWrites | evergreen/src/common/billing.rs:271-282 | Every appended payment is an account adjustment by the requestor at now, with consecutive fresh ids, against a listed open bill of the transaction. |
| ZeroBills.AdjustBillsToZeroAmounts | evergreen/src/common/billing.rs:236-286 | Each appended adjustment is, in order, for the bill's original amount less what this call already wrote for that bill, capped at `xact_total`. `xact_total` is the sum of what the allocation left unpaid on the bills. Payments already allocated to a bill are not subtracted. |
| ZeroBills.AdjustBillsToZeroBalance | evergreen/src/common/billing.rs:246-291 | The transaction's balance falls by exactly the total of the appended adjustments. |
| ZeroBills.AdjustBillsToZeroOtherBalances | evergreen/src/common/billing.rs:246-291 | Every other transaction's balance is unchanged. |
| ZeroBills.AdjustBillsToZeroCaps | evergreen/src/common/billing.rs:258-268 | No bill receives more adjustment than its amount. |
| ZeroExamples.PaidBillAdjustedAgain | evergreen/src/common/billing.rs:236-268 | With bill 10 (500) paid in full and bill 11 (300) unpaid, listing both writes 300 on each and the balance goes from 300 to -300. |
| ZeroExamples.RepeatWritesZero | evergreen/src/common/billing.rs:255-282 | A first call on one unpaid 500 bill writes 500 and leaves nothing owed. A second call on the result appends a 0-cent adjustment on the same bill. |
| ZeroBills.IdsOfType | evergreen/src/common/billing.rs:167-177 | The ids collected are exactly those of the transaction's bills of the given billing type. |
| ZeroBills.HasRefundable | evergreen/src/common/billing.rs:187-198 | Without a refund-interval setting the answer is false. Otherwise it is whether a payment falls within that interval, with its parse error passed on. |
| ZeroBills.VoidOrZeroBillsOfType | evergreen/src/common/billing.rs:157-207 | With no bill of the type nothing changes, and a refundable-check error is passed on. When adjusting, bills are untouched. When voiding, payments are untouched. |
| ZeroBills.VoidOrZeroVoids | evergreen/src/common/billing.rs:203-206 | When voiding, exactly the unvoided bills of the type are voided, with the note "System: VOIDED " and the caller's text. |
| ZeroBills.ListedXactOfType | evergreen/src/common/billing.rs:167-168 | The bills of one transaction and type lead the zeroing back to that transaction. |
| ZeroBills.VoidOrZeroAdjusts | evergreen/src/common/billing.rs:200-202 | When adjusting, every appended payment is an adjustment against a bill of the type, noted "System: ADJUSTED " and the caller's text. The balance falls by their total. |
| GracePeriod.Weekday | evergreen/src/common/billing.rs:778 | The weekday of an instant in the local offset is between 0 and 6. |
| GracePeriod.WeekdayNext | evergreen/src/common/billing.rs:778 | One day later is the next weekday. |
| GracePeriod.SaturdayNeverClosed | evergreen/src/common/billing.rs:727-743 | The closed-weekday scan never looks at day 6, so at most six weekdays count as closed and the "closed every day" branch is never taken. |
| GracePeriod.Covering | evergreen/src/common/billing.rs:790-798 | The closed-date ranges found are exactly those containing the instant. |
| GracePeriod.PastClosed | evergreen/src/common/billing.rs:801-810 | Skipping covering closed ranges advances by at most one day per range, and by at least one when the instant is inside one. |
| GracePeriod.Step | evergreen/src/common/billing.rs:778-814 | A day counts as closed iff its weekday is a closed weekday or a closed-date range covers it. A closed day adds between 1 and one more than the number of ranges; an open day adds none. |
| GracePeriod.Scan | evergreen/src/common/billing.rs:773-819 | The scan takes at most the fuel's turns and at least one. It advances at least a day per turn and per closed day counted. |
| GracePeriod.ExtendGracePeriod | evergreen/src/common/billing.rs:684-827 | The grace period never shrinks, and it is unchanged when shorter than a day, when extension is off or when hours are unknown. Any extension is a whole number of days, bounded by the scan length. |
| GracePeriod.NoClosuresNoExtension | evergreen/src/common/billing.rs:748-819 | With no closed weekday and no closed dates the grace period is unchanged. |
| GracePeriod.ClosedStartExtends | evergreen/src/common/billing.rs:748-819 | If the scan starts on a closed weekday the grace period grows by at least a day. |
| GracePeriod.ClosedDateExtends | evergreen/src/common/billing.rs:789-819 | If the scan starts inside a closed-date range the grace period grows by at least a day. |
| Fines.NoGracePeriodFails | evergreen/src/common/billing.rs:568-569 | A circulation without a grace period always fails: its `"0s"` default is not a valid interval. |
| Fines.FineTotalSplit | evergreen/src/common/billing.rs:594-604 | The running fine total is the unvoided fine amounts minus every non-voided adjustment on any of the fines, a voided fine's adjustments included. |
| Fines.AdjustmentsOf | evergreen/src/common/billing.rs:588-589 | The adjustments fleshed onto a fine are exactly the store's account adjustments whose billing is that fine. |
| Fines.FineTotalVoiding | evergreen/src/common/billing.rs:594-604 | Voiding one fine lowers the total by its amount. |
| Fines.FineTotalSorted | evergreen/src/common/billing.rs:582-604 | The total does not depend on the order the fines are read in. |
| Fines.PostDue | evergreen/src/common/billing.rs:616-620 | The fines kept are exactly those whose billing timestamp text sorts after the due-date text. |
| Fines.PostDueSorted | evergreen/src/common/billing.rs:616-620 | Filtering keeps the newest-first order. |
| Fines.TextLessIrreflexive | evergreen/src/common/billing.rs:618 | No timestamp text is after itself, so a fine billed at the due-date text is not post-due. |
| Fines.CeilDiv | evergreen/src/common/billing.rs:659 | The number of periods is the ceiling of the range over the interval, for either sign of the interval. |
| Fines.Outcome | evergreen/src/common/billing.rs:642-664 | The outcome is "future" iff the baseline is after now, and "in grace" iff the due-date baseline has a positive grace with `now < due - grace`. Otherwise some periods are pending, or none when the ceiling is zero. |
| Fines.OutcomeNeverInGrace | evergreen/src/common/billing.rs:647-655 | The grace check compares now with the due date minus the grace, which lies before the due date. So it never fires once now has reached the baseline. |
| Fines.GenerateFinesForXact | evergreen/src/common/billing.rs:555-682 | It fails exactly when the fine interval or the grace text does not parse. It skips exactly when the interval, recurring fine or maximum fine is zero. Otherwise the grace used is at least the stated grace, and the outcome is future iff the baseline is after now. |
| Fines.GenerateFinesChecked | evergreen/src/common/billing.rs:594-640 | The total matches the fines and their adjustments. With post-due fines, the baseline is the latest one's instant and the stated grace is kept. Without, the baseline is the due date and the grace is the one `extend_grace_period` returns. |
| Fines.GenerateFinesPending | evergreen/src/common/billing.rs:658-664 | For a positive interval, periods are pending iff the baseline is before now, and nothing is pending iff it equals now. The pending count `n` satisfies `(n-1)·interval < now − baseline ≤ n·interval`. |

## Left out

- IntervalExamples.WeekRejected: states one text only. The promise for every unit word without a recognised prefix is `Interval.UnreadablePairRejected`.
- Unicode lower-casing: `ToLower` lowers ASCII letters only, where the source uses Rust's Unicode `to_lowercase`. The parse result is the same. The only non-ASCII characters whose lower case contains an ASCII character are the Kelvin sign, which becomes `k`, and `İ`, which becomes `i` plus a combining dot. Neither can start a unit word, and neither can form a digit, a sign, a `:`, a comma or a space.
- Allocator.PaymentsInOrder: sorts by the exact amount in cents, where the source compares `json_int(&amount).unwrap()` (billing.rs:372). `json_int` is not part of this model. If it truncates a decimal amount, two payments whose amounts differ only in cents compare as tied and keep time order. `Allocator.AllocateMapsSwap` shows that reordering payments of unequal non-zero amounts leaves the allocation unchanged. The order of 0-cent payments against others is not covered. If `json_int` rejects a decimal amount, the `unwrap` panics, a failure this model does not have.
- Integer overflow and chrono panics: `i64` arithmetic is taken as unbounded, and the `Duration` constructors' panics on huge counts are not modelled. Month and year counts keep the source's `as u32` wrap-around.
- Calendar months and years: `Months::new` arithmetic is an oracle parameter `addMonths`, since it depends on the calendar and time zone.
- Floating point: amounts are exact integer cents. The `f64` difference in `adjust_bills_to_zero` and `* 100.0` are taken as exact, and the `ceil() as i64` saturation in `generate_fines_for_xact` is not modelled.
- Time zones and daylight saving: local time is a fixed offset in seconds. Timestamp parsing (`parse_datetime`) is taken as succeeding, with each stored timestamp carrying both its text and its instant.
- `Local::now()`: `interval_to_seconds` calls it twice; both calls are modelled as the same instant `now`.
- The residual pass of `bill_payment_map_for_xact`: it never returns when a bill still owes and a payment is left, so that case is the error `Diverges` rather than a hang.
- Database errors: query and update failures are not modelled, and all retrievals succeed. Records are updated by position, matching unique primary keys.
- Penalty recalculation: `calculate_penalties` is not part of this model. The operations return the set of (patron, location) pairs they would recalculate.
- The transaction summary view: `balance_owed` is computed from non-voided bills and payments instead of being read.
- Settings: the org-unit setting lookups are parameters (`ZeroSettings`, `GraceSettings`, calendar data) and `json_bool` values are plain booleans. The settings read at billing.rs:666-679 in `generate_fines_for_xact` are read and never used, so they are not modelled.
- `BTYPE_OVERDUE_MATERIALS`: its value is defined outside this model, so the overdue billing type is a parameter.
- Requestor: `requestor_id` is an optional user id.
- Logging and error message texts are not modelled; errors are a small enumeration.
- The dead bill-amount update in `adjust_bills_to_zero` (billing.rs:289-290) changes a local copy that is never written back, so it is not modelled.
- `generate_fines_for_resv` and `generate_fines_for_circ` are outside the modelled core. `generate_fines_for_xact` itself ends after its checks; the model returns what those checks found.
- Sort ties: the SQL `ORDER BY` clauses are modelled by a stable sort, so rows with equal keys keep store order; the database may order them differently.
- ZeroBills.AdjustBillsToZero: no contract promises that the listed bills or the transaction end at zero. As written, payments already allocated are not subtracted and the `xact_total` cap is never lowered, so the balance can go negative (`ZeroExamples.PaidBillAdjustedAgain`).
- ZeroBills.AdjustBillsToZeroWrites: does not promise that amounts lie in (0, `xact_total`] or that a bill is never adjusted twice. As written, a zero or negative `xact_total` gives an adjustment of that amount, and a repeat call adjusts the same bill again (`ZeroExamples.RepeatWritesZero`).
- ZeroBills.VoidOrZeroAdjusts: assumes bill ids are unique in the store, as the primary key guarantees.
- Interval.IntervalOfTerms: covers texts in seconds, minutes, hours and days only; month and year terms go through the oracle and are characterised only by `AddUnit` and `UnitWords`.
- GracePeriod.ExtendGracePeriod: the exact number of extension days is stated through `Step` and `Scan` and the closure lemmas rather than as one closed formula.

=== FILE: allocator.dfy ===
/** `bill_payment_map_for_xact`: which payments and account adjustments
    pay off which bills of a transaction. Bills are taken oldest first; the
    allocation runs an adjustment pass, an exact-amount pass and a residual
    pass, each over `BillPaymentMap` records. */
module Allocator {
  import opened Basics
  import opened Records
  import opened Sorting

  /** One bill with what has been applied to it. `bill.amount` is the part
      still unpaid; `billAmount` is the amount the bill was created with. */
  datatype BillPaymentMap = BillPaymentMap(
    bill: Bill,
    adjustments: seq<Adjustment>,
    payments: seq<Payment>,
    billAmount: int,
    adjustmentAmount: int)

  /** Sum of the amounts of a list of payments. */
  function Recorded(ps: seq<Payment>): int
  {
    if |ps| == 0 then 0 else ps[0].amount + Recorded(ps[1..])
  }

  lemma {:induction false} RecordedAppend(ps: seq<Payment>, p: Payment)
    ensures Recorded(ps + [p]) == Recorded(ps) + p.amount
  {
    if |ps| > 0 {
      RecordedAppend(ps[1..], p);
      assert (ps + [p])[1..] == ps[1..] + [p];
    }
  }

  /** What a map accounts for: the unpaid rest, the adjustments and the
      payments applied. Every pass keeps it equal to `billAmount`. */
  function Accounted(m: BillPaymentMap): int
  {
    m.bill.amount + m.adjustmentAmount + Recorded(m.payments)
  }

  predicate Balanced(maps: seq<BillPaymentMap>)
  {
    forall k :: 0 <= k < |maps| ==> Accounted(maps[k]) == maps[k].billAmount
  }

  predicate NonNegative(maps: seq<BillPaymentMap>)
  {
    forall k :: 0 <= k < |maps| ==> maps[k].bill.amount >= 0
  }

  /** The maps describe, in order, the bills `bills`, with only the unpaid
      amount of each bill changed. */
  predicate Describes(maps: seq<BillPaymentMap>, bills: seq<Bill>)
  {
    && |maps| == |bills|
    && forall k :: 0 <= k < |maps| ==>
         maps[k].bill == bills[k].(amount := maps[k].bill.amount) && maps[k].billAmount == bills[k].amount
  }

  /** One map per bill, nothing applied yet. */
  function Seed(bills: seq<Bill>): (r: seq<BillPaymentMap>)
    ensures |r| == |bills|
    ensures forall k :: 0 <= k < |r| ==> r[k] == BillPaymentMap(bills[k], [], [], bills[k].amount, 0)
  {
    seq(|bills|, k requires 0 <= k < |bills| => BillPaymentMap(bills[k], [], [], bills[k].amount, 0))
  }

  lemma SeedBalanced(bills: seq<Bill>)
    ensures Balanced(Seed(bills)) && Describes(Seed(bills), bills)
    ensures (forall k :: 0 <= k < |bills| ==> bills[k].amount >= 0) ==> NonNegative(Seed(bills))
  {
  }

  // ---------------------------------------------------------------------
  // Adjustment pass

  /** An adjustment payment that the pass may apply to bill `billId`: its
      adjustment id is in `used` and it names that bill. */
  predicate AppliesTo(p: Payment, used: set<int>, billId: int)
  {
    p.adjustment.Some? && p.adjustment.value.id in used && p.adjustment.value.billing == billId
  }

  /** Positions, from `from` on, of the payments the pass may apply to bill
      `billId`, in payment order. */
  function MatchingAdjustments(payments: seq<Payment>, used: set<int>, billId: int, from: nat): (r: seq<nat>)
    requires from <= |payments|
    ensures forall j :: 0 <= j < |r| ==> from <= r[j] < |payments| && AppliesTo(payments[r[j]], used, billId)
    ensures forall k :: from <= k < |payments| && AppliesTo(payments[k], used, billId) ==> k in r
    decreases |payments| - from
  {
    if from == |payments| then []
    else
      var rest := MatchingAdjustments(payments, used, billId, from + 1);
      if AppliesTo(payments[from], used, billId) then [from] + rest else rest
  }

  /** Applies the adjustments at positions `idxs` to `m` in turn, stopping
      once the bill is paid off. An adjustment larger than what is left is
      split: the map records the part used, the payment keeps the rest. */
  function ApplyAdjustments(m: BillPaymentMap, payments: seq<Payment>, used: set<int>, idxs: seq<nat>)
    : (r: (BillPaymentMap, seq<Payment>, set<int>))
    requires forall j :: 0 <= j < |idxs| ==> idxs[j] < |payments| && AppliesTo(payments[idxs[j]], used, m.bill.id)
    ensures Accounted(r.0) - r.0.billAmount == Accounted(m) - m.billAmount
    ensures r.0.bill == m.bill.(amount := r.0.bill.amount) && r.0.billAmount == m.billAmount
    ensures m.bill.amount >= 0 ==> r.0.bill.amount >= 0
    ensures r.2 == used
    ensures |r.1| == |payments|
    ensures forall k :: 0 <= k < |payments| ==> r.1[k].id == payments[k].id && r.1[k].amount == payments[k].amount
    ensures forall k, u, b :: 0 <= k < |payments| && AppliesTo(payments[k], u, b) ==> AppliesTo(r.1[k], u, b)
    decreases |idxs|
  {
    if |idxs| == 0 then (m, payments, used)
    else
      var i := idxs[0];
      assert AppliesTo(payments[i], used, m.bill.id);
      var adj := payments[i].adjustment.value;
      var newAmount := m.bill.amount - adj.amount;
      var next: (BillPaymentMap, seq<Payment>, set<int>) :=
        if newAmount >= 0 then
          (m.(adjustments := m.adjustments + [adj],
              adjustmentAmount := m.adjustmentAmount + adj.amount,
              bill := m.bill.(amount := newAmount)),
           payments, used + {adj.id})
        else
          var part := adj.(amount := m.bill.amount, amountCollected := m.bill.amount);
          (m.(adjustments := m.adjustments + [part],
              adjustmentAmount := m.adjustmentAmount + part.amount,
              bill := m.bill.(amount := 0)),
           payments[i := payments[i].(adjustment := Some(adj.(amount := -newAmount)))], used);
      assert Recorded(next.0.payments) == Recorded(m.payments);
      assert adj.id in used;
      assert next.2 == used;
      assert forall k :: 0 <= k < |payments| ==> next.1[k].adjustment.Some? == payments[k].adjustment.Some?;
      assert forall k :: 0 <= k < |payments| && payments[k].adjustment.Some? ==>
        next.1[k].adjustment.value.id == payments[k].adjustment.value.id
        && next.1[k].adjustment.value.billing == payments[k].adjustment.value.billing;
      if next.0.bill.amount == 0 then next
      else ApplyAdjustments(next.0, next.1, next.2, idxs[1..])
  }

  /** The adjustment pass over `maps`, in order. */
  function AdjustmentPass(maps: seq<BillPaymentMap>, payments: seq<Payment>, used: set<int>)
    : (r: (seq<BillPaymentMap>, seq<Payment>, set<int>))
    ensures |r.0| == |maps|
    ensures r.2 == used
    ensures used == {} ==> r.0 == maps && r.1 == payments
    decreases |maps|
  {
    if |maps| == 0 then ([], payments, used)
    else
      var mine := MatchingAdjustments(payments, used, maps[0].bill.id, 0);
      var first: (BillPaymentMap, seq<Payment>, set<int>) :=
        if |mine| == 0 then (maps[0], payments, used)
        else ApplyAdjustments(maps[0], payments, used, mine);
      var rest := AdjustmentPass(maps[1..], first.1, first.2);
      assert used == {} ==> [maps[0]] + maps[1..] == maps;
      ([first.0] + rest.0, rest.1, rest.2)
  }

  /** The pass only looks at adjustments whose id is already used, and
      starts with none used, so it applies nothing. */
  lemma AdjustmentPassNoOp(maps: seq<BillPaymentMap>, payments: seq<Payment>)
    ensures AdjustmentPass(maps, payments, {}) == (maps, payments, {})
  {
  }

  // ---------------------------------------------------------------------
  // Exact-amount pass

  /** Position of the first map whose unpaid amount is `amount`. */
  function FirstWithAmount(maps: seq<BillPaymentMap>, amount: int): (r: Option<nat>)
    ensures r.Some? ==> r.value < |maps| && maps[r.value].bill.amount == amount
                        && forall k :: 0 <= k < r.value ==> maps[k].bill.amount != amount
    ensures r.None? ==> forall k :: 0 <= k < |maps| ==> maps[k].bill.amount != amount
  {
    if |maps| == 0 then None
    else if maps[0].bill.amount == amount then Some(0)
    else
      match FirstWithAmount(maps[1..], amount)
      case None => None
      case Some(k) => Some(k + 1)
  }

  /** One payment of the exact-amount pass: an unused payment pays off the
      first map whose unpaid amount equals it. */
  function ExactStep(maps: seq<BillPaymentMap>, p: Payment, used: set<int>): (r: (seq<BillPaymentMap>, set<int>))
    ensures |r.0| == |maps|
    ensures p.id in used ==> r == (maps, used)
    ensures p.id !in used && FirstWithAmount(maps, p.amount).Some? ==>
              var k := FirstWithAmount(maps, p.amount).value;
              && r.0[k].bill == maps[k].bill.(amount := 0)
              && r.0[k].payments == maps[k].payments + [p]
              && r.1 == used + {p.id}
              && forall j :: 0 <= j < |maps| && j != k ==> r.0[j] == maps[j]
    ensures p.id !in used && FirstWithAmount(maps, p.amount).None? ==> r == (maps, used)
    ensures forall j :: 0 <= j < |maps| ==>
              && Accounted(r.0[j]) == Accounted(maps[j])
              && r.0[j].bill == maps[j].bill.(amount := r.0[j].bill.amount)
              && r.0[j].billAmount == maps[j].billAmount
              && r.0[j].adjustments == maps[j].adjustments
              && r.0[j].adjustmentAmount == maps[j].adjustmentAmount
              && (maps[j].bill.amount >= 0 ==> r.0[j].bill.amount >= 0)
  {
    if p.id in used then (maps, used)
    else
      match FirstWithAmount(maps, p.amount)
      case None => (maps, used)
      case Some(k) =>
        var m := maps[k];
        RecordedAppend(m.payments, p);
        var paid := m.(bill := m.bill.(amount := 0), payments := m.payments + [p]);
        (maps[k := paid], used + {p.id})
  }

  /** The exact-amount pass over the payments, largest first. */
  function ExactMatchPass(maps: seq<BillPaymentMap>, payments: seq<Payment>, used: set<int>)
    : (r: (seq<BillPaymentMap>, set<int>))
    ensures |r.0| == |maps|
    ensures forall j :: 0 <= j < |maps| ==>
              && Accounted(r.0[j]) == Accounted(maps[j])
              && r.0[j].bill == maps[j].bill.(amount := r.0[j].bill.amount)
              && r.0[j].billAmount == maps[j].billAmount
              && r.0[j].adjustments == maps[j].adjustments
              && r.0[j].adjustmentAmount == maps[j].adjustmentAmount
              && (maps[j].bill.amount >= 0 ==> r.0[j].bill.amount >= 0)
    decreases |payments|
  {
    if |payments| == 0 then (maps, used)
    else
      var step := ExactStep(maps, payments[0], used);
      ExactMatchPass(step.0, payments[1..], step.1)
  }

  /** The payments whose id was not used by the exact-amount pass. */
  function RemoveUsed(payments: seq<Payment>, used: set<int>): (r: seq<Payment>)
    ensures forall j :: 0 <= j < |r| ==> r[j] in payments && r[j].id !in used
    ensures forall p :: p in payments && p.id !in used ==> p in r
  {
    if |payments| == 0 then []
    else if payments[0].id !in used then [payments[0]] + RemoveUsed(payments[1..], used)
    else RemoveUsed(payments[1..], used)
  }

  // ---------------------------------------------------------------------
  // Order of the payments in the exact-amount pass

  /** Maps that agree on which positions still owe `amount` have the same
      first such position. */
  lemma FirstWithAmountSame(maps: seq<BillPaymentMap>, other: seq<BillPaymentMap>, amount: int)
    requires |other| == |maps|
    requires forall j :: 0 <= j < |maps| ==> (other[j].bill.amount == amount <==> maps[j].bill.amount == amount)
    ensures FirstWithAmount(other, amount) == FirstWithAmount(maps, amount)
  {
    var a := FirstWithAmount(maps, amount);
    var b := FirstWithAmount(other, amount);
    if a.Some? && b.Some? {
      assert !(a.value < b.value) && !(b.value < a.value);
    }
  }

  /** An exact step for `p` leaves the first map owing any other non-zero
      amount where it was. */
  lemma ExactStepKeepsOthers(maps: seq<BillPaymentMap>, p: Payment, used: set<int>, amount: int)
    requires amount != p.amount && amount != 0
    ensures FirstWithAmount(ExactStep(maps, p, used).0, amount) == FirstWithAmount(maps, amount)
  {
    FirstWithAmountSame(maps, ExactStep(maps, p, used).0, amount);
  }

  /** Two payments with different ids and different non-zero amounts never
      compete for one map: the exact pass takes them in either order to the
      same maps and the same used set. */
  lemma ExactStepsCommute(maps: seq<BillPaymentMap>, p: Payment, q: Payment, used: set<int>)
    requires p.id != q.id && p.amount != q.amount && p.amount != 0 && q.amount != 0
    ensures var a := ExactStep(maps, p, used);
            var b := ExactStep(maps, q, used);
            ExactStep(a.0, q, a.1) == ExactStep(b.0, p, b.1)
  {
    var a := ExactStep(maps, p, used);
    var b := ExactStep(maps, q, used);
    ExactStepKeepsOthers(maps, p, used, q.amount);
    ExactStepKeepsOthers(maps, q, used, p.amount);
    var fp := FirstWithAmount(maps, p.amount);
    var fq := FirstWithAmount(maps, q.amount);
    if p.id !in used && q.id !in used && fp.Some? && fq.Some? {
      var kp := fp.value;
      var kq := fq.value;
      assert kp != kq;
      var xp := maps[kp].(bill := maps[kp].bill.(amount := 0), payments := maps[kp].payments + [p]);
      var xq := maps[kq].(bill := maps[kq].bill.(amount := 0), payments := maps[kq].payments + [q]);
      assert a.0 == maps[kp := xp];
      assert b.0 == maps[kq := xq];
      assert a.0[kq] == maps[kq] && b.0[kp] == maps[kp];
      assert maps[kp := xp][kq := xq] == maps[kq := xq][kp := xp];
      assert used + {p.id} + {q.id} == used + {q.id} + {p.id};
    }
  }

  /** `ps` with the payments at `i` and `i + 1` exchanged. */
  function SwapAt(ps: seq<Payment>, i: nat): (r: seq<Payment>)
    requires i + 1 < |ps|
    ensures |r| == |ps| && r[i] == ps[i + 1] && r[i + 1] == ps[i]
    ensures forall j :: 0 <= j < |ps| && j != i && j != i + 1 ==> r[j] == ps[j]
  {
    ps[..i] + [ps[i + 1], ps[i]] + ps[i + 2..]
  }

  /** Exchanging two neighbouring payments of different ids and different
      non-zero amounts does not change what the exact-amount pass does. */
  lemma {:induction false} ExactMatchPassSwap(maps: seq<BillPaymentMap>, ps: seq<Payment>, i: nat, used: set<int>)
    requires i + 1 < |ps|
    requires ps[i].id != ps[i + 1].id && ps[i].amount != ps[i + 1].amount
    requires ps[i].amount != 0 && ps[i + 1].amount != 0
    ensures ExactMatchPass(maps, SwapAt(ps, i), used) == ExactMatchPass(maps, ps, used)
    decreases i
  {
    var sw := SwapAt(ps, i);
    if i == 0 {
      ExactStepsCommute(maps, ps[0], ps[1], used);
      var a := ExactStep(maps, ps[0], used);
      var b := ExactStep(maps, ps[1], used);
      var ab := ExactStep(a.0, ps[1], a.1);
      assert ps[1..][0] == ps[1] && ps[1..][1..] == ps[2..];
      assert sw[0] == ps[1] && sw[1..][0] == ps[0] && sw[1..][1..] == ps[2..];
      assert ExactMatchPass(maps, ps, used) == ExactMatchPass(ab.0, ps[2..], ab.1);
      assert ExactMatchPass(maps, sw, used) == ExactMatchPass(ab.0, ps[2..], ab.1);
    } else {
      var step := ExactStep(maps, ps[0], used);
      assert sw[0] == ps[0];
      assert sw[1..] == SwapAt(ps[1..], i - 1);
      ExactMatchPassSwap(step.0, ps[1..], i - 1, step.1);
    }
  }

  /** Some payment of `ps` is not in `used` iff `RemoveUsed` keeps one. */
  lemma RemoveUsedEmpty(ps: seq<Payment>, used: set<int>)
    ensures RemoveUsed(ps, used) == [] <==> forall j :: 0 <= j < |ps| ==> ps[j].id in used
  {
    if exists j :: 0 <= j < |ps| && ps[j].id !in used {
      var j :| 0 <= j < |ps| && ps[j].id !in used;
      assert ps[j] in ps;
    }
  }

  // ---------------------------------------------------------------------
  // Residual pass

  /** A map after one step of the residual pass, the payment as it is left,
      and whether the payment was used up. */
  datatype Step = Step(entry: BillPaymentMap, pay: Payment, consumed: bool)

  /** One run of the body of the residual loop: a payment larger than the
      unpaid rest is split, the map taking the rest and the payment keeping
      the difference; otherwise the payment is used up whole. A bill with
      nothing unpaid is left alone. */
  function ResidualStep(m: BillPaymentMap, pay: Payment): (r: Step)
    ensures Accounted(r.entry) == Accounted(m)
    ensures Recorded(r.entry.payments) - Recorded(m.payments) + (if r.consumed then 0 else r.pay.amount) == pay.amount
    ensures m.bill.amount > 0 ==> r.entry.bill.amount >= 0
    ensures m.bill.amount > 0 ==> (r.consumed <==> pay.amount <= m.bill.amount)
    ensures m.bill.amount > 0 && !r.consumed ==> r.entry.bill.amount == 0 && r.pay.amount == pay.amount - m.bill.amount
    ensures m.bill.amount <= 0 ==> r == Step(m, pay, false)
    ensures r.entry.bill == m.bill.(amount := r.entry.bill.amount) && r.entry.billAmount == m.billAmount
  {
    if m.bill.amount > 0 then
      var newAmount := m.bill.amount - pay.amount;
      if newAmount < 0 then
        var part := pay.(amount := m.bill.amount);
        RecordedAppend(m.payments, part);
        Step(m.(bill := m.bill.(amount := 0), payments := m.payments + [part]), pay.(amount := -newAmount), false)
      else
        RecordedAppend(m.payments, pay);
        Step(m.(bill := m.bill.(amount := newAmount), payments := m.payments + [pay]), pay, true)
    else Step(m, pay, false)
  }

  /** Whether some bill still has an unpaid rest. */
  predicate AnyOwing(maps: seq<BillPaymentMap>)
  {
    exists k :: 0 <= k < |maps| && maps[k].bill.amount > 0
  }

  // ---------------------------------------------------------------------
  // The whole allocation

  /** The allocation over bills in billing order and payments largest
      first. The residual loop has no exit: it never returns once a bill
      with an unpaid rest meets a payment left over, which is `Diverges`. */
  function AllocateMaps(bills: seq<Bill>, payments: seq<Payment>): (r: Result<seq<BillPaymentMap>>)
    ensures |bills| == 0 ==> r == Ok([])
    ensures |payments| == 0 ==>
              && r.Ok? && |r.value| == |bills|
              && forall k :: 0 <= k < |bills| ==> r.value[k] == BillPaymentMap(bills[k], [], [], bills[k].amount, 0)
    ensures r.Err? ==> r.error == Diverges && |payments| > 0
    ensures r.Ok? ==> Describes(r.value, bills) && Balanced(r.value)
    ensures r.Ok? ==> forall k :: 0 <= k < |r.value| ==> r.value[k].adjustments == [] && r.value[k].adjustmentAmount == 0
    ensures r.Ok? && (forall k :: 0 <= k < |bills| ==> bills[k].amount >= 0) ==> NonNegative(r.value)
  {
    if |bills| == 0 then Ok([])
    else
      var maps := Seed(bills);
      if |payments| == 0 then Ok(maps)
      else
        var adjusted := AdjustmentPass(maps, payments, {});
        var exact := ExactMatchPass(adjusted.0, adjusted.1, {});
        var rest := RemoveUsed(adjusted.1, exact.1);
        if |rest| > 0 && AnyOwing(exact.0) then Err(Diverges)
        else Ok(exact.0)
  }

  /** The allocation does not depend on the order of two neighbouring
      payments with different ids and different non-zero amounts. So any
      sort key that keeps payments of equal amount in the same relative
      order, and orders unequal amounts however it likes, gives the same
      maps. */
  lemma AllocateMapsSwap(bills: seq<Bill>, ps: seq<Payment>, i: nat)
    requires i + 1 < |ps|
    requires ps[i].id != ps[i + 1].id && ps[i].amount != ps[i + 1].amount
    requires ps[i].amount != 0 && ps[i + 1].amount != 0
    ensures AllocateMaps(bills, SwapAt(ps, i)) == AllocateMaps(bills, ps)
  {
    if |bills| > 0 {
      var sw := SwapAt(ps, i);
      AllocateMapsDiverges(bills, ps);
      AllocateMapsDiverges(bills, sw);
      ExactMatchPassSwap(Seed(bills), ps, i, {});
      var exact := ExactMatchPass(Seed(bills), ps, {});
      RemoveUsedEmpty(ps, exact.1);
      RemoveUsedEmpty(sw, exact.1);
      SwapAtAllUsed(ps, i, exact.1);
    }
  }

  /** Every payment's id is in `used` before the exchange iff it is after. */
  lemma SwapAtAllUsed(ps: seq<Payment>, i: nat, used: set<int>)
    requires i + 1 < |ps|
    ensures (forall j :: 0 <= j < |ps| ==> ps[j].id in used)
            <==> (forall j :: 0 <= j < |ps| ==> SwapAt(ps, i)[j].id in used)
  {
    var sw := SwapAt(ps, i);
    if forall j :: 0 <= j < |ps| ==> sw[j].id in used {
      forall j | 0 <= j < |ps| ensures ps[j].id in used {
        if j == i { assert sw[i + 1] == ps[j]; } else if j == i + 1 { assert sw[i] == ps[j]; } else { assert sw[j] == ps[j]; }
      }
    }
  }

  /** As written, the adjustment pass plays no part: the allocation
      diverges exactly when, after the exact-amount pass alone, a bill is
      still owing and a payment is left unused. */
  lemma AllocateMapsDiverges(bills: seq<Bill>, payments: seq<Payment>)
    requires |bills| > 0 && |payments| > 0
    ensures var exact := ExactMatchPass(Seed(bills), payments, {});
            (AllocateMaps(bills, payments).Err? <==> AnyOwing(exact.0) && RemoveUsed(payments, exact.1) != [])
    ensures var exact := ExactMatchPass(Seed(bills), payments, {});
            AllocateMaps(bills, payments).Ok? ==> AllocateMaps(bills, payments).value == exact.0
  {
    AdjustmentPassNoOp(Seed(bills), payments);
  }

  /** The non-voided bills of a transaction. */
  function OpenBills(bills: seq<Bill>, xact: int): (r: seq<Bill>)
    ensures forall b :: b in r <==> b in bills && b.xact == xact && !b.voided
  {
    if |bills| == 0 then []
    else if bills[0].xact == xact && !bills[0].voided then [bills[0]] + OpenBills(bills[1..], xact)
    else OpenBills(bills[1..], xact)
  }

  /** The non-voided payments on a transaction. */
  function OpenPayments(payments: seq<Payment>, xact: int): (r: seq<Payment>)
    ensures forall p :: p in r <==> p in payments && p.xact == xact && !p.voided
  {
    if |payments| == 0 then []
    else if payments[0].xact == xact && !payments[0].voided then [payments[0]] + OpenPayments(payments[1..], xact)
    else OpenPayments(payments[1..], xact)
  }

  function BillingInstant(b: Bill): int { b.billingTs.instant }

  function PaymentInstant(p: Payment): int { p.paymentTs }

  /** Larger amounts sort first. */
  function LargestFirst(p: Payment): int { -p.amount }

  /** The transaction's non-voided bills, oldest first (`order_by
      billing_ts`). */
  function BillsInOrder(store: Store, xact: int): (r: seq<Bill>)
    ensures SortedBy(r, BillingInstant)
    ensures multiset(r) == multiset(OpenBills(store.bills, xact))
    ensures forall k :: 0 <= k < |r| ==> r[k].xact == xact && !r[k].voided
  {
    var r := SortBy(OpenBills(store.bills, xact), BillingInstant);
    SortBySorted(OpenBills(store.bills, xact), BillingInstant);
    forall k | 0 <= k < |r|
      ensures r[k].xact == xact && !r[k].voided
    {
      assert r[k] in multiset(OpenBills(store.bills, xact));
    }
    r
  }

  /** The transaction's non-voided payments by `payment_ts`, then re-sorted
      largest amount first. */
  function PaymentsInOrder(store: Store, xact: int): (r: seq<Payment>)
    ensures SortedBy(r, LargestFirst)
    ensures multiset(r) == multiset(OpenPayments(store.payments, xact))
  {
    var byTime := SortBy(OpenPayments(store.payments, xact), PaymentInstant);
    SortBySorted(byTime, LargestFirst);
    SortBy(byTime, LargestFirst)
  }

  /** The allocation for a transaction read from the store. */
  function BillPaymentMapForXact(store: Store, xact: int): (r: Result<seq<BillPaymentMap>>)
    ensures r.Ok? ==> Describes(r.value, BillsInOrder(store, xact)) && Balanced(r.value)
    ensures OpenBills(store.bills, xact) == [] ==> r == Ok([])
    ensures OpenPayments(store.payments, xact) == [] ==>
              && r.Ok?
              && forall k :: 0 <= k < |r.value| ==>
                   r.value[k] == BillPaymentMap(BillsInOrder(store, xact)[k], [], [], BillsInOrder(store, xact)[k].amount, 0)
    ensures r.Err? ==> r.error == Diverges
    ensures r.Ok? ==> forall k :: 0 <= k < |r.value| ==> r.value[k].adjustments == [] && r.value[k].adjustmentAmount == 0
  {
    AllocateMaps(BillsInOrder(store, xact), PaymentsInOrder(store, xact))
  }
}

=== FILE: basics.dfy ===
/** Failure-compatible wrappers shared by every module of the billing model. */
module Basics {

  datatype Option<+T> = None | Some(value: T) {
    function GetOr(default: T): T {
      match this
      case Some(v) => v
      case None => default
    }
  }

  /** The ways a call of the billing core can end without a value.
      `Diverges` stands for a call that, as written, never returns. */
  datatype Error =
    | NoRequestor
    | NotFound
    | InvalidInterval
    | Panic
    | Diverges

  datatype Result<+T> = Ok(value: T) | Err(error: Error) {
    predicate IsFailure() {
      Err?
    }

    function PropagateFailure<U>(): Result<U>
      requires Err?
    {
      Err(error)
    }

    function Extract(): T
      requires Ok?
    {
      value
    }
  }

  /** Smallest and largest values of a Rust `i64`. */
  const I64_MIN: int := -0x8000_0000_0000_0000
  const I64_MAX: int := 0x7FFF_FFFF_FFFF_FFFF

  /** Modulus of a Rust `u32`. */
  const U32_MOD: int := 0x1_0000_0000

  /** `x as u32` for an `i64` value: keeps the low 32 bits. */
  function AsU32(x: int): (r: nat)
    ensures r < U32_MOD
    ensures (x - r) % U32_MOD == 0
  {
    x % U32_MOD
  }
}

=== FILE: fines.dfy ===
/** `generate_fines_for_xact`: the checks the fine generator makes before
    it would create overdue fines for a circulation. It parses the fine
    interval and the grace period, skips free circulations, totals the
    fines so far, picks the baseline (the newest fine billed after the due
    date, or the due date with an extended grace period), and counts the
    fine periods pending since the baseline. No billing is created on any
    path, so the model returns what the checks found. */
module Fines {
  import opened Basics
  import opened Records
  import opened Sorting
  import opened Interval
  import opened GracePeriod
  import IntervalExamples

  /** The circulation fields the generator reads. Money is in cents; the
      due date keeps both its text and the instant it denotes. */
  datatype Circulation = Circulation(
    xact: int,
    dueDate: Stamp,
    recurringFine: int,
    fineInterval: string,
    maxFine: int,
    gracePeriod: Option<string>)

  /** What the library's calendar says to `extend_grace_period`: its
      settings, hours of operation, closed dates and local offset. */
  datatype Calendar = Calendar(
    settings: GraceSettings,
    hours: Option<Hours>,
    closed: seq<ClosedDate>,
    offset: int)

  predicate ValidCalendar(cal: Calendar)
  {
    cal.hours.Some? ==> |cal.hours.value.days| == 7
  }

  /** Where the checks stop. */
  datatype FineOutcome =
    | FutureFine          // the baseline lies after now
    | InGrace             // still inside the grace period
    | NothingPending      // no fine period has begun since the baseline
    | Pending(count: int) // this many fine periods are due

  /** A skipped circulation, or what the checks found: the fine total in
      cents, the grace period used, the baseline and the outcome. */
  datatype FineRun =
    | Skipped
    | Checked(total: int, grace: int, baseline: int, outcome: FineOutcome)

  /** The grace period text, "0s" when the circulation has none. */
  function GraceText(g: Option<string>): string
  {
    match g
    case Some(text) => text
    case None => "0s"
  }

  // ---------------------------------------------------------------------
  // The fines so far.

  /** The bills of transaction `xact` with billing type `btype`, in store
      order. */
  function OverdueFines(bills: seq<Bill>, xact: int, btype: int): (r: seq<Bill>)
    ensures forall k :: 0 <= k < |r| ==> r[k] in bills && OfType(r[k], xact, btype)
    ensures forall b :: b in bills && OfType(b, xact, btype) ==> b in r
  {
    if |bills| == 0 then []
    else
      var rest := OverdueFines(bills[1..], xact, btype);
      if OfType(bills[0], xact, btype) then [bills[0]] + rest else rest
  }

  /** The order key of `billing_ts DESC`. */
  function NewestFirst(b: Bill): int
  {
    -b.billingTs.instant
  }

  /** The account adjustments fleshed onto bill `id`. */
  function AdjustmentsOf(payments: seq<Payment>, id: int): (r: seq<Payment>)
    ensures forall k :: 0 <= k < |r| ==> r[k] in payments && r[k].adjustment.Some? && r[k].adjustment.value.billing == id
    ensures forall p :: p in payments && p.adjustment.Some? && p.adjustment.value.billing == id ==> p in r
  {
    if |payments| == 0 then []
    else
      var rest := AdjustmentsOf(payments[1..], id);
      var p := payments[0];
      assert forall q :: q in payments ==> q == p || q in payments[1..];
      if p.adjustment.Some? && p.adjustment.value.billing == id then [p] + rest else rest
  }

  /** What the non-voided adjustments of a fine take off the total. */
  function AdjustedSum(adjustments: seq<Payment>): int
  {
    if |adjustments| == 0 then 0
    else (if adjustments[0].voided then 0 else adjustments[0].amount) + AdjustedSum(adjustments[1..])
  }

  /** What one fine adds to the total: its amount unless voided, less its
      non-voided adjustments, whether or not the fine itself is voided. */
  function FineShare(f: Bill, payments: seq<Payment>): int
  {
    (if f.voided then 0 else f.amount) - AdjustedSum(AdjustmentsOf(payments, f.id))
  }

  /** `current_fine_total`, in cents. */
  function FineTotal(fines: seq<Bill>, payments: seq<Payment>): int
  {
    if |fines| == 0 then 0 else FineShare(fines[0], payments) + FineTotal(fines[1..], payments)
  }

  /** The sum of the amounts of the non-voided fines. */
  function UnvoidedAmount(fines: seq<Bill>): int
  {
    if |fines| == 0 then 0 else (if fines[0].voided then 0 else fines[0].amount) + UnvoidedAmount(fines[1..])
  }

  /** The sum of the non-voided adjustments of all fines, voided or not. */
  function AdjustedOnFines(fines: seq<Bill>, payments: seq<Payment>): int
  {
    if |fines| == 0 then 0
    else AdjustedSum(AdjustmentsOf(payments, fines[0].id)) + AdjustedOnFines(fines[1..], payments)
  }

  /** The total is what the non-voided fines amount to less every
      non-voided adjustment on any of the fines: the adjustments of a
      voided fine are subtracted too. */
  lemma {:induction false} FineTotalSplit(fines: seq<Bill>, payments: seq<Payment>)
    ensures FineTotal(fines, payments) == UnvoidedAmount(fines) - AdjustedOnFines(fines, payments)
  {
    if |fines| > 0 {
      FineTotalSplit(fines[1..], payments);
    }
  }

  /** Voiding a fine lowers the total by its amount and no more: its
      adjustments still count against the total. */
  lemma {:induction false} FineTotalVoiding(fines: seq<Bill>, payments: seq<Payment>, i: nat)
    requires i < |fines| && !fines[i].voided
    ensures FineTotal(fines[i := fines[i].(voided := true)], payments) == FineTotal(fines, payments) - fines[i].amount
  {
    if i == 0 {
      assert fines[i := fines[i].(voided := true)][1..] == fines[1..];
    } else {
      FineTotalVoiding(fines[1..], payments, i - 1);
      assert fines[i := fines[i].(voided := true)][1..] == fines[1..][i - 1 := fines[i].(voided := true)];
    }
  }

  // ---------------------------------------------------------------------
  // The baseline.

  /** `a < b` as Rust orders `&str` values: by their characters, a proper
      prefix first. */
  predicate TextLess(a: string, b: string)
    decreases |a|
  {
    if |b| == 0 then false
    else if |a| == 0 then true
    else if a[0] != b[0] then a[0] < b[0]
    else TextLess(a[1..], b[1..])
  }

  /** No text is before itself, so a fine stamped with exactly the due
      date's text is not after it. */
  lemma {:induction false} TextLessIrreflexive(a: string)
    ensures !TextLess(a, a)
    decreases |a|
  {
    if |a| > 0 {
      TextLessIrreflexive(a[1..]);
    }
  }

  /** Of two texts, at most one is before the other. */
  lemma {:induction false} TextLessAsymmetric(a: string, b: string)
    ensures !(TextLess(a, b) && TextLess(b, a))
    decreases |a|
  {
    if |a| > 0 && |b| > 0 && a[0] == b[0] {
      TextLessAsymmetric(a[1..], b[1..]);
    }
  }

  /** The fines whose `billing_ts` text sorts after the due date's text,
      in the order given. */
  function PostDue(fines: seq<Bill>, dueText: string): (r: seq<Bill>)
    ensures forall k :: 0 <= k < |r| ==> r[k] in fines && TextLess(dueText, r[k].billingTs.text)
    ensures forall f :: f in fines && TextLess(dueText, f.billingTs.text) ==> f in r
  {
    if |fines| == 0 then []
    else
      var rest := PostDue(fines[1..], dueText);
      if TextLess(dueText, fines[0].billingTs.text) then [fines[0]] + rest else rest
  }

  /** A fine no newer than any of a newest-first list may lead it. */
  lemma ConsNewestFirst(f: Bill, s: seq<Bill>)
    requires SortedBy(s, NewestFirst)
    requires forall k :: 0 <= k < |s| ==> NewestFirst(f) <= NewestFirst(s[k])
    ensures SortedBy([f] + s, NewestFirst)
  {
    var r := [f] + s;
    forall i, j | 0 <= i < j < |r|
      ensures NewestFirst(r[i]) <= NewestFirst(r[j])
    {
      assert r[j] == s[j - 1];
      if i > 0 {
        assert r[i] == s[i - 1];
      }
    }
  }

  /** The head of a newest-first list is at least as new as everything
      after it. */
  lemma HeadNewest(fines: seq<Bill>, rest: seq<Bill>)
    requires |fines| > 0 && SortedBy(fines, NewestFirst)
    requires forall k :: 0 <= k < |rest| ==> rest[k] in fines[1..]
    ensures forall k :: 0 <= k < |rest| ==> NewestFirst(fines[0]) <= NewestFirst(rest[k])
  {
    forall k | 0 <= k < |rest|
      ensures NewestFirst(fines[0]) <= NewestFirst(rest[k])
    {
      var j :| 0 <= j < |fines[1..]| && fines[1..][j] == rest[k];
      assert fines[j + 1] == rest[k];
    }
  }

  /** Filtering keeps the newest-first order, so the first fine after the
      due date is the newest one. */
  lemma {:induction false} PostDueSorted(fines: seq<Bill>, dueText: string)
    requires SortedBy(fines, NewestFirst)
    ensures SortedBy(PostDue(fines, dueText), NewestFirst)
  {
    if |fines| > 0 {
      assert SortedBy(fines[1..], NewestFirst);
      PostDueSorted(fines[1..], dueText);
      var rest := PostDue(fines[1..], dueText);
      if TextLess(dueText, fines[0].billingTs.text) {
        HeadNewest(fines, rest);
        ConsNewestFirst(fines[0], rest);
      }
    }
  }

  /** The fine periods since the baseline: `ceil(range / interval)`. */
  function CeilDiv(a: int, b: int): (r: int)
    requires b != 0
    ensures b > 0 ==> (r - 1) * b < a <= r * b
    ensures b < 0 ==> r * b <= a < (r - 1) * b
  {
    if b > 0 then -((-a) / b) else -(a / (-b))
  }

  /** Where the checks after the baseline stop. */
  function Outcome(baseline: int, due: int, grace: int, now: int, interval: int): (r: FineOutcome)
    requires interval != 0
    ensures r == FutureFine <==> baseline > now
    ensures r == InGrace <==> baseline <= now && baseline == due && grace > 0 && now < due - grace
    ensures r.Pending? ==> r.count == CeilDiv(now - baseline, interval) && r.count != 0
    ensures r == NothingPending <==> (&& baseline <= now && !(baseline == due && grace > 0 && now < due - grace)
                                      && CeilDiv(now - baseline, interval) == 0)
  {
    if baseline > now then FutureFine
    else if baseline == due && grace > 0 && now < due - grace then InGrace
    else
      var pending := CeilDiv(now - baseline, interval);
      if pending == 0 then NothingPending else Pending(pending)
  }

  /** The grace check can never hold: it is reached only when the baseline
      is not after now, and with the baseline at the due date that puts now
      at or after the due date, never before the due date less a positive
      grace period. */
  lemma OutcomeNeverInGrace(baseline: int, due: int, grace: int, now: int, interval: int)
    requires interval != 0
    ensures Outcome(baseline, due, grace, now, interval) != InGrace
  {
  }

  /** With a positive interval, fines are pending exactly when time has
      passed since the baseline, and the count covers that time by whole
      periods with less than one period to spare. */
  lemma OutcomePending(baseline: int, due: int, grace: int, now: int, interval: int)
    requires interval > 0 && baseline <= now
    ensures var r := Outcome(baseline, due, grace, now, interval);
            && (r.Pending? <==> baseline < now)
            && (r.Pending? ==> && r.count >= 1
                               && (r.count - 1) * interval < now - baseline <= r.count * interval)
  {
    var c := CeilDiv(now - baseline, interval);
    if baseline < now {
      assert c * interval >= now - baseline > 0;
      assert c > 0;
    } else {
      assert (c - 1) * interval < 0 <= c * interval;
      assert c == 0;
    }
  }

  // ---------------------------------------------------------------------
  // The generator.

  /** `generate_fines_for_xact` for circulation `c`, with `overdue` the
      billing type of overdue fines, `now` the instant every clock read
      returns and `addMonths` the calendar for month and year units. */
  function GenerateFinesForXact(store: Store, c: Circulation, overdue: int, cal: Calendar, now: int,
                                addMonths: MonthAdder): (r: Result<FineRun>)
    requires ValidCalendar(cal)
    ensures r.Err? <==> || IntervalToSeconds(c.fineInterval, now, addMonths).Err?
                        || IntervalToSeconds(GraceText(c.gracePeriod), now, addMonths).Err?
    ensures r == Ok(Skipped) <==> && IntervalToSeconds(c.fineInterval, now, addMonths).Ok?
                                  && IntervalToSeconds(GraceText(c.gracePeriod), now, addMonths).Ok?
                                  && (|| IntervalToSeconds(c.fineInterval, now, addMonths).value == 0
                                      || c.recurringFine == 0 || c.maxFine == 0)
    ensures r.Ok? && r.value.Checked? ==>
              && r.value.grace >= IntervalToSeconds(GraceText(c.gracePeriod), now, addMonths).value
              && r.value.outcome != InGrace
              && (r.value.outcome == FutureFine <==> r.value.baseline > now)
  {
    var interval :- IntervalToSeconds(c.fineInterval, now, addMonths);
    var grace :- IntervalToSeconds(GraceText(c.gracePeriod), now, addMonths);
    if interval == 0 || c.recurringFine == 0 || c.maxFine == 0 then Ok(Skipped)
    else
      var fines := SortBy(OverdueFines(store.bills, c.xact, overdue), NewestFirst);
      var total := FineTotal(fines, store.payments);
      var postDue := PostDue(fines, c.dueDate.text);
      var graceUsed := if |postDue| == 0
                       then ExtendGracePeriod(grace, c.dueDate.instant, cal.settings, cal.hours, cal.closed, cal.offset)
                       else grace;
      var baseline := if |postDue| == 0 then c.dueDate.instant else postDue[0].billingTs.instant;
      OutcomeNeverInGrace(baseline, c.dueDate.instant, graceUsed, now, interval);
      Ok(Checked(total, graceUsed, baseline, Outcome(baseline, c.dueDate.instant, graceUsed, now, interval)))
  }

  /** Without a grace period the default "0s" is not an interval the
      parser accepts, so the generator always fails. */
  lemma NoGracePeriodFails(store: Store, c: Circulation, overdue: int, cal: Calendar, now: int,
                           addMonths: MonthAdder)
    requires ValidCalendar(cal) && c.gracePeriod.None?
    ensures GenerateFinesForXact(store, c, overdue, cal, now, addMonths).Err?
  {
    IntervalExamples.ShortTextsRejected(now, addMonths);
  }

  /** The order the fines are read in does not change their total. */
  lemma {:induction false} FineTotalInsert(f: Bill, fines: seq<Bill>, payments: seq<Payment>)
    ensures FineTotal(Insert(f, fines, NewestFirst), payments) == FineShare(f, payments) + FineTotal(fines, payments)
  {
    if |fines| > 0 && NewestFirst(f) > NewestFirst(fines[0]) {
      FineTotalInsert(f, fines[1..], payments);
    }
  }

  lemma {:induction false} FineTotalSorted(fines: seq<Bill>, payments: seq<Payment>)
    ensures FineTotal(SortBy(fines, NewestFirst), payments) == FineTotal(fines, payments)
  {
    if |fines| > 0 {
      FineTotalSorted(fines[1..], payments);
      FineTotalInsert(fines[0], SortBy(fines[1..], NewestFirst), payments);
    }
  }

  /** An overdue fine of the transaction billed, by its text, after the
      due date. */
  predicate FinedAfterDue(b: Bill, store: Store, c: Circulation, overdue: int)
  {
    b in store.bills && OfType(b, c.xact, overdue) && TextLess(c.dueDate.text, b.billingTs.text)
  }

  /** What the checks found: the total of the transaction's overdue fines
      (non-voided amounts less every non-voided adjustment on them); the
      baseline is the newest fine after the due date with the grace period
      as given, or, when there is none, the due date with the grace period
      extended over the library's closures. */
  lemma GenerateFinesChecked(store: Store, c: Circulation, overdue: int, cal: Calendar, now: int,
                             addMonths: MonthAdder)
    requires ValidCalendar(cal)
    requires GenerateFinesForXact(store, c, overdue, cal, now, addMonths).Ok?
    requires GenerateFinesForXact(store, c, overdue, cal, now, addMonths).value.Checked?
    ensures var run := GenerateFinesForXact(store, c, overdue, cal, now, addMonths).value;
            var fines := OverdueFines(store.bills, c.xact, overdue);
            var grace := IntervalToSeconds(GraceText(c.gracePeriod), now, addMonths).value;
            && run.total == UnvoidedAmount(fines) - AdjustedOnFines(fines, store.payments)
            && ((exists b :: FinedAfterDue(b, store, c, overdue)) ==>
                  && run.grace == grace
                  && (exists b :: FinedAfterDue(b, store, c, overdue) && b.billingTs.instant == run.baseline)
                  && (forall b :: FinedAfterDue(b, store, c, overdue) ==> b.billingTs.instant <= run.baseline))
            && ((forall b :: !FinedAfterDue(b, store, c, overdue)) ==>
                  && run.baseline == c.dueDate.instant
                  && run.grace == ExtendGracePeriod(grace, c.dueDate.instant, cal.settings, cal.hours, cal.closed, cal.offset))
  {
    var fines := OverdueFines(store.bills, c.xact, overdue);
    var sorted := SortBy(fines, NewestFirst);
    FineTotalSorted(fines, store.payments);
    FineTotalSplit(fines, store.payments);
    SortBySorted(fines, NewestFirst);
    PostDueSorted(sorted, c.dueDate.text);
    var postDue := PostDue(sorted, c.dueDate.text);
    assert forall b :: b in sorted <==> b in fines by {
      assert multiset(sorted) == multiset(fines);
      forall b
        ensures b in sorted <==> b in fines
      {
        assert b in sorted <==> b in multiset(sorted);
        assert b in fines <==> b in multiset(fines);
      }
    }
    assert forall b :: FinedAfterDue(b, store, c, overdue) <==> b in postDue;
    if |postDue| > 0 {
      assert FinedAfterDue(postDue[0], store, c, overdue);
      forall b | FinedAfterDue(b, store, c, overdue)
        ensures b.billingTs.instant <= postDue[0].billingTs.instant
      {
        var k :| 0 <= k < |postDue| && postDue[k] == b;
        assert NewestFirst(postDue[0]) <= NewestFirst(postDue[k]);
      }
    } else {
      forall b
        ensures !FinedAfterDue(b, store, c, overdue)
      {
      }
    }
  }

  /** With a positive fine interval and the baseline not after now, fines
      are pending exactly when time has passed since the baseline, and
      their count covers that time by whole intervals with less than one
      to spare. */
  lemma GenerateFinesPending(store: Store, c: Circulation, overdue: int, cal: Calendar, now: int,
                             addMonths: MonthAdder)
    requires ValidCalendar(cal)
    requires GenerateFinesForXact(store, c, overdue, cal, now, addMonths).Ok?
    requires GenerateFinesForXact(store, c, overdue, cal, now, addMonths).value.Checked?
    requires IntervalToSeconds(c.fineInterval, now, addMonths).value > 0
    ensures var run := GenerateFinesForXact(store, c, overdue, cal, now, addMonths).value;
            var interval := IntervalToSeconds(c.fineInterval, now, addMonths).value;
            && (run.outcome == FutureFine <==> run.baseline > now)
            && (run.outcome == NothingPending <==> run.baseline == now)
            && (run.outcome.Pending? <==> run.baseline < now)
            && (run.outcome.Pending? ==>
                  && run.outcome.count >= 1
                  && (run.outcome.count - 1) * interval < now - run.baseline <= run.outcome.count * interval)
  {
    var run := GenerateFinesForXact(store, c, overdue, cal, now, addMonths).value;
    var interval := IntervalToSeconds(c.fineInterval, now, addMonths).value;
    assert run.outcome == Outcome(run.baseline, c.dueDate.instant, run.grace, now, interval);
    if run.baseline <= now {
      OutcomePending(run.baseline, c.dueDate.instant, run.grace, now, interval);
    }
  }
}

=== FILE: grace.dfy ===
/** `extend_grace_period`: a grace period of a day or more is stretched by
    a day for every closed weekday and every covering closed-date range met
    while scanning forward, day by day, from the due date (or the end of
    the grace period), for at most 366 days. Instants are epoch seconds;
    the library's local time is a fixed offset from UTC. */
module GracePeriod {
  import opened Basics

  /** `DAY_OF_SECONDS`. */
  const DAY: int := 86400

  /** The number of days the scan looks at. */
  const SCAN_DAYS: nat := 366

  /** One day of the hours of operation (`aouhoo`): its open and close
      times as stored. */
  datatype DayHours = DayHours(open: string, close: string)

  /** The hours of operation: `days[d]` holds `day_<d>_open` and
      `day_<d>_close`. */
  datatype Hours = Hours(days: seq<DayHours>)

  /** A closed-date range (`aoucd`) of the context org unit. */
  datatype ClosedDate = ClosedDate(start: int, end: int)

  /** The three `circ.grace.extend*` settings at the context org unit, as
      `json_bool` reads them. */
  datatype GraceSettings = GraceSettings(extend: bool, intoClosed: bool, extendAll: bool)

  /** Weekday of instant `t`, counted from Sunday, at local offset `offset`;
      day 0 of the epoch was a Thursday. */
  function Weekday(t: int, offset: int): (r: int)
    ensures 0 <= r < 7
  {
    ((t + offset) / DAY + 4) % 7
  }

  /** The weekday a day later is the next one. */
  lemma WeekdayNext(t: int, offset: int)
    ensures Weekday(t + DAY, offset) == (Weekday(t, offset) + 1) % 7
  {
    assert (t + DAY + offset) / DAY == (t + offset) / DAY + 1;
  }

  /** A day whose open and close are both midnight is closed all day. */
  predicate ClosedAllDay(d: DayHours)
  {
    d.open == "00:00:00" && d.close == "00:00:00"
  }

  /** The weekdays the loop over `0..6` (weekdays 0 to 5) finds closed all day. */
  function CloseDays(h: Hours): (r: set<int>)
    requires |h.days| == 7
    ensures forall d :: d in r <==> 0 <= d < 6 && ClosedAllDay(h.days[d])
  {
    set d | 0 <= d < 6 && ClosedAllDay(h.days[d])
  }

  /** `close_count` after the loop has looked at days `0..n`. */
  function CloseCount(h: Hours, n: nat): int
    requires n <= |h.days|
  {
    if n == 0 then 0 else CloseCount(h, n - 1) + (if ClosedAllDay(h.days[n - 1]) then 1 else 0)
  }

  /** The loop never looks at day 6, so a library closed every day of the
      week still counts at most six closed days: the "never open" guard
      cannot fire and Saturday never counts as closed. */
  lemma {:induction false} SaturdayNeverClosed(h: Hours)
    requires |h.days| == 7
    ensures 6 !in CloseDays(h)
    ensures 0 <= CloseCount(h, 6) <= 6 && CloseCount(h, 6) != 7
  {
    CloseCountAtMost(h, 6);
  }

  lemma {:induction false} CloseCountAtMost(h: Hours, n: nat)
    requires n <= |h.days|
    ensures 0 <= CloseCount(h, n) <= n
  {
    if n > 0 {
      CloseCountAtMost(h, n - 1);
    }
  }

  /** The closed-date ranges covering instant `t`, in the order the query
      returns them. */
  function Covering(ranges: seq<ClosedDate>, t: int): (r: seq<ClosedDate>)
    ensures |r| <= |ranges|
    ensures forall k :: 0 <= k < |r| ==> r[k] in ranges && r[k].start <= t <= r[k].end
    ensures forall c :: c in ranges && c.start <= t <= c.end ==> c in r
  {
    if |ranges| == 0 then []
    else
      var rest := Covering(ranges[1..], t);
      if ranges[0].start <= t <= ranges[0].end then [ranges[0]] + rest else rest
  }

  /** Where the scan is: the day looked at and the grace period so far. */
  datatype Scanning = Scanning(due: int, grace: int)

  /** `st` with the position and the grace period both pushed out by
      `days` days. */
  function Pushed(st: Scanning, days: nat): (r: Scanning)
  {
    Scanning(st.due + days * DAY, st.grace + days * DAY)
  }

  /** The inner loop over the covering ranges: each whose end is not
      before the scan position pushes the position and the grace period
      out by a day. The result counts the days added. */
  function PastClosed(covering: seq<ClosedDate>, st: Scanning): (days: nat)
    ensures days <= |covering|
    ensures |covering| > 0 && st.due <= covering[0].end ==> days >= 1
  {
    if |covering| == 0 then 0
    else if st.due <= covering[0].end then 1 + PastClosed(covering[1..], Pushed(st, 1))
    else PastClosed(covering[1..], st)
  }

  /** One turn of the scan: the days added to the grace period (none when
      the day was open) and whether the day was closed. */
  datatype Stepped = Stepped(days: nat, closed: bool)

  /** Where one turn leaves the scan. */
  function After(st: Scanning, s: Stepped): Scanning
  {
    if s.closed then Pushed(st, s.days) else Scanning(st.due + DAY, st.grace)
  }

  /** One turn of the `while counter < 366` loop. */
  function Step(st: Scanning, closeDays: set<int>, ranges: seq<ClosedDate>, offset: int): (r: Stepped)
    ensures !r.closed ==> r.days == 0
    ensures r.closed ==> 1 <= r.days <= |ranges| + 1
    ensures r.closed <==> Weekday(st.due, offset) in closeDays || |Covering(ranges, st.due)| > 0
  {
    if Weekday(st.due, offset) in closeDays then Stepped(1, true)
    else
      var covering := Covering(ranges, st.due);
      if |covering| > 0 then Stepped(PastClosed(covering, st), true)
      else Stepped(0, false)
  }

  /** Where the scan ends: the position, the days added to the grace
      period, and the number of turns taken. */
  datatype Scanned = Scanned(due: int, days: nat, turns: nat)

  /** The scan with `fuel` turns left; it stops early at an open day past
      the end of the (extended) grace period from `orig`, the due date. */
  function Scan(fuel: nat, st: Scanning, orig: int, closeDays: set<int>, ranges: seq<ClosedDate>, offset: int)
    : (r: Scanned)
    ensures r.turns <= fuel && (fuel > 0 ==> r.turns >= 1)
    ensures r.days <= r.turns * (|ranges| + 1)
    ensures r.due - st.due >= r.days * DAY && r.due - st.due >= r.turns * DAY
    decreases fuel
  {
    if fuel == 0 then Scanned(st.due, 0, 0)
    else
      var s := Step(st, closeDays, ranges, offset);
      var next := After(st, s);
      if !s.closed && next.due > orig + next.grace then Scanned(next.due, 0, 1)
      else
        var rest := Scan(fuel - 1, next, orig, closeDays, ranges, offset);
        assert rest.turns * (|ranges| + 1) + (|ranges| + 1) == (rest.turns + 1) * (|ranges| + 1);
        assert (rest.days + s.days) * DAY == rest.days * DAY + s.days * DAY;
        Scanned(rest.due, rest.days + s.days, rest.turns + 1)
  }

  /** The first day the scan looks at: a day later when extending into
      closed days, then the day after the due date when extending over
      all of it, or the end of the grace period otherwise. */
  function ScanStart(due: int, grace: int, s: GraceSettings): int
  {
    var into := if s.intoClosed then due + DAY else due;
    if s.extendAll then into + DAY else into + grace
  }

  /** A whole number of days is a multiple of a day. */
  lemma WholeDays(n: nat)
    ensures (n * DAY) % DAY == 0 && n * DAY >= 0
  {
  }

  /** At most `m` days a turn over the scan's turns. */
  lemma DaysBound(n: nat, turns: nat, m: nat)
    requires turns <= SCAN_DAYS && n <= turns * m
    ensures n * DAY <= SCAN_DAYS * m * DAY
  {
    assert turns * m <= SCAN_DAYS * m;
  }

  /** `extend_grace_period` with the hours of operation as fetched (`None`
      when the org unit has none), the closed dates of the org unit, and
      the local offset. */
  function ExtendGracePeriod(grace: int, due: int, s: GraceSettings, hours: Option<Hours>,
                             ranges: seq<ClosedDate>, offset: int): (r: int)
    requires hours.Some? ==> |hours.value.days| == 7
    ensures r >= grace
    ensures grace < DAY || !s.extend || hours.None? ==> r == grace
    ensures (r - grace) % DAY == 0
    ensures r - grace <= SCAN_DAYS * (|ranges| + 1) * DAY
  {
    if grace < DAY then grace
    else if !s.extend then grace
    else
      match hours
      case None => grace
      case Some(h) =>
        if CloseCount(h, 6) == 7 then grace
        else
          var scanned := Scan(SCAN_DAYS, Scanning(ScanStart(due, grace, s), grace), due, CloseDays(h), ranges, offset);
          WholeDays(scanned.days);
          DaysBound(scanned.days, scanned.turns, |ranges| + 1);
          var extended := grace + scanned.days * DAY;
          if extended > grace then extended else grace
  }

  /** With no closed weekday and no closed date, the scan never grows the
      grace period. */
  lemma {:induction false} ScanAllOpen(fuel: nat, st: Scanning, orig: int, closeDays: set<int>, offset: int)
    requires forall d :: d !in closeDays
    ensures Scan(fuel, st, orig, closeDays, [], offset).days == 0
  {
    if fuel > 0 {
      var s := Step(st, closeDays, [], offset);
      assert !s.closed;
      ScanAllOpen(fuel - 1, After(st, s), orig, closeDays, offset);
    }
  }

  /** A library open every weekday with no closed dates never extends a
      grace period. */
  lemma NoClosuresNoExtension(grace: int, due: int, s: GraceSettings, h: Hours, offset: int)
    requires |h.days| == 7
    requires forall d :: 0 <= d < 7 ==> !ClosedAllDay(h.days[d])
    ensures ExtendGracePeriod(grace, due, s, Some(h), [], offset) == grace
  {
    if grace >= DAY && s.extend && CloseCount(h, 6) != 7 {
      ScanAllOpen(SCAN_DAYS, Scanning(ScanStart(due, grace, s), grace), due, CloseDays(h), offset);
    }
  }

  /** A scan whose first turn is closed adds at least a day. */
  lemma ClosedFirstTurn(st: Scanning, orig: int, closeDays: set<int>, ranges: seq<ClosedDate>, offset: int)
    requires Step(st, closeDays, ranges, offset).closed
    ensures Scan(SCAN_DAYS, st, orig, closeDays, ranges, offset).days >= 1
  {
  }

  /** When the first day scanned falls on a weekday closed all day, the
      grace period grows by at least that day. */
  lemma ClosedStartExtends(grace: int, due: int, s: GraceSettings, h: Hours, ranges: seq<ClosedDate>, offset: int)
    requires |h.days| == 7
    requires grace >= DAY && s.extend
    requires Weekday(ScanStart(due, grace, s), offset) in CloseDays(h)
    ensures ExtendGracePeriod(grace, due, s, Some(h), ranges, offset) >= grace + DAY
  {
    SaturdayNeverClosed(h);
    var st := Scanning(ScanStart(due, grace, s), grace);
    ClosedFirstTurn(st, due, CloseDays(h), ranges, offset);
    var n := Scan(SCAN_DAYS, st, due, CloseDays(h), ranges, offset).days;
    assert n * DAY >= DAY;
  }

  /** When the first day scanned is covered by a closed date, the grace
      period grows by at least a day. */
  lemma ClosedDateExtends(grace: int, due: int, s: GraceSettings, h: Hours, ranges: seq<ClosedDate>, offset: int)
    requires |h.days| == 7
    requires grace >= DAY && s.extend
    requires exists k :: 0 <= k < |ranges| && ranges[k].start <= ScanStart(due, grace, s) <= ranges[k].end
    ensures ExtendGracePeriod(grace, due, s, Some(h), ranges, offset) >= grace + DAY
  {
    SaturdayNeverClosed(h);
    var st := Scanning(ScanStart(due, grace, s), grace);
    var k :| 0 <= k < |ranges| && ranges[k].start <= st.due <= ranges[k].end;
    assert ranges[k] in Covering(ranges, st.due);
    ClosedFirstTurn(st, due, CloseDays(h), ranges, offset);
    var n := Scan(SCAN_DAYS, st, due, CloseDays(h), ranges, offset).days;
    assert n * DAY >= DAY;
  }
}

=== FILE: interval.dfy ===
/** `interval_to_seconds` and `add_hms` (evergreen/src/date.rs): a space
    separated interval text becomes a signed count of seconds.

    The text is lower-cased and split on single spaces. Tokens are read as
    `count unit` pairs; a lone last token must be an `hh:mm:ss` clock text.
    Units are picked by prefix, in the order `s`, `min`, `h`, `d`, `mon`, `y`;
    anything else is an error. Months and years move a calendar date, so the
    model takes month addition as a parameter. */
module Interval {
  import opened Basics
  import opened Text

  datatype Unit = Second | Minute | Hour | Day | Month | Year

  /** Units of fixed length; months and years depend on the calendar. */
  predicate IsClockUnit(u: Unit)
  {
    u != Month && u != Year
  }

  function UnitSeconds(u: Unit): (r: int)
    requires IsClockUnit(u)
    ensures r > 0
  {
    match u
    case Second => 1
    case Minute => 60
    case Hour => 3600
    case Day => 86400
  }

  /** Adds a number of calendar months to an instant (chrono's `+ Months`).
      The calendar itself is not part of the model. */
  type MonthAdder = (int, nat) -> int

  /** The unit a (lower-case, comma-free) unit word names: the first of
      `starts_with("s")`, `"min"`, `"h"`, `"d"`, `"mon"`, `"y"` that holds. */
  function UnitOf(word: string): Option<Unit>
  {
    if |word| >= 1 && word[0] == 's' then Some(Second)
    else if |word| >= 3 && word[0] == 'm' && word[1] == 'i' && word[2] == 'n' then Some(Minute)
    else if |word| >= 1 && word[0] == 'h' then Some(Hour)
    else if |word| >= 1 && word[0] == 'd' then Some(Day)
    else if |word| >= 3 && word[0] == 'm' && word[1] == 'o' && word[2] == 'n' then Some(Month)
    else if |word| >= 1 && word[0] == 'y' then Some(Year)
    else None
  }

  /** The usual unit words are recognised, and so are their abbreviations. */
  lemma UnitWords()
    ensures UnitOf("seconds") == Some(Second) && UnitOf("sec") == Some(Second)
    ensures UnitOf("minutes") == Some(Minute) && UnitOf("min") == Some(Minute)
    ensures UnitOf("hours") == Some(Hour) && UnitOf("days") == Some(Day)
    ensures UnitOf("months") == Some(Month) && UnitOf("years") == Some(Year)
    ensures UnitOf("weeks") == None && UnitOf("m") == None && UnitOf("") == None
  {
  }

  /** The date `count` units after `date`. Month counts go through `as u32`
      (the low 32 bits); year counts are `as u32 * 12` in 32-bit arithmetic. */
  function AddUnit(date: int, count: int, u: Unit, addMonths: MonthAdder): (r: int)
    ensures IsClockUnit(u) ==> r - date == count * UnitSeconds(u)
  {
    match u
    case Second => date + count
    case Minute => date + count * 60
    case Hour => date + count * 3600
    case Day => date + count * 86400
    case Month => addMonths(date, AsU32(count))
    case Year => addMonths(date, (AsU32(count) * 12) % U32_MOD)
  }

  /** `add_hms`: the first three `:`-separated pieces are hours, minutes and
      seconds; fewer pieces, or a piece that is not an integer, is an error. */
  function AddHms(part: string, date: int): Result<int>
  {
    var pieces := Split(part, ':');
    if |pieces| < 3 then Err(InvalidInterval)
    else
      var h := ParseI64(pieces[0]);
      var m := ParseI64(pieces[1]);
      var s := ParseI64(pieces[2]);
      if h.None? || m.None? || s.None? then Err(InvalidInterval)
      else Ok(date + h.value * 3600 + m.value * 60 + s.value)
  }

  /** The loop of `interval_to_seconds` from token `counter` on, with the
      date reached so far. */
  function ParseFrom(parts: seq<string>, counter: nat, date: int, addMonths: MonthAdder): Result<int>
    requires counter < |parts|
    decreases |parts| - counter
  {
    if counter == |parts| - 1 then
      AddHms(parts[counter], date)
    else
      match ParseI64(parts[counter])
      case None => Err(InvalidInterval)
      case Some(count) =>
        match UnitOf(RemoveChar(parts[counter + 1], ','))
        case None => Err(InvalidInterval)
        case Some(u) =>
          var next := AddUnit(date, count, u, addMonths);
          if counter + 2 == |parts| then Ok(next)
          else ParseFrom(parts, counter + 2, next, addMonths)
  }

  /** `interval_to_seconds`, with `now` the instant both clock reads return. */
  function IntervalToSeconds(text: string, now: int, addMonths: MonthAdder): Result<int>
  {
    var parts := Split(ToLower(text), ' ');
    match ParseFrom(parts, 0, now, addMonths)
    case Ok(date) => Ok(date - now)
    case Err(e) => Err(e)
  }

  /** The source's loop, index by index: every token index it reads is in
      range, the loop ends, and it computes `IntervalToSeconds`. */
  method IntervalToSecondsLoop(text: string, now: int, addMonths: MonthAdder) returns (r: Result<int>)
    ensures r == IntervalToSeconds(text, now, addMonths)
  {
    var parts := Split(ToLower(text), ' ');
    var partcount := |parts|;
    var start := now;
    var date := now;
    var counter := 0;
    ghost var spec := ParseFrom(parts, 0, date, addMonths);
    while true
      invariant 0 <= counter < partcount
      invariant spec == ParseFrom(parts, counter, date, addMonths)
      decreases partcount - counter
    {
      if counter == partcount - 1 {
        var hms := AddHms(parts[counter], date);
        if hms.Err? {
          return Err(InvalidInterval);
        }
        date := hms.value;
        break;
      }
      var count := ParseI64(parts[counter]);
      if count.None? {
        return Err(InvalidInterval);
      }
      counter := counter + 1;
      var u := UnitOf(RemoveChar(parts[counter], ','));
      if u.None? {
        return Err(InvalidInterval);
      }
      date := AddUnit(date, count.value, u.value, addMonths);
      counter := counter + 1;
      if counter == partcount {
        break;
      }
    }
    r := Ok(date - start);
  }

  // ---------------------------------------------------------------------
  // What a well-formed interval text means.
  // ---------------------------------------------------------------------

  /** One `count unit` pair as written in an interval text. */
  datatype Term = Term(count: int, word: string)

  /** The unit a term's word names once lower-cased and stripped of commas. */
  function TermUnit(t: Term): Option<Unit>
  {
    UnitOf(RemoveChar(ToLower(t.word), ','))
  }

  /** An in-range count and a space-free word naming a clock unit. */
  predicate ClockTerm(t: Term)
  {
    && I64_MIN <= t.count <= I64_MAX
    && ' ' !in t.word
    && TermUnit(t).Some?
    && IsClockUnit(TermUnit(t).value)
  }

  function TermSeconds(t: Term): int
    requires ClockTerm(t)
  {
    t.count * UnitSeconds(TermUnit(t).value)
  }

  /** Seconds of a list of terms. */
  function TermsSeconds(ts: seq<Term>): int
    requires forall j :: 0 <= j < |ts| ==> ClockTerm(ts[j])
  {
    if |ts| == 0 then 0 else TermSeconds(ts[0]) + TermsSeconds(ts[1..])
  }

  /** The tokens `count word count word ...` of a list of terms. */
  function TermTokens(ts: seq<Term>): (r: seq<string>)
    ensures |r| == 2 * |ts|
  {
    if |ts| == 0 then []
    else [Decimal(ts[0].count), ts[0].word] + TermTokens(ts[1..])
  }

  /** The clock text `h:m:s`, followed by further `:`-separated pieces. */
  function ClockText(h: int, m: int, s: int, extra: seq<string>): string
  {
    Join([Decimal(h), Decimal(m), Decimal(s)] + extra, ':')
  }

  /** The clock text `h:m:s`. */
  function HmsText(h: int, m: int, s: int): string
  {
    ClockText(h, m, s, [])
  }

  /** Clock text is lower-case and holds no space. */
  lemma HmsTextPlain(h: int, m: int, s: int)
    ensures IsLower(HmsText(h, m, s)) && ' ' !in HmsText(h, m, s)
  {
    var pieces := [Decimal(h), Decimal(m), Decimal(s)];
    DecimalPlain(h);
    DecimalPlain(m);
    DecimalPlain(s);
    assert pieces + [] == pieces;
    JoinAvoids(pieces, ':', ' ');
    JoinLower(pieces, ':');
  }

  /** The optional trailing clock token. */
  function HmsTokens(hms: Option<(int, int, int)>): (r: seq<string>)
    ensures |r| <= 1
  {
    if hms.Some? then [HmsText(hms.value.0, hms.value.1, hms.value.2)] else []
  }

  function HmsSeconds(hms: Option<(int, int, int)>): int
  {
    if hms.Some? then hms.value.0 * 3600 + hms.value.1 * 60 + hms.value.2 else 0
  }

  /** `add_hms` on a text whose first three pieces are integers. */
  lemma AddHmsOfPieces(part: string, h: int, m: int, s: int, date: int)
    requires |Split(part, ':')| >= 3
    requires ParseI64(Split(part, ':')[0]) == Some(h)
    requires ParseI64(Split(part, ':')[1]) == Some(m)
    requires ParseI64(Split(part, ':')[2]) == Some(s)
    ensures AddHms(part, date) == Ok(date + h * 3600 + m * 60 + s)
  {
  }

  /** `add_hms` reads back the clock text it is given; pieces after the third
      (here `extra`) are ignored. */
  lemma AddHmsOfText(h: int, m: int, s: int, extra: seq<string>, date: int)
    requires I64_MIN <= h <= I64_MAX && I64_MIN <= m <= I64_MAX && I64_MIN <= s <= I64_MAX
    requires forall j :: 0 <= j < |extra| ==> ':' !in extra[j]
    ensures AddHms(ClockText(h, m, s, extra), date) == Ok(date + h * 3600 + m * 60 + s)
  {
    var pieces := [Decimal(h), Decimal(m), Decimal(s)] + extra;
    DecimalPlain(h);
    DecimalPlain(m);
    DecimalPlain(s);
    assert forall j :: 0 <= j < |pieces| ==> ':' !in pieces[j];
    SplitJoin(pieces, ':');
    var t := Join(pieces, ':');
    assert Split(t, ':') == pieces;
    ParseDecimal(h);
    ParseDecimal(m);
    ParseDecimal(s);
    AddHmsOfPieces(t, h, m, s, date);
    assert t == ClockText(h, m, s, extra);
  }

  /** One `count unit` step of the loop. */
  lemma ParseFromStep(parts: seq<string>, counter: nat, date: int, count: int, u: Unit, addMonths: MonthAdder)
    requires counter + 1 < |parts|
    requires ParseI64(parts[counter]) == Some(count)
    requires UnitOf(RemoveChar(parts[counter + 1], ',')) == Some(u)
    ensures ParseFrom(parts, counter, date, addMonths)
         == if counter + 2 == |parts| then Ok(AddUnit(date, count, u, addMonths))
            else ParseFrom(parts, counter + 2, AddUnit(date, count, u, addMonths), addMonths)
  {
  }

  /** How the loop ends after the last term: at the date reached, or through
      the trailing clock token. */
  function Finish(tail: seq<string>, date: int): Result<int>
    requires |tail| <= 1
  {
    if |tail| == 0 then Ok(date) else AddHms(tail[0], date)
  }

  /** The tokens of a list of terms as the loop sees them: words lower-cased. */
  function LowTokens(ts: seq<Term>): (r: seq<string>)
    ensures |r| == 2 * |ts|
  {
    if |ts| == 0 then []
    else [Decimal(ts[0].count), ToLower(ts[0].word)] + LowTokens(ts[1..])
  }

  lemma {:induction false} LowerTermTokens(ts: seq<Term>)
    ensures MapLower(TermTokens(ts)) == LowTokens(ts)
  {
    if |ts| > 0 {
      LowerTermTokens(ts[1..]);
      MapLowerAppend([Decimal(ts[0].count), ts[0].word], TermTokens(ts[1..]));
      DecimalPlain(ts[0].count);
      ToLowerOfLower(Decimal(ts[0].count));
      assert MapLower([Decimal(ts[0].count), ts[0].word]) == [Decimal(ts[0].count), ToLower(ts[0].word)];
    }
  }

  predicate NoSpaces(parts: seq<string>)
  {
    forall k :: 0 <= k < |parts| ==> ' ' !in parts[k]
  }

  lemma {:induction false} LowTokensNoSpaces(ts: seq<Term>)
    requires forall j :: 0 <= j < |ts| ==> ' ' !in ts[j].word
    ensures NoSpaces(LowTokens(ts))
  {
    if |ts| > 0 {
      LowTokensNoSpaces(ts[1..]);
      var w := ToLower(ts[0].word);
      ToLowerAt(ts[0].word);
      assert forall i :: 0 <= i < |w| ==> w[i] != ' ';
      DecimalPlain(ts[0].count);
      assert LowTokens(ts) == [Decimal(ts[0].count), w] + LowTokens(ts[1..]);
    }
  }

  /** The tokens read, pair by pair, as the counts and units of `ts`. */
  predicate ReadsAsTerms(parts: seq<string>, ts: seq<Term>)
    decreases |ts|
  {
    if |ts| == 0 then true
    else
      && |parts| >= 2
      && ParseI64(parts[0]) == Some(ts[0].count)
      && UnitOf(RemoveChar(parts[1], ',')) == TermUnit(ts[0])
      && ReadsAsTerms(parts[2..], ts[1..])
  }

  lemma {:induction false} LowTokensRead(ts: seq<Term>, tail: seq<string>)
    requires forall j :: 0 <= j < |ts| ==> I64_MIN <= ts[j].count <= I64_MAX
    ensures ReadsAsTerms(LowTokens(ts) + tail, ts)
  {
    if |ts| > 0 {
      var head := [Decimal(ts[0].count), ToLower(ts[0].word)];
      var parts := head + (LowTokens(ts[1..]) + tail);
      assert LowTokens(ts) + tail == parts;
      LowTokensRead(ts[1..], tail);
      ParseDecimal(ts[0].count);
      assert parts[0] == Decimal(ts[0].count) && parts[1] == ToLower(ts[0].word);
      assert parts[2..] == LowTokens(ts[1..]) + tail;
    }
  }

  /** The loop started two tokens in reads the same as the loop on the
      tokens with the first two dropped. */
  lemma {:induction false} ParseFromShift(parts: seq<string>, c: nat, date: int, addMonths: MonthAdder)
    requires c + 2 < |parts|
    ensures ParseFrom(parts, c + 2, date, addMonths) == ParseFrom(parts[2..], c, date, addMonths)
    decreases |parts| - c
  {
    if c + 2 < |parts| - 1 {
      assert parts[c + 2] == parts[2..][c] && parts[c + 3] == parts[2..][c + 1];
      var count := ParseI64(parts[c + 2]);
      var u := UnitOf(RemoveChar(parts[c + 3], ','));
      if count.Some? && u.Some? && c + 4 < |parts| {
        ParseFromShift(parts, c + 2, AddUnit(date, count.value, u.value, addMonths), addMonths);
      }
    } else {
      assert parts[c + 2] == parts[2..][c];
    }
  }

  /** Reading the first clock term advances the date by its seconds. */
  lemma ParseHead(parts: seq<string>, t: Term, date: int, addMonths: MonthAdder)
    requires ClockTerm(t)
    requires |parts| >= 2
    requires ParseI64(parts[0]) == Some(t.count)
    requires UnitOf(RemoveChar(parts[1], ',')) == TermUnit(t)
    ensures ParseFrom(parts, 0, date, addMonths)
         == if |parts| == 2 then Ok(date + TermSeconds(t))
            else ParseFrom(parts[2..], 0, date + TermSeconds(t), addMonths)
  {
    var u := TermUnit(t).value;
    ParseFromStep(parts, 0, date, t.count, u, addMonths);
    if |parts| > 2 {
      ParseFromShift(parts, 0, AddUnit(date, t.count, u, addMonths), addMonths);
    }
  }

  /** The date reached from `date` after the terms, one term at a time. */
  function AfterTerms(date: int, ts: seq<Term>): int
    requires forall j :: 0 <= j < |ts| ==> ClockTerm(ts[j])
    decreases |ts|
  {
    if |ts| == 0 then date else AfterTerms(date + TermSeconds(ts[0]), ts[1..])
  }

  /** Stepping through the terms adds up their seconds. */
  lemma {:induction false} AfterTermsSum(date: int, ts: seq<Term>)
    requires forall j :: 0 <= j < |ts| ==> ClockTerm(ts[j])
    ensures AfterTerms(date, ts) == date + TermsSeconds(ts)
    decreases |ts|
  {
    if |ts| > 0 {
      AfterTermsSum(date + TermSeconds(ts[0]), ts[1..]);
    }
  }

  /** Tokens that read as the terms `ts` and then end with `tail` parse to
      the date after the terms, then finish with `tail`. */
  lemma {:induction false} ParseTermsFrom(parts: seq<string>, ts: seq<Term>, tail: seq<string>, date: int, addMonths: MonthAdder)
    requires forall j :: 0 <= j < |ts| ==> ClockTerm(ts[j])
    requires |tail| <= 1
    requires |ts| >= 1 || |tail| == 1
    requires |parts| == 2 * |ts| + |tail|
    requires ReadsAsTerms(parts, ts)
    requires parts[2 * |ts|..] == tail
    ensures ParseFrom(parts, 0, date, addMonths) == Finish(tail, AfterTerms(date, ts))
  {
    if |ts| == 0 {
      assert parts[0] == tail[0];
    } else {
      ParseHead(parts, ts[0], date, addMonths);
      var next := date + TermSeconds(ts[0]);
      if |parts| > 2 {
        assert parts[2..][2 * |ts[1..]|..] == tail;
        ParseTermsFrom(parts[2..], ts[1..], tail, next, addMonths);
      }
    }
  }

  /** The same, with the date after the terms written as a sum. */
  lemma ParseTerms(parts: seq<string>, ts: seq<Term>, tail: seq<string>, date: int, after: int, addMonths: MonthAdder)
    requires forall j :: 0 <= j < |ts| ==> ClockTerm(ts[j])
    requires |tail| <= 1
    requires |ts| >= 1 || |tail| == 1
    requires |parts| == 2 * |ts| + |tail|
    requires ReadsAsTerms(parts, ts)
    requires parts[2 * |ts|..] == tail
    requires after == date + TermsSeconds(ts)
    ensures ParseFrom(parts, 0, date, addMonths) == Finish(tail, after)
  {
    ParseTermsFrom(parts, ts, tail, date, addMonths);
    AfterTermsSum(date, ts);
  }

  /** A trailing token list the loop sees unchanged: lower-case pieces free
      of spaces. */
  predicate PlainTail(tail: seq<string>)
  {
    NoSpaces(tail) && MapLower(tail) == tail
  }

  /** Lower-casing the tokens of terms and a plain tail lower-cases the
      words only. */
  lemma LowerTextTokens(ts: seq<Term>, tail: seq<string>)
    requires MapLower(tail) == tail
    ensures MapLower(TermTokens(ts) + tail) == LowTokens(ts) + tail
  {
    MapLowerAppend(TermTokens(ts), tail);
    LowerTermTokens(ts);
  }

  lemma NoSpacesAppend(a: seq<string>, b: seq<string>)
    requires NoSpaces(a) && NoSpaces(b)
    ensures NoSpaces(a + b)
  {
    forall k | 0 <= k < |a + b|
      ensures ' ' !in (a + b)[k]
    {
      if k >= |a| {
        assert (a + b)[k] == b[k - |a|];
      }
    }
  }

  /** Splitting the lower-cased join of space-free tokens gives the tokens
      lower-cased. */
  lemma SplitLowered(tokens: seq<string>, low: seq<string>)
    requires MapLower(tokens) == low
    requires |low| >= 1
    requires NoSpaces(low)
    ensures Split(ToLower(Join(tokens, ' ')), ' ') == low
  {
    ToLowerJoin(tokens, ' ');
    SplitJoin(low, ' ');
  }

  /** The loop's tokens for the text of terms and a plain tail: they read as
      the terms, then end with the tail. */
  lemma TextTokens(ts: seq<Term>, tail: seq<string>) returns (low: seq<string>)
    requires forall j :: 0 <= j < |ts| ==> ClockTerm(ts[j])
    requires |ts| >= 1 || |tail| >= 1
    requires PlainTail(tail)
    ensures Split(ToLower(Join(TermTokens(ts) + tail, ' ')), ' ') == low
    ensures |low| == 2 * |ts| + |tail|
    ensures ReadsAsTerms(low, ts)
    ensures low[2 * |ts|..] == tail
  {
    low := LowTokens(ts) + tail;
    LowerTextTokens(ts, tail);
    LowTokensNoSpaces(ts);
    NoSpacesAppend(LowTokens(ts), tail);
    SplitLowered(TermTokens(ts) + tail, low);
    LowTokensRead(ts, tail);
    assert low[2 * |ts|..] == tail;
  }

  /** An interval text means what its lower-cased tokens parse to, less
      the starting instant. */
  lemma IntervalOfTokens(text: string, low: seq<string>, v: int, now: int, addMonths: MonthAdder)
    requires Split(ToLower(text), ' ') == low
    requires ParseFrom(low, 0, now, addMonths) == Ok(now + v)
    ensures IntervalToSeconds(text, now, addMonths) == Ok(v)
  {
  }

  /** The same, with the instant the tokens reach in place of the seconds. */
  lemma IntervalOfEnd(text: string, low: seq<string>, end: int, now: int, addMonths: MonthAdder)
    requires Split(ToLower(text), ' ') == low
    requires ParseFrom(low, 0, now, addMonths) == Ok(end)
    ensures var r := IntervalToSeconds(text, now, addMonths); r.Ok? && r.value == end - now
  {
  }

  /** A text whose lower-cased tokens read as the clock terms `ts` and then
      end with a last token that takes the instant `after` reached by the
      terms to `after + extra` (or with nothing, and `extra` zero) means
      `after + extra - now` seconds. */
  lemma IntervalOfReading(text: string, low: seq<string>, ts: seq<Term>, tail: seq<string>, extra: int,
                          after: int, now: int, addMonths: MonthAdder)
    requires forall j :: 0 <= j < |ts| ==> ClockTerm(ts[j])
    requires |tail| <= 1
    requires |ts| >= 1 || |tail| == 1
    requires Split(ToLower(text), ' ') == low
    requires |low| == 2 * |ts| + |tail|
    requires ReadsAsTerms(low, ts)
    requires low[2 * |ts|..] == tail
    requires after == now + TermsSeconds(ts)
    requires Finish(tail, after) == Ok(after + extra)
    ensures var r := IntervalToSeconds(text, now, addMonths); r.Ok? && r.value == after + extra - now
  {
    ParseTerms(low, ts, tail, now, after, addMonths);
    IntervalOfEnd(text, low, after + extra, now, addMonths);
  }

  /** The clock token is a plain tail worth `h*3600 + m*60 + s` seconds. */
  lemma ClockTail(hms: Option<(int, int, int)>, date: int)
    requires hms.Some? ==> (I64_MIN <= hms.value.0 <= I64_MAX && I64_MIN <= hms.value.1 <= I64_MAX
                            && I64_MIN <= hms.value.2 <= I64_MAX)
    ensures PlainTail(HmsTokens(hms))
    ensures Finish(HmsTokens(hms), date) == Ok(date + HmsSeconds(hms))
  {
    if hms.Some? {
      var (h, m, s) := hms.value;
      HmsTextPlain(h, m, s);
      ToLowerOfLower(HmsText(h, m, s));
      assert MapLower([HmsText(h, m, s)]) == [HmsText(h, m, s)];
      AddHmsOfText(h, m, s, [], date);
    }
  }

  /** A single token is read as a clock text. */
  lemma IntervalOfSingle(text: string, v: int, now: int, addMonths: MonthAdder)
    requires IsLower(text) && ' ' !in text
    requires AddHms(text, now) == Ok(v)
    ensures var r := IntervalToSeconds(text, now, addMonths); r.Ok? && r.value == v - now
  {
    ToLowerOfLower(text);
    SplitNoSep(text, ' ');
  }

  /** Clock text is a single plain token that `add_hms` reads back. */
  lemma ClockToken(h: int, m: int, s: int, date: int)
    requires I64_MIN <= h <= I64_MAX && I64_MIN <= m <= I64_MAX && I64_MIN <= s <= I64_MAX
    ensures IsLower(HmsText(h, m, s)) && ' ' !in HmsText(h, m, s)
    ensures AddHms(HmsText(h, m, s), date) == Ok(date + (h * 3600 + m * 60 + s))
  {
    HmsTextPlain(h, m, s);
    AddHmsOfText(h, m, s, [], date);
  }

  /** A clock text alone means `h*3600 + m*60 + s` seconds. */
  lemma IntervalOfClock(h: int, m: int, s: int, now: int, addMonths: MonthAdder)
    requires I64_MIN <= h <= I64_MAX && I64_MIN <= m <= I64_MAX && I64_MIN <= s <= I64_MAX
    ensures var r := IntervalToSeconds(HmsText(h, m, s), now, addMonths);
            r.Ok? && r.value == h * 3600 + m * 60 + s
  {
    ClockToken(h, m, s, now);
    IntervalOfSingle(HmsText(h, m, s), now + (h * 3600 + m * 60 + s), now, addMonths);
  }

  /** The text of clock terms followed by a plain tail worth `extra`
      seconds means the terms' seconds plus `extra`. */
  lemma IntervalOfTermText(ts: seq<Term>, tail: seq<string>, extra: int, after: int, now: int, addMonths: MonthAdder)
    requires forall j :: 0 <= j < |ts| ==> ClockTerm(ts[j])
    requires |tail| <= 1 && (|ts| >= 1 || |tail| == 1) && PlainTail(tail)
    requires after == now + TermsSeconds(ts)
    requires Finish(tail, after) == Ok(after + extra)
    ensures var r := IntervalToSeconds(Join(TermTokens(ts) + tail, ' '), now, addMonths);
            r.Ok? && r.value == after + extra - now
  {
    var low := TextTokens(ts, tail);
    IntervalOfReading(Join(TermTokens(ts) + tail, ' '), low, ts, tail, extra, after, now, addMonths);
  }

  /** A trailing token list that moves every instant by `extra` seconds:
      empty (and `extra` zero), or one plain clock token. */
  ghost predicate ShiftingTail(tail: seq<string>, extra: int)
  {
    && |tail| <= 1
    && PlainTail(tail)
    && forall date :: Finish(tail, date) == Ok(date + extra)
  }

  /** The clock token of `hms`, if any, is a tail moving every instant by
      `h*3600 + m*60 + s`. */
  lemma ClockTailShifts(hms: Option<(int, int, int)>)
    requires hms.Some? ==> (I64_MIN <= hms.value.0 <= I64_MAX && I64_MIN <= hms.value.1 <= I64_MAX
                            && I64_MIN <= hms.value.2 <= I64_MAX)
    ensures ShiftingTail(HmsTokens(hms), HmsSeconds(hms))
  {
    forall date
      ensures Finish(HmsTokens(hms), date) == Ok(date + HmsSeconds(hms))
    {
      ClockTail(hms, date);
    }
    ClockTail(hms, 0);
  }

  /** The text of `count unit` terms in the fixed-length units, followed by
      nothing or by a clock token, means the sum of count times unit length
      over the terms plus what the clock token adds. Unit words may be in
      any case and carry commas. */
  lemma IntervalOfTerms(ts: seq<Term>, tail: seq<string>, extra: int, now: int, addMonths: MonthAdder)
    requires forall j :: 0 <= j < |ts| ==> ClockTerm(ts[j])
    requires ShiftingTail(tail, extra)
    requires |ts| >= 1 || |tail| == 1
    ensures var r := IntervalToSeconds(Join(TermTokens(ts) + tail, ' '), now, addMonths);
            r.Ok? && r.value == TermsSeconds(ts) + extra
  {
    var after := now + TermsSeconds(ts);
    assert Finish(tail, after) == Ok(after + extra);
    IntervalOfTermText(ts, tail, extra, after, now, addMonths);
  }

  // ---------------------------------------------------------------------
  // Which texts are rejected

  /** The tokens from `counter` on are ones the loop accepts: `count unit`
      pairs whose count is an `i64` and whose unit word, commas removed,
      has a recognised prefix, ending either exactly or with one token that
      `add_hms` reads. */
  predicate Readable(parts: seq<string>, counter: nat)
    requires counter <= |parts|
    decreases |parts| - counter
  {
    if counter == |parts| then true
    else if counter == |parts| - 1 then AddHms(parts[counter], 0).Ok?
    else
      && ParseI64(parts[counter]).Some?
      && UnitOf(RemoveChar(parts[counter + 1], ',')).Some?
      && Readable(parts, counter + 2)
  }

  /** Whether `add_hms` reads a token does not depend on the date. */
  lemma AddHmsAnyDate(part: string, date: int)
    ensures AddHms(part, date).Ok? == AddHms(part, 0).Ok?
    ensures AddHms(part, date).Err? ==> AddHms(part, date).error == InvalidInterval
  {
  }

  /** The loop succeeds from `counter` on exactly when the tokens there are
      readable; every failure is `InvalidInterval`. */
  lemma {:induction false} ParseFromAccepts(parts: seq<string>, counter: nat, date: int, addMonths: MonthAdder)
    requires counter < |parts|
    ensures ParseFrom(parts, counter, date, addMonths).Ok? <==> Readable(parts, counter)
    ensures ParseFrom(parts, counter, date, addMonths).Err? ==> ParseFrom(parts, counter, date, addMonths).error == InvalidInterval
    decreases |parts| - counter
  {
    if counter == |parts| - 1 {
      AddHmsAnyDate(parts[counter], date);
    } else if ParseI64(parts[counter]).Some? && UnitOf(RemoveChar(parts[counter + 1], ',')).Some? {
      var next := AddUnit(date, ParseI64(parts[counter]).value, UnitOf(RemoveChar(parts[counter + 1], ',')).value, addMonths);
      if counter + 2 < |parts| {
        ParseFromAccepts(parts, counter + 2, next, addMonths);
      }
    }
  }

  /** `interval_to_seconds` accepts a text exactly when its lower-cased
      tokens are readable from the first one, and otherwise fails with
      `InvalidInterval`. */
  lemma IntervalAccepts(text: string, now: int, addMonths: MonthAdder)
    ensures IntervalToSeconds(text, now, addMonths).Ok? <==> Readable(Split(ToLower(text), ' '), 0)
    ensures IntervalToSeconds(text, now, addMonths).Err? ==> IntervalToSeconds(text, now, addMonths).error == InvalidInterval
  {
    ParseFromAccepts(Split(ToLower(text), ' '), 0, now, addMonths);
  }

  /** In readable tokens every pair the loop reaches, `j` pairs on, has an
      `i64` count and a unit word with a recognised prefix. */
  lemma {:induction false} ReadablePair(parts: seq<string>, counter: nat, j: nat)
    requires counter <= |parts| && Readable(parts, counter)
    requires counter + 2 * j + 1 < |parts|
    ensures ParseI64(parts[counter + 2 * j]).Some? && UnitOf(RemoveChar(parts[counter + 2 * j + 1], ',')).Some?
    decreases j
  {
    if j > 0 {
      ReadablePair(parts, counter + 2, j - 1);
    }
  }

  /** Any text with a pair the loop reaches (the tokens at `2j` and `2j+1`,
      not the last token) whose count is not an `i64` or whose unit word has
      no recognised prefix is rejected, whatever the other tokens are. */
  lemma UnreadablePairRejected(text: string, now: int, addMonths: MonthAdder, j: nat)
    requires 2 * j + 1 < |Split(ToLower(text), ' ')|
    requires var parts := Split(ToLower(text), ' ');
             ParseI64(parts[2 * j]).None? || UnitOf(RemoveChar(parts[2 * j + 1], ',')).None?
    ensures IntervalToSeconds(text, now, addMonths) == Err(InvalidInterval)
  {
    IntervalAccepts(text, now, addMonths);
    if Readable(Split(ToLower(text), ' '), 0) {
      ReadablePair(Split(ToLower(text), ' '), 0, j);
    }
  }
}

=== FILE: interval_examples.dfy ===
/** The examples documented for `interval_to_seconds` (evergreen/src/date.rs),
    and the texts it rejects, worked out on the model. */
module IntervalExamples {
  import opened Basics
  import opened Text
  import opened Interval

  /** Lower-case text joined from space-free tokens splits back into them. */
  lemma LowerTokens(text: string, parts: seq<string>)
    requires IsLower(text)
    requires |parts| >= 1 && NoSpaces(parts)
    requires Join(parts, ' ') == text
    ensures Split(ToLower(text), ' ') == parts
  {
    ToLowerOfLower(text);
    SplitJoin(parts, ' ');
  }

  /** Text that lower-cases to a join of space-free tokens splits into
      them. */
  lemma SplitLowerJoin(text: string, low: seq<string>)
    requires |low| >= 1 && NoSpaces(low)
    requires ToLower(text) == Join(low, ' ')
    ensures Split(ToLower(text), ' ') == low
  {
    SplitJoin(low, ' ');
  }

  lemma OneDigit(c: char)
    requires IsDigit(c)
    ensures ParseI64([c]) == Some(c as int - '0' as int)
  {
    assert [c][..0] == "";
    assert Digits([c]) == Some(c as int - '0' as int);
  }

  lemma TwoDigits(c: char, d: char)
    requires IsDigit(c) && IsDigit(d)
    ensures ParseI64([c, d]) == Some(10 * (c as int - '0' as int) + (d as int - '0' as int))
  {
    assert [c, d][..1] == [c];
    assert [c][..0] == "";
    assert Digits([c]) == Some(c as int - '0' as int);
    assert Digits([c, d]) == Some(10 * (c as int - '0' as int) + (d as int - '0' as int));
  }

  /** A comma-free word names the unit its prefix names. */
  lemma PlainWord(w: string, u: Unit)
    requires ',' !in w
    requires UnitOf(w) == Some(u)
    ensures UnitOf(RemoveChar(w, ',')) == Some(u)
  {
    RemoveCharSpec(w, ',');
  }

  // "02:20:05" is 8405 seconds.

  lemma ClockPieces()
    ensures Split("02:20:05", ':') == ["02", "20", "05"]
  {
    var pieces := ["02", "20", "05"];
    JoinCons("20", ["05"], ':');
    assert ["20"] + ["05"] == ["20", "05"];
    JoinCons("02", ["20", "05"], ':');
    assert ["02"] + ["20", "05"] == pieces;
    assert Join(pieces, ':') == "02:20:05";
    SplitJoin(pieces, ':');
  }

  lemma ClockNumbers()
    ensures ParseI64("02") == Some(2) && ParseI64("20") == Some(20) && ParseI64("05") == Some(5)
  {
    TwoDigits('0', '2');
    TwoDigits('2', '0');
    TwoDigits('0', '5');
  }

  lemma ClockValue(now: int)
    ensures AddHms("02:20:05", now) == Ok(now + 8405)
  {
    ClockPieces();
    ClockNumbers();
    AddHmsOfPieces("02:20:05", 2, 20, 5, now);
  }

  lemma ClockPlain()
    ensures IsLower("02:20:05") && ' ' !in "02:20:05"
  {
  }

  lemma ClockExample(now: int, addMonths: MonthAdder)
    ensures IntervalToSeconds("02:20:05", now, addMonths) == Ok(8405)
  {
    ClockValue(now);
    ClockPlain();
    IntervalOfSingle("02:20:05", now + 8405, now, addMonths);
  }

  // "1 min 2 seconds" is 62 seconds.

  lemma TermsPlain()
    ensures IsLower("1 min 2 seconds") && NoSpaces(["1", "min", "2", "seconds"])
  {
  }

  lemma TermsJoin()
    ensures Join(["1", "min", "2", "seconds"], ' ') == "1 min 2 seconds"
  {
    JoinCons("2", ["seconds"], ' ');
    assert ["2"] + ["seconds"] == ["2", "seconds"];
    JoinCons("min", ["2", "seconds"], ' ');
    assert ["min"] + ["2", "seconds"] == ["min", "2", "seconds"];
    JoinCons("1", ["min", "2", "seconds"], ' ');
    assert ["1"] + ["min", "2", "seconds"] == ["1", "min", "2", "seconds"];
  }

  lemma TermsTokens()
    ensures Split(ToLower("1 min 2 seconds"), ' ') == ["1", "min", "2", "seconds"]
  {
    TermsJoin();
    TermsPlain();
    LowerTokens("1 min 2 seconds", ["1", "min", "2", "seconds"]);
  }

  lemma TermsParse(now: int, addMonths: MonthAdder)
    ensures ParseFrom(["1", "min", "2", "seconds"], 0, now, addMonths) == Ok(now + 62)
  {
    var parts := ["1", "min", "2", "seconds"];
    OneDigit('1');
    OneDigit('2');
    PlainWord("min", Minute);
    PlainWord("seconds", Second);
    ParseFromStep(parts, 0, now, 1, Minute, addMonths);
    ParseFromStep(parts, 2, now + 60, 2, Second, addMonths);
  }

  lemma TermsExample(now: int, addMonths: MonthAdder)
    ensures IntervalToSeconds("1 min 2 seconds", now, addMonths) == Ok(62)
  {
    TermsTokens();
    TermsParse(now, addMonths);
    IntervalOfTokens("1 min 2 seconds", ["1", "min", "2", "seconds"], 62, now, addMonths);
  }

  // "1 Day, 2 hours" is read like "1 day 2 hours": 93600 seconds.

  lemma CommaWords()
    ensures MapLower(["1", "Day,", "2", "hours"]) == ["1", "day,", "2", "hours"]
  {
    ToLowerAt("Day,");
    assert ToLower("Day,") == "day,";
    assert IsLower("1") && IsLower("2") && IsLower("hours");
    ToLowerOfLower("1");
    ToLowerOfLower("2");
    ToLowerOfLower("hours");
  }

  lemma CommaJoin()
    ensures Join(["1", "Day,", "2", "hours"], ' ') == "1 Day, 2 hours"
  {
    JoinCons("2", ["hours"], ' ');
    assert ["2"] + ["hours"] == ["2", "hours"];
    JoinCons("Day,", ["2", "hours"], ' ');
    assert ["Day,"] + ["2", "hours"] == ["Day,", "2", "hours"];
    JoinCons("1", ["Day,", "2", "hours"], ' ');
    assert ["1"] + ["Day,", "2", "hours"] == ["1", "Day,", "2", "hours"];
  }

  lemma CommaLowered()
    ensures ToLower("1 Day, 2 hours") == Join(["1", "day,", "2", "hours"], ' ')
  {
    CommaJoin();
    ToLowerJoin(["1", "Day,", "2", "hours"], ' ');
    CommaWords();
  }

  lemma CommaPieces()
    ensures NoSpaces(["1", "day,", "2", "hours"])
  {
  }

  lemma CommaTokens()
    ensures Split(ToLower("1 Day, 2 hours"), ' ') == ["1", "day,", "2", "hours"]
  {
    CommaLowered();
    CommaPieces();
    SplitLowerJoin("1 Day, 2 hours", ["1", "day,", "2", "hours"]);
  }

  lemma DayComma()
    ensures UnitOf(RemoveChar("day,", ',')) == Some(Day)
  {
    RemoveCharAppend("day", ",", ',');
    assert "day" + "," == "day,";
    RemoveCharSpec("day", ',');
    assert RemoveChar(",", ',') == "";
    assert "day" + "" == "day";
  }

  lemma CommaParse(now: int, addMonths: MonthAdder)
    ensures ParseFrom(["1", "day,", "2", "hours"], 0, now, addMonths) == Ok(now + 93600)
  {
    var parts := ["1", "day,", "2", "hours"];
    OneDigit('1');
    OneDigit('2');
    DayComma();
    PlainWord("hours", Hour);
    ParseFromStep(parts, 0, now, 1, Day, addMonths);
    ParseFromStep(parts, 2, now + 86400, 2, Hour, addMonths);
  }

  lemma CommaExample(now: int, addMonths: MonthAdder)
    ensures IntervalToSeconds("1 Day, 2 hours", now, addMonths) == Ok(93600)
  {
    CommaTokens();
    CommaParse(now, addMonths);
    IntervalOfTokens("1 Day, 2 hours", ["1", "day,", "2", "hours"], 93600, now, addMonths);
  }

  // Rejected texts.

  /** A single token without a colon is not a clock text: this rejects the
      empty text, a bare count such as "5", and "0s". */
  lemma SingleTokenRejected(text: string, now: int, addMonths: MonthAdder)
    requires IsLower(text) && ' ' !in text && ':' !in text
    ensures IntervalToSeconds(text, now, addMonths) == Err(InvalidInterval)
  {
    ToLowerOfLower(text);
    SplitNoSep(text, ' ');
    SplitNoSep(text, ':');
  }

  lemma ShortTextsRejected(now: int, addMonths: MonthAdder)
    ensures IntervalToSeconds("", now, addMonths) == Err(InvalidInterval)
    ensures IntervalToSeconds("5", now, addMonths) == Err(InvalidInterval)
    ensures IntervalToSeconds("0s", now, addMonths) == Err(InvalidInterval)
  {
    SingleTokenRejected("", now, addMonths);
    assert IsLower("5") && ' ' !in "5" && ':' !in "5";
    SingleTokenRejected("5", now, addMonths);
    assert IsLower("0s") && ' ' !in "0s" && ':' !in "0s";
    SingleTokenRejected("0s", now, addMonths);
  }

  /** A text whose tokens the loop rejects is rejected. */
  lemma RejectedTokens(text: string, low: seq<string>, now: int, addMonths: MonthAdder)
    requires Split(ToLower(text), ' ') == low
    requires ParseFrom(low, 0, now, addMonths) == Err(InvalidInterval)
    ensures IntervalToSeconds(text, now, addMonths) == Err(InvalidInterval)
  {
  }

  lemma WeekPlain()
    ensures IsLower("1 week") && NoSpaces(["1", "week"])
    ensures Join(["1", "week"], ' ') == "1 week"
  {
    JoinCons("1", ["week"], ' ');
    assert ["1"] + ["week"] == ["1", "week"];
  }

  lemma WeekTokens()
    ensures Split(ToLower("1 week"), ' ') == ["1", "week"]
  {
    WeekPlain();
    LowerTokens("1 week", ["1", "week"]);
  }

  lemma WeekParse(now: int, addMonths: MonthAdder)
    ensures ParseFrom(["1", "week"], 0, now, addMonths) == Err(InvalidInterval)
  {
    OneDigit('1');
    RemoveCharSpec("week", ',');
  }

  /** "weeks" names no unit. */
  lemma WeekRejected(now: int, addMonths: MonthAdder)
    ensures IntervalToSeconds("1 week", now, addMonths) == Err(InvalidInterval)
  {
    WeekTokens();
    WeekParse(now, addMonths);
    RejectedTokens("1 week", ["1", "week"], now, addMonths);
  }

  lemma DanglingJoin()
    ensures Join(["1", "day", "2"], ' ') == "1 day 2"
  {
    JoinCons("day", ["2"], ' ');
    assert ["day"] + ["2"] == ["day", "2"];
    JoinCons("1", ["day", "2"], ' ');
    assert ["1"] + ["day", "2"] == ["1", "day", "2"];
  }

  lemma DanglingPlain()
    ensures IsLower("1 day 2") && NoSpaces(["1", "day", "2"])
  {
  }

  lemma DanglingTokens()
    ensures Split(ToLower("1 day 2"), ' ') == ["1", "day", "2"]
  {
    DanglingJoin();
    DanglingPlain();
    LowerTokens("1 day 2", ["1", "day", "2"]);
  }

  lemma DanglingParse(now: int, addMonths: MonthAdder)
    ensures ParseFrom(["1", "day", "2"], 0, now, addMonths) == Err(InvalidInterval)
  {
    var parts := ["1", "day", "2"];
    OneDigit('1');
    PlainWord("day", Day);
    ParseFromStep(parts, 0, now, 1, Day, addMonths);
    SplitNoSep("2", ':');
  }

  /** A count left without its unit is read as a clock text, and fails. */
  lemma DanglingCountRejected(now: int, addMonths: MonthAdder)
    ensures IntervalToSeconds("1 day 2", now, addMonths) == Err(InvalidInterval)
  {
    DanglingTokens();
    DanglingParse(now, addMonths);
    RejectedTokens("1 day 2", ["1", "day", "2"], now, addMonths);
  }
}

=== FILE: ledger.dfy ===
/** Voiding and creating bills, and asking whether a transaction was paid
    recently: `void_bills`, `create_bill` and `xact_has_payment_within`. */
module Ledger {
  import opened Basics
  import opened Records
  import opened OpenXact
  import Interval

  /** The store after a call, and the (patron, org unit) pairs whose
      penalties the call recalculates. */
  datatype Outcome = Outcome(store: Store, penalized: set<(int, int)>)

  /** The patron and billing location whose penalties a transaction
      affects. */
  function Payer(x: Xact): (int, int)
  {
    (x.usr, x.location)
  }

  /** Positions, from `from` on, of the bills whose id is one of `ids`, in
      store order: the rows a search on `id` returns. */
  function Positions(bills: seq<Bill>, ids: seq<int>, from: nat): (r: seq<nat>)
    requires from <= |bills|
    ensures forall j :: 0 <= j < |r| ==> from <= r[j] < |bills| && bills[r[j]].id in ids
    ensures forall i, j :: 0 <= i < j < |r| ==> r[i] < r[j]
    ensures forall k :: from <= k < |bills| && bills[k].id in ids ==> k in r
    decreases |bills| - from
  {
    if from == |bills| then []
    else
      var rest := Positions(bills, ids, from + 1);
      if bills[from].id in ids then [from] + rest else rest
  }

  /** A voiding note appended to the bill's note on a new line, or the bill's
      note kept when there is no voiding note. */
  function MergeNote(orig: Option<string>, note: Option<string>): Option<string>
  {
    match (orig, note)
    case (Some(o), Some(n)) => Some(o + "\n" + n)
    case (Some(o), None) => Some(o)
    case (None, n) => n
  }

  function VoidedBill(b: Bill, requestor: int, note: Option<string>, now: int): Bill
  {
    b.(voided := true, voider := Some(requestor), voidTime := Some(now), note := MergeNote(b.note, note))
  }

  /** A voided bill is marked voided by the requestor at `now`; its note
      gains the voiding note on a new line, or becomes it, or stays; nothing
      else about it changes and it no longer counts toward any balance. */
  lemma VoidedBillFields(b: Bill, requestor: int, note: Option<string>, now: int)
    ensures var v := VoidedBill(b, requestor, note, now);
            && v.voided && v.voider == Some(requestor) && v.voidTime == Some(now)
            && (b.note.Some? && note.Some? ==> v.note == Some(b.note.value + "\n" + note.value))
            && (b.note.None? ==> v.note == note)
            && (note.None? ==> v.note == b.note)
            && v.(voided := b.voided, voider := b.voider, voidTime := b.voidTime, note := b.note) == b
            && forall x :: BillOwed(v, x) == 0
  {
  }

  /** Voiding a bill of one transaction changes no other transaction's
      balance, so every other transaction stays as settled as it was. */
  lemma StepKeepsSettled(s: Store, k: nat, v: Bill, checked: Store, xactId: int)
    requires k < |s.bills|
    requires v.voided
    requires checked.bills == s.bills[k := v] && checked.payments == s.payments && checked.circs == s.circs
    requires forall y :: y != xactId ==> FindXact(checked, y) == FindXact(s, y)
    ensures s.bills[k].xact == xactId ==> forall x :: x != xactId && Settled(s, x) ==> Settled(checked, x)
  {
    forall x | s.bills[k].xact == xactId && x != xactId && Settled(s, x)
      ensures Settled(checked, x)
    {
      BilledTotalUpdate(s.bills, k, v, x);
    }
  }

  /** One round of the `void_bills` loop for a bill that is not voided: mark
      the bill at position `k` voided, then check its transaction. */
  function VoidOne(s: Store, k: nat, bill: Bill, requestor: int, note: Option<string>, now: int)
    : (r: Result<(Store, Xact)>)
    requires k < |s.bills|
    ensures r.Err? <==> FindXact(s, bill.xact).None?
    ensures r.Err? ==> r.error == NotFound
    ensures r.Ok? ==> && r.value.1 == FindXact(s, bill.xact).value
                      && r.value.0.bills == s.bills[k := VoidedBill(bill, requestor, note, now)]
                      && r.value.0.payments == s.payments && r.value.0.circs == s.circs
                      && r.value.0.nextId == s.nextId
                      && SameXacts(s, r.value.0)
                      && Settled(r.value.0, bill.xact)
    ensures r.Ok? && s.bills[k].xact == bill.xact ==> forall x :: Settled(s, x) ==> Settled(r.value.0, x)
  {
    match FindXact(s, bill.xact)
    case None => Err(NotFound)
    case Some(xact) =>
      var v := VoidedBill(bill, requestor, note, now);
      var updated := s.(bills := s.bills[k := v]);
      assert FindXact(updated, xact.id) == FindXact(s, xact.id);
      var checked := CheckOpenXact(updated, xact.id, now).value;
      StepKeepsSettled(s, k, v, checked, xact.id);
      Ok((checked, xact))
  }

  /** The loop of `void_bills` over the bills found (`snapshot` at
      positions `idxs`), from store `s`. */
  function VoidEach(snapshot: seq<Bill>, idxs: seq<nat>, s: Store, penalized: set<(int, int)>,
                    requestor: int, note: Option<string>, now: int): (r: Result<Outcome>)
    requires forall j :: 0 <= j < |idxs| ==> idxs[j] < |snapshot| && idxs[j] < |s.bills|
    ensures r.Err? ==> r.error == NotFound
    ensures r.Ok? ==> && |r.value.store.bills| == |s.bills| && r.value.store.payments == s.payments
                      && r.value.store.circs == s.circs && r.value.store.nextId == s.nextId
                      && SameXacts(s, r.value.store)
    decreases |idxs|
  {
    if |idxs| == 0 then Ok(Outcome(s, penalized))
    else
      var k := idxs[0];
      var bill := snapshot[k];
      if bill.voided then VoidEach(snapshot, idxs[1..], s, penalized, requestor, note, now)
      else
        match VoidOne(s, k, bill, requestor, note, now)
        case Err(e) => Err(e)
        case Ok((checked, xact)) =>
          VoidEach(snapshot, idxs[1..], checked, penalized + {Payer(xact)}, requestor, note, now)
  }

  lemma {:induction false} VoidEachBills(snapshot: seq<Bill>, idxs: seq<nat>, s: Store, penalized: set<(int, int)>,
                                         requestor: int, note: Option<string>, now: int)
    requires forall j :: 0 <= j < |idxs| ==> idxs[j] < |snapshot| && idxs[j] < |s.bills|
    requires forall i, j :: 0 <= i < j < |idxs| ==> idxs[i] < idxs[j]
    requires VoidEach(snapshot, idxs, s, penalized, requestor, note, now).Ok?
    ensures var t := VoidEach(snapshot, idxs, s, penalized, requestor, note, now).value.store;
            forall k :: 0 <= k < |s.bills| ==>
              t.bills[k] == if k in idxs && !snapshot[k].voided then VoidedBill(snapshot[k], requestor, note, now) else s.bills[k]
    decreases |idxs|
  {
    if |idxs| > 0 {
      var k0 := idxs[0];
      var bill := snapshot[k0];
      assert forall k :: k in idxs <==> k == k0 || k in idxs[1..];
      if bill.voided {
        VoidEachBills(snapshot, idxs[1..], s, penalized, requestor, note, now);
      } else {
        var one := VoidOne(s, k0, bill, requestor, note, now).value;
        VoidEachBills(snapshot, idxs[1..], one.0, penalized + {Payer(one.1)}, requestor, note, now);
        assert k0 !in idxs[1..];
      }
    }
  }

  /** Some bill at the positions `idxs` of `snapshot` that is not voided
      belongs to no transaction of `s`. */
  predicate Orphaned(snapshot: seq<Bill>, idxs: seq<nat>, s: Store)
  {
    exists j :: 0 <= j < |idxs| && idxs[j] < |snapshot| && !snapshot[idxs[j]].voided
                && FindXact(s, snapshot[idxs[j]].xact).None?
  }

  lemma OrphanedHead(snapshot: seq<Bill>, idxs: seq<nat>, s: Store)
    requires |idxs| > 0 && idxs[0] < |snapshot|
    ensures Orphaned(snapshot, idxs, s)
        <==> || Orphaned(snapshot, idxs[1..], s)
             || (!snapshot[idxs[0]].voided && FindXact(s, snapshot[idxs[0]].xact).None?)
  {
    if Orphaned(snapshot, idxs, s) {
      var j :| 0 <= j < |idxs| && idxs[j] < |snapshot| && !snapshot[idxs[j]].voided
               && FindXact(s, snapshot[idxs[j]].xact).None?;
      if j > 0 {
        assert idxs[1..][j - 1] == idxs[j];
      }
    }
    if Orphaned(snapshot, idxs[1..], s) {
      var j :| 0 <= j < |idxs[1..]| && idxs[1..][j] < |snapshot| && !snapshot[idxs[1..][j]].voided
               && FindXact(s, snapshot[idxs[1..][j]].xact).None?;
      assert idxs[j + 1] == idxs[1..][j];
    }
  }

  lemma OrphanedSameXacts(snapshot: seq<Bill>, idxs: seq<nat>, s: Store, t: Store)
    requires SameXacts(s, t)
    ensures Orphaned(snapshot, idxs, t) <==> Orphaned(snapshot, idxs, s)
  {
    forall y
      ensures FindXact(t, y).None? == FindXact(s, y).None?
    {
      SameXactsFind(s, t, y);
    }
  }

  lemma {:induction false} VoidEachErrors(snapshot: seq<Bill>, idxs: seq<nat>, s: Store, penalized: set<(int, int)>,
                                          requestor: int, note: Option<string>, now: int)
    requires forall j :: 0 <= j < |idxs| ==> idxs[j] < |snapshot| && idxs[j] < |s.bills|
    ensures VoidEach(snapshot, idxs, s, penalized, requestor, note, now).Err? <==> Orphaned(snapshot, idxs, s)
    decreases |idxs|
  {
    if |idxs| > 0 {
      var k0 := idxs[0];
      var bill := snapshot[k0];
      OrphanedHead(snapshot, idxs, s);
      if bill.voided {
        VoidEachErrors(snapshot, idxs[1..], s, penalized, requestor, note, now);
      } else if FindXact(s, bill.xact).Some? {
        var one := VoidOne(s, k0, bill, requestor, note, now).value;
        VoidEachErrors(snapshot, idxs[1..], one.0, penalized + {Payer(one.1)}, requestor, note, now);
        OrphanedSameXacts(snapshot, idxs[1..], s, one.0);
      }
    }
  }

  lemma {:induction false} VoidEachSettled(snapshot: seq<Bill>, idxs: seq<nat>, s: Store, penalized: set<(int, int)>,
                                           requestor: int, note: Option<string>, now: int)
    requires forall j :: 0 <= j < |idxs| ==> idxs[j] < |snapshot| && idxs[j] < |s.bills|
    requires forall i, j :: 0 <= i < j < |idxs| ==> idxs[i] < idxs[j]
    requires forall j :: 0 <= j < |idxs| ==> s.bills[idxs[j]] == snapshot[idxs[j]]
    requires VoidEach(snapshot, idxs, s, penalized, requestor, note, now).Ok?
    ensures var t := VoidEach(snapshot, idxs, s, penalized, requestor, note, now).value.store;
            && (forall x :: Settled(s, x) ==> Settled(t, x))
            && (forall j :: 0 <= j < |idxs| && !snapshot[idxs[j]].voided ==> Settled(t, snapshot[idxs[j]].xact))
    decreases |idxs|
  {
    if |idxs| > 0 {
      var k0 := idxs[0];
      var bill := snapshot[k0];
      var next := s;
      var pen := penalized;
      if !bill.voided {
        var one := VoidOne(s, k0, bill, requestor, note, now).value;
        next := one.0;
        pen := penalized + {Payer(one.1)};
        forall j | 1 <= j < |idxs|
          ensures next.bills[idxs[j]] == snapshot[idxs[j]]
        {
          assert idxs[0] < idxs[j];
        }
      }
      VoidEachSettled(snapshot, idxs[1..], next, pen, requestor, note, now);
      forall j | 1 <= j < |idxs|
        ensures idxs[1..][j - 1] == idxs[j]
      {
      }
    }
  }

  /** Some bill at the positions `idxs` of `snapshot` that is not voided
      belongs to a transaction, found in `s`, whose payer is `pr`. */
  predicate PaidBy(snapshot: seq<Bill>, idxs: seq<nat>, s: Store, pr: (int, int))
  {
    exists j :: && 0 <= j < |idxs| && idxs[j] < |snapshot| && !snapshot[idxs[j]].voided
                && FindXact(s, snapshot[idxs[j]].xact).Some?
                && Payer(FindXact(s, snapshot[idxs[j]].xact).value) == pr
  }

  lemma PaidByHead(snapshot: seq<Bill>, idxs: seq<nat>, s: Store, pr: (int, int))
    requires |idxs| > 0 && idxs[0] < |snapshot|
    ensures PaidBy(snapshot, idxs, s, pr)
        <==> || PaidBy(snapshot, idxs[1..], s, pr)
             || (&& !snapshot[idxs[0]].voided && FindXact(s, snapshot[idxs[0]].xact).Some?
                 && Payer(FindXact(s, snapshot[idxs[0]].xact).value) == pr)
  {
    if PaidBy(snapshot, idxs, s, pr) {
      var j :| && 0 <= j < |idxs| && idxs[j] < |snapshot| && !snapshot[idxs[j]].voided
               && FindXact(s, snapshot[idxs[j]].xact).Some?
               && Payer(FindXact(s, snapshot[idxs[j]].xact).value) == pr;
      if j > 0 {
        assert idxs[1..][j - 1] == idxs[j];
      }
    }
    if PaidBy(snapshot, idxs[1..], s, pr) {
      var j :| && 0 <= j < |idxs[1..]| && idxs[1..][j] < |snapshot| && !snapshot[idxs[1..][j]].voided
               && FindXact(s, snapshot[idxs[1..][j]].xact).Some?
               && Payer(FindXact(s, snapshot[idxs[1..][j]].xact).value) == pr;
      assert idxs[j + 1] == idxs[1..][j];
    }
  }

  lemma PaidBySameXacts(snapshot: seq<Bill>, idxs: seq<nat>, s: Store, t: Store, pr: (int, int))
    requires SameXacts(s, t)
    ensures PaidBy(snapshot, idxs, t, pr) <==> PaidBy(snapshot, idxs, s, pr)
  {
    forall y
      ensures FindXact(t, y).Some? == FindXact(s, y).Some?
      ensures FindXact(s, y).Some? ==> Payer(FindXact(t, y).value) == Payer(FindXact(s, y).value)
    {
      SameXactsFind(s, t, y);
    }
  }

  lemma {:induction false} VoidEachPenalties(snapshot: seq<Bill>, idxs: seq<nat>, s: Store, penalized: set<(int, int)>,
                                             requestor: int, note: Option<string>, now: int)
    requires forall j :: 0 <= j < |idxs| ==> idxs[j] < |snapshot| && idxs[j] < |s.bills|
    requires VoidEach(snapshot, idxs, s, penalized, requestor, note, now).Ok?
    ensures forall pr :: (pr in VoidEach(snapshot, idxs, s, penalized, requestor, note, now).value.penalized
                          <==> pr in penalized || PaidBy(snapshot, idxs, s, pr))
    decreases |idxs|
  {
    if |idxs| > 0 {
      var k0 := idxs[0];
      var bill := snapshot[k0];
      var result := VoidEach(snapshot, idxs, s, penalized, requestor, note, now).value.penalized;
      var next := s;
      var pen := penalized;
      if !bill.voided {
        var one := VoidOne(s, k0, bill, requestor, note, now).value;
        next := one.0;
        pen := penalized + {Payer(one.1)};
      }
      VoidEachPenalties(snapshot, idxs[1..], next, pen, requestor, note, now);
      forall pr
        ensures pr in result <==> pr in penalized || PaidBy(snapshot, idxs, s, pr)
      {
        PaidByHead(snapshot, idxs, s, pr);
        PaidBySameXacts(snapshot, idxs[1..], s, next, pr);
      }
    }
  }

  /** `void_bills`: voids every bill whose id is listed and which is not
      voided already, checks each one's transaction for closing, and
      reports the payers whose penalties to recalculate. */
  function VoidBills(store: Store, requestor: Option<int>, billIds: seq<int>, note: Option<string>, now: int)
    : (r: Result<Outcome>)
    ensures requestor.None? ==> r == Err(NoRequestor)
    ensures requestor.Some? && (forall k :: 0 <= k < |store.bills| ==> store.bills[k].id !in billIds) ==> r == Err(NotFound)
    ensures r.Err? ==> r.error == NoRequestor || r.error == NotFound
    ensures r.Ok? ==> && |r.value.store.bills| == |store.bills| && r.value.store.payments == store.payments
                      && r.value.store.circs == store.circs && r.value.store.nextId == store.nextId
                      && SameXacts(store, r.value.store)
  {
    if requestor.None? then Err(NoRequestor)
    else
      var idxs := Positions(store.bills, billIds, 0);
      if |idxs| == 0 then Err(NotFound)
      else VoidEach(store.bills, idxs, store, {}, requestor.value, note, now)
  }

  /** After voiding, exactly the listed bills that were not voided carry
      the void; every other bill is untouched. Each of their transactions
      is settled, and every transaction that was settled still is. */
  lemma VoidBillsEffect(store: Store, requestor: Option<int>, billIds: seq<int>, note: Option<string>, now: int)
    requires VoidBills(store, requestor, billIds, note, now).Ok?
    ensures var t := VoidBills(store, requestor, billIds, note, now).value.store;
            forall k :: 0 <= k < |store.bills| ==>
              t.bills[k] == if store.bills[k].id in billIds && !store.bills[k].voided
                            then VoidedBill(store.bills[k], requestor.value, note, now)
                            else store.bills[k]
    ensures var t := VoidBills(store, requestor, billIds, note, now).value.store;
            forall k :: 0 <= k < |store.bills| && store.bills[k].id in billIds && !store.bills[k].voided
              ==> Settled(t, store.bills[k].xact)
    ensures var t := VoidBills(store, requestor, billIds, note, now).value.store;
            forall x :: Settled(store, x) ==> Settled(t, x)
  {
    var idxs := Positions(store.bills, billIds, 0);
    VoidEachBills(store.bills, idxs, store, {}, requestor.value, note, now);
    VoidEachSettled(store.bills, idxs, store, {}, requestor.value, note, now);
    var t := VoidBills(store, requestor, billIds, note, now).value.store;
    forall k | 0 <= k < |store.bills| && store.bills[k].id in billIds && !store.bills[k].voided
      ensures Settled(t, store.bills[k].xact)
    {
      var j :| 0 <= j < |idxs| && idxs[j] == k;
    }
  }

  /** A listed bill that is not voided and belongs to a missing transaction. */
  predicate ListedOrphan(store: Store, billIds: seq<int>)
  {
    exists k :: && 0 <= k < |store.bills| && store.bills[k].id in billIds
                && !store.bills[k].voided && FindXact(store, store.bills[k].xact).None?
  }

  lemma PositionsEmpty(bills: seq<Bill>, ids: seq<int>)
    ensures |Positions(bills, ids, 0)| == 0 <==> forall k :: 0 <= k < |bills| ==> bills[k].id !in ids
  {
    var idxs := Positions(bills, ids, 0);
    if |idxs| > 0 {
      assert bills[idxs[0]].id in ids;
    }
  }

  lemma OrphanedPositions(store: Store, billIds: seq<int>)
    ensures Orphaned(store.bills, Positions(store.bills, billIds, 0), store) <==> ListedOrphan(store, billIds)
  {
    var bills := store.bills;
    var idxs := Positions(bills, billIds, 0);
    if ListedOrphan(store, billIds) {
      var k :| && 0 <= k < |bills| && bills[k].id in billIds
               && !bills[k].voided && FindXact(store, bills[k].xact).None?;
      var j :| 0 <= j < |idxs| && idxs[j] == k;
      assert Orphaned(bills, idxs, store);
    }
    if Orphaned(bills, idxs, store) {
      var j :| 0 <= j < |idxs| && idxs[j] < |bills| && !bills[idxs[j]].voided
               && FindXact(store, bills[idxs[j]].xact).None?;
      var k := idxs[j];
      assert bills[k].id in billIds;
      assert ListedOrphan(store, billIds);
    }
  }

  /** With a requestor, voiding fails exactly when no listed bill exists or
      a listed bill that is not voided belongs to a missing transaction. */
  lemma VoidBillsFails(store: Store, requestor: Option<int>, billIds: seq<int>, note: Option<string>, now: int)
    requires requestor.Some?
    ensures VoidBills(store, requestor, billIds, note, now).Err?
        <==> || (forall k :: 0 <= k < |store.bills| ==> store.bills[k].id !in billIds)
             || ListedOrphan(store, billIds)
  {
    var idxs := Positions(store.bills, billIds, 0);
    OrphanedPositions(store, billIds);
    PositionsEmpty(store.bills, billIds);
    if |idxs| > 0 {
      VoidEachErrors(store.bills, idxs, store, {}, requestor.value, note, now);
    }
  }

  /** A listed bill that is not voided belongs to a transaction whose
      payer is `pr`. */
  predicate ListedPayer(store: Store, billIds: seq<int>, pr: (int, int))
  {
    exists k :: && 0 <= k < |store.bills| && store.bills[k].id in billIds
                && !store.bills[k].voided && FindXact(store, store.bills[k].xact).Some?
                && Payer(FindXact(store, store.bills[k].xact).value) == pr
  }

  lemma PaidByPositions(store: Store, billIds: seq<int>, pr: (int, int))
    ensures PaidBy(store.bills, Positions(store.bills, billIds, 0), store, pr) <==> ListedPayer(store, billIds, pr)
  {
    var bills := store.bills;
    var idxs := Positions(bills, billIds, 0);
    if ListedPayer(store, billIds, pr) {
      var k :| && 0 <= k < |bills| && bills[k].id in billIds
               && !bills[k].voided && FindXact(store, bills[k].xact).Some?
               && Payer(FindXact(store, bills[k].xact).value) == pr;
      var j :| 0 <= j < |idxs| && idxs[j] == k;
      assert PaidBy(bills, idxs, store, pr);
    }
    if PaidBy(bills, idxs, store, pr) {
      var j :| && 0 <= j < |idxs| && idxs[j] < |bills| && !bills[idxs[j]].voided
               && FindXact(store, bills[idxs[j]].xact).Some?
               && Payer(FindXact(store, bills[idxs[j]].xact).value) == pr;
      assert bills[idxs[j]].id in billIds;
      assert ListedPayer(store, billIds, pr);
    }
  }

  /** The penalties recalculated are those of the payers of the bills that
      were voided. */
  lemma VoidBillsPenalties(store: Store, requestor: Option<int>, billIds: seq<int>, note: Option<string>, now: int)
    requires VoidBills(store, requestor, billIds, note, now).Ok?
    ensures forall pr :: (pr in VoidBills(store, requestor, billIds, note, now).value.penalized
                          <==> ListedPayer(store, billIds, pr))
  {
    var idxs := Positions(store.bills, billIds, 0);
    VoidEachPenalties(store.bills, idxs, store, {}, requestor.value, note, now);
    forall pr
      ensures PaidBy(store.bills, idxs, store, pr) <==> ListedPayer(store, billIds, pr)
    {
      PaidByPositions(store, billIds, pr);
    }
  }

  // ---------------------------------------------------------------------

  /** A new bill and the store it was added to. */
  datatype Created = Created(store: Store, bill: Bill)

  /** `create_bill`: adds a bill to a transaction, noted "SYSTEM GENERATED"
      unless a note is given; the store assigns its id and time. */
  function CreateBill(store: Store, amount: int, btype: int, btypeLabel: string, xact: int, note: Option<string>,
                      periodStart: Option<string>, periodEnd: Option<string>, now: Stamp): (r: Created)
    ensures r.store.bills == store.bills + [r.bill]
    ensures r.store.payments == store.payments && r.store.xacts == store.xacts && r.store.circs == store.circs
    ensures r.bill.id == store.nextId && r.store.nextId == store.nextId + 1
    ensures r.bill.xact == xact && r.bill.amount == amount && !r.bill.voided
    ensures r.bill.note == Some(note.GetOr("SYSTEM GENERATED"))
    ensures BalanceOwed(r.store, xact) == BalanceOwed(store, xact) + amount
    ensures forall y :: y != xact ==> BalanceOwed(r.store, y) == BalanceOwed(store, y)
  {
    var bill := Bill(store.nextId, xact, amount, btype, btypeLabel, now, periodStart, periodEnd,
                     false, None, None, Some(note.GetOr("SYSTEM GENERATED")));
    BilledTotalAppend(store.bills, bill, xact);
    assert forall y :: BilledTotal(store.bills + [bill], y) == BilledTotal(store.bills, y) + BillOwed(bill, y) by {
      forall y
        ensures BilledTotal(store.bills + [bill], y) == BilledTotal(store.bills, y) + BillOwed(bill, y)
      {
        BilledTotalAppend(store.bills, bill, y);
      }
    }
    Created(store.(bills := store.bills + [bill], nextId := store.nextId + 1), bill)
  }

  // ---------------------------------------------------------------------

  /** A payment `xact_has_payment_within` looks at: any payment on the
      transaction that is not an account adjustment, voided or not. */
  predicate Counts(p: Payment, xact: int)
  {
    p.xact == xact && p.adjustment.None?
  }

  /** The latest `payment_ts` among the payments that count. */
  function LatestPaymentTs(ps: seq<Payment>, xact: int): (r: Option<int>)
    ensures r.None? <==> forall k :: 0 <= k < |ps| ==> !Counts(ps[k], xact)
    ensures r.Some? ==> exists k :: 0 <= k < |ps| && Counts(ps[k], xact) && ps[k].paymentTs == r.value
    ensures r.Some? ==> forall k :: 0 <= k < |ps| && Counts(ps[k], xact) ==> ps[k].paymentTs <= r.value
  {
    if |ps| == 0 then None
    else
      var rest := LatestPaymentTs(ps[1..], xact);
      if !Counts(ps[0], xact) then
        assert forall k :: 1 <= k < |ps| ==> ps[k] == ps[1..][k - 1];
        rest
      else
        assert forall k :: 1 <= k < |ps| ==> ps[k] == ps[1..][k - 1];
        match rest
        case None => Some(ps[0].paymentTs)
        case Some(t) => Some(if ps[0].paymentTs < t then t else ps[0].paymentTs)
  }

  /** `xact_has_payment_within`: whether the latest payment that counts was
      made after `now` less the interval. With no such payment the answer
      is false before the interval is read. */
  function XactHasPaymentWithin(store: Store, xact: int, interval: string, now: int, addMonths: Interval.MonthAdder)
    : (r: Result<bool>)
    ensures LatestPaymentTs(store.payments, xact).None? ==> r == Ok(false)
    ensures LatestPaymentTs(store.payments, xact).Some? ==>
              (r.Err? <==> Interval.IntervalToSeconds(interval, now, addMonths).Err?)
    ensures r.Err? ==> r == Interval.IntervalToSeconds(interval, now, addMonths).PropagateFailure()
  {
    match LatestPaymentTs(store.payments, xact)
    case None => Ok(false)
    case Some(ts) =>
      var secs :- Interval.IntervalToSeconds(interval, now, addMonths);
      Ok(ts > now - secs)
  }

  /** The answer is yes exactly when the interval reads and some payment
      that counts lies strictly inside the window ending now. */
  lemma XactHasPaymentWithinIff(store: Store, xact: int, interval: string, now: int, addMonths: Interval.MonthAdder)
    ensures XactHasPaymentWithin(store, xact, interval, now, addMonths) == Ok(true)
        <==> && Interval.IntervalToSeconds(interval, now, addMonths).Ok?
             && exists k :: && 0 <= k < |store.payments| && Counts(store.payments[k], xact)
                            && store.payments[k].paymentTs > now - Interval.IntervalToSeconds(interval, now, addMonths).value
  {
  }
}

=== FILE: open_xact.dfy ===
/** `check_open_xact`: a transaction is closed (`xact_finish` set) once
    nothing is owed on it and it is not a running circulation, and reopened
    whenever money is owed on it again. */
module OpenXact {
  import opened Basics
  import opened Records

  datatype Action = Close | Reopen | NoChange

  /** The decision of `check_open_xact` from the balance, whether the
      transaction is open, and whether it has no circulation or one whose
      fines have stopped. */
  function Decide(zeroOwed: bool, open: bool, noCircOrComplete: bool): (r: Action)
    ensures r == Close <==> zeroOwed && open && noCircOrComplete
    ensures r == Reopen <==> !zeroOwed && !open
  {
    if zeroOwed then
      if open && noCircOrComplete then Close else NoChange
    else if !open then
      if !zeroOwed && !open then Reopen else NoChange
    else NoChange
  }

  /** No circulation on the transaction, or one with `stop_fines` set. */
  predicate NoCircOrComplete(store: Store, xact: int)
  {
    match FindCirc(store.circs, xact)
    case None => true
    case Some(c) => c.stopFines
  }

  /** The state `check_open_xact` leaves a transaction in: closed when
      nothing is owed and no circulation is running, open when something
      is owed. */
  predicate Settled(store: Store, xact: int)
  {
    && FindXact(store, xact).Some?
    && (BalanceOwed(store, xact) == 0 && NoCircOrComplete(store, xact) ==> FindXact(store, xact).value.finish.Some?)
    && (BalanceOwed(store, xact) != 0 ==> FindXact(store, xact).value.finish.None?)
  }

  /** The store with the finish of the transaction at position `i` replaced. */
  function SetFinish(store: Store, i: nat, finish: Option<int>): (r: Store)
    requires i < |store.xacts|
    ensures r.bills == store.bills && r.payments == store.payments && r.circs == store.circs
    ensures r.nextId == store.nextId
    ensures SameXacts(store, r)
    ensures forall y :: XactIndex(r.xacts, y) == XactIndex(store.xacts, y)
    ensures forall y :: y != store.xacts[i].id ==> FindXact(r, y) == FindXact(store, y)
    ensures XactIndex(store.xacts, store.xacts[i].id) == Some(i)
         ==> FindXact(r, store.xacts[i].id) == Some(store.xacts[i].(finish := finish))
  {
    var r := store.(xacts := store.xacts[i := store.xacts[i].(finish := finish)]);
    forall y
      ensures XactIndex(r.xacts, y) == XactIndex(store.xacts, y)
    {
      XactIndexSameIds(r.xacts, store.xacts, y);
    }
    r
  }

  /** Closes or reopens transaction `xactId` as its balance requires;
      `now` is the instant written to `xact_finish`. A missing transaction
      ends the call (`die_event`). */
  function CheckOpenXact(store: Store, xactId: int, now: int): (r: Result<Store>)
    ensures r.Err? <==> FindXact(store, xactId).None?
    ensures r.Err? ==> r.error == NotFound
    ensures r.Ok? ==> Settled(r.value, xactId)
    ensures r.Ok? ==> && r.value.bills == store.bills && r.value.payments == store.payments
                      && r.value.circs == store.circs && r.value.nextId == store.nextId
    ensures r.Ok? ==> SameXacts(store, r.value)
    ensures r.Ok? ==> forall y :: y != xactId ==> FindXact(r.value, y) == FindXact(store, y)
    ensures r.Ok? ==> FindXact(r.value, xactId).Some?
                      && FindXact(r.value, xactId).value.(finish := None) == FindXact(store, xactId).value.(finish := None)
    ensures r.Ok? && Settled(store, xactId) ==> r.value == store
  {
    match XactIndex(store.xacts, xactId)
    case None => Err(NotFound)
    case Some(i) =>
      var xact := store.xacts[i];
      var action := Decide(BalanceOwed(store, xactId) == 0, xact.finish.None?, NoCircOrComplete(store, xactId));
      match action
      case Close => Ok(SetFinish(store, i, Some(now)))
      case Reopen => Ok(SetFinish(store, i, None))
      case NoChange => Ok(store)
  }

  /** Running the check twice does what running it once does. */
  lemma CheckOpenXactIdempotent(store: Store, xactId: int, now: int, later: int)
    requires CheckOpenXact(store, xactId, now).Ok?
    ensures CheckOpenXact(CheckOpenXact(store, xactId, now).value, xactId, later)
         == CheckOpenXact(store, xactId, now)
  {
  }

  /** The check sets the finish exactly when the balance is zero, the
      transaction is open and no circulation is running; it clears it
      exactly when money is owed on a closed transaction. */
  lemma CheckOpenXactActions(store: Store, xactId: int, now: int)
    requires FindXact(store, xactId).Some?
    ensures var x := FindXact(store, xactId).value;
            var after := FindXact(CheckOpenXact(store, xactId, now).value, xactId).value;
            && (after.finish == Some(now) && x.finish.None? <==>
                  BalanceOwed(store, xactId) == 0 && x.finish.None? && NoCircOrComplete(store, xactId))
            && (after.finish.None? && x.finish.Some? <==> BalanceOwed(store, xactId) != 0 && x.finish.Some?)
            && (after.finish == x.finish <==>
                  !(BalanceOwed(store, xactId) == 0 && x.finish.None? && NoCircOrComplete(store, xactId))
                  && !(BalanceOwed(store, xactId) != 0 && x.finish.Some?))
  {
  }
}

=== FILE: records.dfy ===
/** The records the billing core reads and writes, held in an in-memory
    store: bills (`mb`), payments (`mp`) with their optional account
    adjustment (`maa`), transactions (`mbt`) and circulations (`circ`).
    Money is in integer cents; instants are epoch seconds. */
module Records {
  import opened Basics

  /** A stored timestamp: its text, and the instant it denotes. */
  datatype Stamp = Stamp(text: string, instant: int)

  /** A billing (`money.billing`). `amount` is in cents. */
  datatype Bill = Bill(
    id: int,
    xact: int,
    amount: int,
    btype: int,
    billingType: string,
    billingTs: Stamp,
    periodStart: Option<string>,
    periodEnd: Option<string>,
    voided: bool,
    voider: Option<int>,
    voidTime: Option<int>,
    note: Option<string>)

  /** The account-adjustment part of a payment: which bill it adjusts. */
  datatype Adjustment = Adjustment(
    id: int,
    billing: int,
    amount: int,
    amountCollected: int,
    acceptingUsr: Option<int>,
    note: string)

  /** A payment (`money.payment`); its type is `account_adjustment`
      exactly when it carries an adjustment. */
  datatype Payment = Payment(
    id: int,
    xact: int,
    amount: int,
    paymentTs: int,
    voided: bool,
    adjustment: Option<Adjustment>)

  /** A transaction (`money.billable_xact`): its patron, whether
      `xact_finish` is set (and to which instant), and the billing location
      the summary view reports for it. */
  datatype Xact = Xact(id: int, usr: int, finish: Option<int>, location: int)

  /** A circulation; `stopFines` is whether `stop_fines` is set. */
  datatype Circ = Circ(id: int, stopFines: bool)

  /** Everything the core reads, plus the next free record id. */
  datatype Store = Store(
    bills: seq<Bill>,
    payments: seq<Payment>,
    xacts: seq<Xact>,
    circs: seq<Circ>,
    nextId: int)

  /** Position of the first transaction with id `id`. */
  function XactIndex(xacts: seq<Xact>, id: int): (r: Option<nat>)
    ensures r.Some? ==> r.value < |xacts| && xacts[r.value].id == id
    ensures r.None? <==> forall k :: 0 <= k < |xacts| ==> xacts[k].id != id
  {
    if |xacts| == 0 then None
    else if xacts[0].id == id then Some(0)
    else
      match XactIndex(xacts[1..], id)
      case None => None
      case Some(k) => Some(k + 1)
  }

  function FindXact(store: Store, id: int): (r: Option<Xact>)
    ensures r.Some? ==> r.value in store.xacts && r.value.id == id
    ensures r.None? <==> forall k :: 0 <= k < |store.xacts| ==> store.xacts[k].id != id
  {
    match XactIndex(store.xacts, id)
    case None => None
    case Some(k) => Some(store.xacts[k])
  }

  function FindCirc(circs: seq<Circ>, id: int): (r: Option<Circ>)
    ensures r.Some? ==> r.value in circs && r.value.id == id
    ensures r.None? <==> forall k :: 0 <= k < |circs| ==> circs[k].id != id
  {
    if |circs| == 0 then None
    else if circs[0].id == id then Some(circs[0])
    else FindCirc(circs[1..], id)
  }

  /** A bill of transaction `xact` with billing type `btype`. */
  predicate OfType(b: Bill, xact: int, btype: int)
  {
    b.xact == xact && b.btype == btype
  }

  /** What a non-voided bill of transaction `xact` adds to its balance. */
  function BillOwed(b: Bill, xact: int): int
  {
    if b.xact == xact && !b.voided then b.amount else 0
  }

  /** What a non-voided payment on transaction `xact` takes off it. */
  function PaymentPaid(p: Payment, xact: int): int
  {
    if p.xact == xact && !p.voided then p.amount else 0
  }

  function BilledTotal(bills: seq<Bill>, xact: int): int
  {
    if |bills| == 0 then 0 else BillOwed(bills[0], xact) + BilledTotal(bills[1..], xact)
  }

  function PaidTotal(payments: seq<Payment>, xact: int): int
  {
    if |payments| == 0 then 0 else PaymentPaid(payments[0], xact) + PaidTotal(payments[1..], xact)
  }

  /** `balance_owed` of the transaction summary view: what is billed and
      not voided, less what is paid and not voided. */
  function BalanceOwed(store: Store, xact: int): int
  {
    BilledTotal(store.bills, xact) - PaidTotal(store.payments, xact)
  }

  /** Replacing one bill changes the billed total by the difference of the
      two bills' contributions. */
  lemma {:induction false} BilledTotalUpdate(bills: seq<Bill>, i: nat, b: Bill, xact: int)
    requires i < |bills|
    ensures BilledTotal(bills[i := b], xact) == BilledTotal(bills, xact) - BillOwed(bills[i], xact) + BillOwed(b, xact)
  {
    if i > 0 {
      BilledTotalUpdate(bills[1..], i - 1, b, xact);
      assert bills[i := b][1..] == bills[1..][i - 1 := b];
    } else {
      assert bills[i := b][1..] == bills[1..];
    }
  }

  lemma {:induction false} PaidTotalAppend(payments: seq<Payment>, p: Payment, xact: int)
    ensures PaidTotal(payments + [p], xact) == PaidTotal(payments, xact) + PaymentPaid(p, xact)
  {
    if |payments| > 0 {
      PaidTotalAppend(payments[1..], p, xact);
      assert (payments + [p])[1..] == payments[1..] + [p];
    }
  }

  lemma {:induction false} BilledTotalAppend(bills: seq<Bill>, b: Bill, xact: int)
    ensures BilledTotal(bills + [b], xact) == BilledTotal(bills, xact) + BillOwed(b, xact)
  {
    if |bills| > 0 {
      BilledTotalAppend(bills[1..], b, xact);
      assert (bills + [b])[1..] == bills[1..] + [b];
    }
  }

  /** Two transaction lists that agree on every id agree on every lookup. */
  lemma {:induction false} XactIndexSameIds(xs: seq<Xact>, ys: seq<Xact>, id: int)
    requires |xs| == |ys|
    requires forall k :: 0 <= k < |xs| ==> xs[k].id == ys[k].id
    ensures XactIndex(xs, id) == XactIndex(ys, id)
  {
    if |xs| > 0 {
      XactIndexSameIds(xs[1..], ys[1..], id);
    }
  }

  /** `t` holds the transactions of `s`, with at most their finish changed. */
  predicate SameXacts(s: Store, t: Store)
  {
    && |s.xacts| == |t.xacts|
    && forall k :: 0 <= k < |s.xacts| ==> t.xacts[k] == s.xacts[k].(finish := t.xacts[k].finish)
  }

  lemma SameXactsFind(s: Store, t: Store, id: int)
    requires SameXacts(s, t)
    ensures FindXact(t, id).Some? == FindXact(s, id).Some?
    ensures FindXact(s, id).Some? ==> FindXact(t, id).value == FindXact(s, id).value.(finish := FindXact(t, id).value.finish)
  {
    XactIndexSameIds(s.xacts, t.xacts, id);
  }
}

=== FILE: sorting.dfy ===
/** Ordering of query results: a stable insertion sort by an integer key.
    The database's `order_by` and Rust's `sort_by` are both modelled with
    it; ties keep the order they came in. */
module Sorting {

  predicate SortedBy<T>(s: seq<T>, key: T -> int)
  {
    forall i, j :: 0 <= i < j < |s| ==> key(s[i]) <= key(s[j])
  }

  /** `x` placed before the first element whose key is not smaller. */
  function Insert<T>(x: T, s: seq<T>, key: T -> int): (r: seq<T>)
    ensures multiset(r) == multiset(s) + multiset{x}
    ensures |r| == |s| + 1
  {
    if |s| == 0 then [x]
    else if key(x) <= key(s[0]) then [x] + s
    else
      assert s == [s[0]] + s[1..];
      [s[0]] + Insert(x, s[1..], key)
  }

  /** Every element of the insertion is `x` or an element of `s`. */
  lemma {:induction false} InsertElements<T>(x: T, s: seq<T>, key: T -> int)
    ensures forall k :: 0 <= k < |Insert(x, s, key)| ==> Insert(x, s, key)[k] == x || Insert(x, s, key)[k] in s
  {
    if |s| > 0 && key(x) > key(s[0]) {
      InsertElements(x, s[1..], key);
      var r := Insert(x, s, key);
      forall k | 0 <= k < |r|
        ensures r[k] == x || r[k] in s
      {
        if k > 0 {
          assert r[k] == Insert(x, s[1..], key)[k - 1];
        }
      }
    }
  }

  /** Inserting into a sorted sequence keeps it sorted. */
  lemma {:induction false} InsertSorted<T>(x: T, s: seq<T>, key: T -> int)
    requires SortedBy(s, key)
    ensures SortedBy(Insert(x, s, key), key)
  {
    if |s| > 0 && key(x) > key(s[0]) {
      var rest := Insert(x, s[1..], key);
      InsertSorted(x, s[1..], key);
      InsertElements(x, s[1..], key);
      var r := [s[0]] + rest;
      forall i, j | 0 <= i < j < |r|
        ensures key(r[i]) <= key(r[j])
      {
        if i == 0 {
          assert r[j] == rest[j - 1];
          if rest[j - 1] != x {
            var k :| 0 <= k < |s[1..]| && s[1..][k] == rest[j - 1];
            assert s[k + 1] == rest[j - 1];
          }
        } else {
          assert r[i] == rest[i - 1] && r[j] == rest[j - 1];
        }
      }
    }
  }

  /** The elements of `s` in non-decreasing key order. */
  function SortBy<T>(s: seq<T>, key: T -> int): (r: seq<T>)
    ensures multiset(r) == multiset(s)
    ensures |r| == |s|
  {
    if |s| == 0 then []
    else
      assert s == [s[0]] + s[1..];
      Insert(s[0], SortBy(s[1..], key), key)
  }

  lemma {:induction false} SortBySorted<T>(s: seq<T>, key: T -> int)
    ensures SortedBy(SortBy(s, key), key)
  {
    if |s| > 0 {
      SortBySorted(s[1..], key);
      InsertSorted(s[0], SortBy(s[1..], key), key);
    }
  }

  /** An already sorted sequence is left as it is. */
  lemma {:induction false} SortByOfSorted<T>(s: seq<T>, key: T -> int)
    requires SortedBy(s, key)
    ensures SortBy(s, key) == s
  {
    if |s| > 0 {
      SortByOfSorted(s[1..], key);
      assert SortBy(s[1..], key) == s[1..];
      if |s| > 1 {
        assert key(s[0]) <= key(s[1]);
      }
      assert [s[0]] + s[1..] == s;
    }
  }
}

=== FILE: text.dfy ===
/** The string operations the interval parser relies on: `str::split` on a
    single character, `to_lowercase` on ASCII text, `replace(",", "")`, and
    `i64::from_str`, each with the inverse that pins its meaning down. */
module Text {
  import opened Basics

  // ---------------------------------------------------------------------
  // Splitting on one separator character, and joining back.
  // ---------------------------------------------------------------------

  /** Pieces joined with `sep` between consecutive pieces. */
  function Join(parts: seq<string>, sep: char): string
  {
    if |parts| == 0 then ""
    else if |parts| == 1 then parts[0]
    else parts[0] + [sep] + Join(parts[1..], sep)
  }

  /** A join of two or more pieces starts with the first piece and a
      separator. */
  lemma JoinCons(first: string, rest: seq<string>, sep: char)
    requires |rest| >= 1
    ensures Join([first] + rest, sep) == first + [sep] + Join(rest, sep)
  {
    assert ([first] + rest)[1..] == rest;
  }

  /** A character that is not the separator occurs in a join only if it
      occurs in some piece. */
  lemma {:induction false} JoinAvoids(parts: seq<string>, sep: char, x: char)
    requires x != sep
    requires forall k :: 0 <= k < |parts| ==> x !in parts[k]
    ensures x !in Join(parts, sep)
  {
    if |parts| >= 2 {
      JoinAvoids(parts[1..], sep, x);
    }
  }

  lemma {:induction false} JoinLower(parts: seq<string>, sep: char)
    requires !('A' <= sep <= 'Z')
    requires forall k :: 0 <= k < |parts| ==> IsLower(parts[k])
    ensures IsLower(Join(parts, sep))
  {
    if |parts| >= 2 {
      JoinLower(parts[1..], sep);
      var rest := Join(parts[1..], sep);
      var j := parts[0] + [sep] + rest;
      assert forall i :: |parts[0]| + 1 <= i < |j| ==> j[i] == rest[i - |parts[0]| - 1];
    }
  }

  /** `s.split(sep)`: the maximal pieces between separators, keeping empty
      pieces, so that the empty string yields one empty piece. */
  function Split(s: string, sep: char): (r: seq<string>)
    ensures |r| >= 1
  {
    if |s| == 0 then [""]
    else
      var rest := Split(s[1..], sep);
      if s[0] == sep then [""] + rest
      else [[s[0]] + rest[0]] + rest[1..]
  }

  /** The pieces hold no separator, and joining them gives the text back. */
  lemma {:induction false} JoinSplit(s: string, sep: char)
    ensures forall i :: 0 <= i < |Split(s, sep)| ==> sep !in Split(s, sep)[i]
    ensures Join(Split(s, sep), sep) == s
  {
    if |s| > 0 {
      JoinSplit(s[1..], sep);
      var rest := Split(s[1..], sep);
      if s[0] == sep {
        assert [s[0]] + s[1..] == s;
      } else {
        var r := [[s[0]] + rest[0]] + rest[1..];
        assert forall i :: 1 <= i < |r| ==> r[i] == rest[i];
        if |rest| > 1 {
          assert Join(rest, sep) == rest[0] + [sep] + Join(rest[1..], sep);
        }
        assert [s[0]] + s[1..] == s;
      }
    }
  }

  /** A piece without the separator splits into itself. */
  lemma {:induction false} SplitNoSep(w: string, sep: char)
    requires sep !in w
    ensures Split(w, sep) == [w]
  {
    if |w| > 0 {
      SplitNoSep(w[1..], sep);
      assert [w[0]] + w[1..] == w;
    }
  }

  /** A leading piece and its separator split off in front of the rest. */
  lemma {:induction false} SplitCons(w: string, sep: char, rest: string)
    requires sep !in w
    ensures Split(w + [sep] + rest, sep) == [w] + Split(rest, sep)
  {
    if |w| == 0 {
      assert w + [sep] + rest == [sep] + rest;
      assert ([sep] + rest)[1..] == rest;
    } else {
      var s := w + [sep] + rest;
      assert s[1..] == w[1..] + [sep] + rest;
      SplitCons(w[1..], sep, rest);
      assert [w[0]] + w[1..] == w;
    }
  }

  /** Splitting undoes joining, for pieces free of the separator. */
  lemma {:induction false} SplitJoin(parts: seq<string>, sep: char)
    requires |parts| >= 1
    requires forall i :: 0 <= i < |parts| ==> sep !in parts[i]
    ensures Split(Join(parts, sep), sep) == parts
  {
    if |parts| == 1 {
      SplitNoSep(parts[0], sep);
    } else {
      SplitJoin(parts[1..], sep);
      SplitCons(parts[0], sep, Join(parts[1..], sep));
      assert [parts[0]] + parts[1..] == parts;
    }
  }

  // ---------------------------------------------------------------------
  // ASCII lower-casing.
  // ---------------------------------------------------------------------

  function LowerChar(c: char): (r: char)
    ensures !('A' <= r <= 'Z')
    ensures !('A' <= c <= 'Z') ==> r == c
  {
    if 'A' <= c <= 'Z' then (c as int + 32) as char else c
  }

  predicate IsLower(s: string)
  {
    forall i :: 0 <= i < |s| ==> !('A' <= s[i] <= 'Z')
  }

  /** `to_lowercase` restricted to ASCII letters. */
  function ToLower(s: string): (r: string)
    ensures |r| == |s|
  {
    if |s| == 0 then "" else [LowerChar(s[0])] + ToLower(s[1..])
  }

  /** Lower-casing works character by character, and leaves no upper-case
      letter. */
  lemma {:induction false} ToLowerAt(s: string)
    ensures forall i :: 0 <= i < |s| ==> ToLower(s)[i] == LowerChar(s[i])
    ensures IsLower(ToLower(s))
  {
    if |s| > 0 {
      ToLowerAt(s[1..]);
      assert forall i :: 1 <= i < |s| ==> ToLower(s)[i] == ToLower(s[1..])[i - 1];
    }
  }

  /** Text with no upper-case letter is its own lower-case form. */
  lemma {:induction false} ToLowerOfLower(s: string)
    requires IsLower(s)
    ensures ToLower(s) == s
  {
    if |s| > 0 {
      ToLowerOfLower(s[1..]);
      assert s == [s[0]] + s[1..];
    }
  }

  lemma {:induction false} ToLowerAppend(a: string, b: string)
    ensures ToLower(a + b) == ToLower(a) + ToLower(b)
  {
    if |a| == 0 {
      assert a + b == b;
    } else {
      ToLowerAppend(a[1..], b);
      assert (a + b)[0] == a[0];
      assert (a + b)[1..] == a[1..] + b;
    }
  }

  /** Every piece lower-cased. */
  function MapLower(parts: seq<string>): (r: seq<string>)
    ensures |r| == |parts|
  {
    seq(|parts|, i requires 0 <= i < |parts| => ToLower(parts[i]))
  }

  lemma MapLowerAppend(a: seq<string>, b: seq<string>)
    ensures MapLower(a + b) == MapLower(a) + MapLower(b)
  {
    var l := MapLower(a + b);
    var r := MapLower(a) + MapLower(b);
    forall i | 0 <= i < |l|
      ensures l[i] == r[i]
    {
      if i < |a| {
        assert r[i] == MapLower(a)[i];
      } else {
        assert r[i] == MapLower(b)[i - |a|];
      }
    }
  }

  /** Lower-casing commutes with joining. */
  lemma {:induction false} ToLowerJoin(parts: seq<string>, sep: char)
    requires !('A' <= sep <= 'Z')
    ensures ToLower(Join(parts, sep)) == Join(MapLower(parts), sep)
  {
    if |parts| >= 2 {
      ToLowerJoin(parts[1..], sep);
      ToLowerAppend(parts[0] + [sep], Join(parts[1..], sep));
      ToLowerAppend(parts[0], [sep]);
      assert ToLower([sep]) == [sep];
      assert MapLower(parts)[1..] == MapLower(parts[1..]);
    }
  }

  // ---------------------------------------------------------------------
  // Removing every occurrence of one character.
  // ---------------------------------------------------------------------

  /** `s.replace(c, "")` for a one-character pattern. */
  function RemoveChar(s: string, c: char): (r: string)
    ensures |r| <= |s|
  {
    if |s| == 0 then ""
    else if s[0] == c then RemoveChar(s[1..], c)
    else [s[0]] + RemoveChar(s[1..], c)
  }

  /** Removal leaves no occurrence of `c`, keeps every other character, and
      leaves text without `c` as it is. */
  lemma {:induction false} RemoveCharSpec(s: string, c: char)
    ensures c !in RemoveChar(s, c)
    ensures forall x :: x != c ==> (x in RemoveChar(s, c) <==> x in s)
    ensures c !in s ==> RemoveChar(s, c) == s
  {
    if |s| > 0 {
      RemoveCharSpec(s[1..], c);
      assert s == [s[0]] + s[1..];
    }
  }

  /** Removal works piece by piece, so it keeps the order of what it keeps. */
  lemma {:induction false} RemoveCharAppend(a: string, b: string, c: char)
    ensures RemoveChar(a + b, c) == RemoveChar(a, c) + RemoveChar(b, c)
  {
    if |a| == 0 {
      assert a + b == b;
    } else {
      var ab := a + b;
      assert ab[0] == a[0] && ab[1..] == a[1..] + b;
      RemoveCharAppend(a[1..], b, c);
      var rest := RemoveChar(a[1..], c) + RemoveChar(b, c);
      if a[0] == c {
        assert RemoveChar(ab, c) == rest;
      } else {
        assert RemoveChar(ab, c) == [a[0]] + rest;
        assert [a[0]] + rest == ([a[0]] + RemoveChar(a[1..], c)) + RemoveChar(b, c);
      }
    }
  }

  // ---------------------------------------------------------------------
  // Decimal integers: `i64::from_str` and its inverse.
  // ---------------------------------------------------------------------

  predicate IsDigit(c: char)
  {
    '0' <= c <= '9'
  }

  predicate AllDigits(s: string)
  {
    forall i :: 0 <= i < |s| ==> IsDigit(s[i])
  }

  /** Value of a run of decimal digits, most significant first; `None` when
      some character is not a digit. */
  function Digits(s: string): (r: Option<nat>)
  {
    if |s| == 0 then Some(0)
    else if !IsDigit(s[|s| - 1]) then None
    else
      match Digits(s[..|s| - 1])
      case None => None
      case Some(v) => Some(v * 10 + (s[|s| - 1] as int - '0' as int))
  }

  /** Exactly the all-digit texts have a value. */
  lemma {:induction false} DigitsDefined(s: string)
    ensures Digits(s).Some? <==> AllDigits(s)
  {
    if |s| > 0 {
      DigitsDefined(s[..|s| - 1]);
      assert forall i :: 0 <= i < |s| - 1 ==> s[..|s| - 1][i] == s[i];
    }
  }

  /** The shortest decimal digits of `n`. */
  function NatDigits(n: nat): (r: string)
    ensures |r| >= 1
    ensures AllDigits(r)
  {
    if n < 10 then [('0' as int + n) as char]
    else NatDigits(n / 10) + [('0' as int + n % 10) as char]
  }

  lemma {:induction false} DigitsOfNatDigits(n: nat)
    ensures Digits(NatDigits(n)) == Some(n)
  {
    var d := NatDigits(n);
    if n >= 10 {
      DigitsOfNatDigits(n / 10);
      assert d[..|d| - 1] == NatDigits(n / 10);
    } else {
      assert d[..0] == [];
    }
  }

  /** `s.parse::<i64>()`: an optional `+` or `-`, then at least one digit and
      nothing else; a value outside the `i64` range is an error. */
  function ParseI64(s: string): (r: Option<int>)
    ensures r.Some? ==> I64_MIN <= r.value <= I64_MAX
    ensures |s| == 0 ==> r.None?
  {
    if |s| == 0 then None
    else
      var signed := s[0] == '+' || s[0] == '-';
      var body := if signed then s[1..] else s;
      if |body| == 0 then None
      else
        match Digits(body)
        case None => None
        case Some(mag) =>
          var m: int := mag;
          var v := if s[0] == '-' then -m else m;
          if I64_MIN <= v <= I64_MAX then Some(v) else None
  }

  /** The decimal text `Display` gives an integer. */
  function Decimal(n: int): (r: string)
    ensures |r| >= 1
  {
    if n < 0 then "-" + NatDigits(-n) else NatDigits(n)
  }

  /** Decimal text holds only digits and a sign: no upper-case letter, and
      none of the separators the interval syntax uses. */
  lemma DecimalPlain(n: int)
    ensures IsLower(Decimal(n))
    ensures ' ' !in Decimal(n) && ':' !in Decimal(n) && ',' !in Decimal(n)
  {
    var d := Decimal(n);
    assert forall i :: 0 <= i < |d| ==> d[i] == '-' || IsDigit(d[i]) by {
      if n < 0 {
        assert forall i :: 1 <= i < |d| ==> d[i] == NatDigits(-n)[i - 1];
      }
    }
  }

  /** Parsing the decimal text of an in-range integer gives it back. */
  lemma ParseDecimal(n: int)
    requires I64_MIN <= n <= I64_MAX
    ensures ParseI64(Decimal(n)) == Some(n)
  {
    var d := Decimal(n);
    if n < 0 {
      var body := NatDigits(-n);
      DigitsOfNatDigits(-n);
      assert d == "-" + body;
      assert d[1..] == body;
      assert d[0] == '-';
    } else {
      DigitsOfNatDigits(n);
      assert d == NatDigits(n);
      assert IsDigit(d[0]);
    }
  }
}

=== FILE: zero_bills.dfy ===
/** `adjust_bills_to_zero` and `void_or_zero_bills_of_type`: writing off
    what is left on a transaction's bills with account adjustments, or
    voiding the bills, as the library's settings decide. */
module ZeroBills {
  import opened Basics
  import opened Records
  import opened OpenXact
  import opened Allocator
  import opened Ledger
  import Interval

  /** Position of the first map of bill `billId`: the map the loop
      updates for that bill. */
  function MapOf(maps: seq<BillPaymentMap>, billId: int): (r: Option<nat>)
    ensures r.Some? ==> r.value < |maps| && maps[r.value].bill.id == billId
    ensures r.Some? ==> forall k :: 0 <= k < r.value ==> maps[k].bill.id != billId
    ensures r.None? <==> forall k :: 0 <= k < |maps| ==> maps[k].bill.id != billId
  {
    if |maps| == 0 then None
    else if maps[0].bill.id == billId then Some(0)
    else
      match MapOf(maps[1..], billId)
      case None => None
      case Some(k) =>
        assert forall j :: 1 <= j <= k ==> maps[j] == maps[1..][j - 1];
        Some(k + 1)
  }

  /** Maps for the same bills, in the same order, are searched alike. */
  lemma {:induction false} MapOfSameBills(xs: seq<BillPaymentMap>, ys: seq<BillPaymentMap>, billId: int)
    requires |xs| == |ys|
    requires forall k :: 0 <= k < |xs| ==> xs[k].bill.id == ys[k].bill.id
    ensures MapOf(xs, billId) == MapOf(ys, billId)
  {
    if |xs| > 0 {
      MapOfSameBills(xs[1..], ys[1..], billId);
    }
  }

  /** What is left to adjust on a map's bill: the amount it was created
      with, less the adjustments applied to it. */
  function Unadjusted(m: BillPaymentMap): int
  {
    m.billAmount - m.adjustmentAmount
  }

  /** The amount adjusted: what is left, but never more than the
      transaction's total. */
  function Capped(left: int, total: int): (r: int)
    ensures r <= left && r <= total
    ensures r == left || r == total
  {
    if left > total then total else left
  }

  /** The account adjustment written for a bill: paid and collected in
      full at `now`, accepted by the requestor, with the given note. */
  function AdjustmentPayment(id: int, xact: int, billId: int, amount: int, requestor: Option<int>, note: string, now: int)
    : Payment
  {
    Payment(id, xact, amount, now, false, Some(Adjustment(id, billId, amount, amount, requestor, note)))
  }

  /** The store and the maps as the loop leaves them after each bill. */
  datatype Adjusting = Adjusting(store: Store, maps: seq<BillPaymentMap>)

  /** The maps keep their bills, their payments and their original
      amounts; only adjustments are added. */
  predicate SameBills(maps: seq<BillPaymentMap>, after: seq<BillPaymentMap>)
  {
    && |after| == |maps|
    && forall k :: 0 <= k < |maps| ==>
         && after[k].bill == maps[k].bill && after[k].payments == maps[k].payments
         && after[k].billAmount == maps[k].billAmount
  }

  /** The body of the loop for the bill with id `billId`: with no map, or
      nothing left to adjust, nothing happens; otherwise an adjustment of
      the capped amount is written and recorded on the map. */
  function AdjustOne(a: Adjusting, billId: int, xact: int, total: int, requestor: Option<int>, note: string, now: int)
    : (r: Adjusting)
    ensures r.store.bills == a.store.bills && r.store.xacts == a.store.xacts && r.store.circs == a.store.circs
    ensures SameBills(a.maps, r.maps)
    ensures MapOf(a.maps, billId).None? || Unadjusted(a.maps[MapOf(a.maps, billId).value]) <= 0 ==> r == a
    ensures MapOf(a.maps, billId).Some? && Unadjusted(a.maps[MapOf(a.maps, billId).value]) > 0 ==>
              && r.store.nextId == a.store.nextId + 1
              && |r.store.payments| == |a.store.payments| + 1
              && r.store.payments[..|a.store.payments|] == a.store.payments
  {
    match MapOf(a.maps, billId)
    case None => a
    case Some(k) =>
      var m := a.maps[k];
      if Unadjusted(m) <= 0 then a
      else
        var amount := Capped(Unadjusted(m), total);
        var p := AdjustmentPayment(a.store.nextId, xact, billId, amount, requestor, note, now);
        var m' := m.(adjustmentAmount := m.adjustmentAmount + amount, adjustments := m.adjustments + [p.adjustment.value]);
        assert (a.store.payments + [p])[..|a.store.payments|] == a.store.payments;
        Adjusting(a.store.(payments := a.store.payments + [p], nextId := a.store.nextId + 1), a.maps[k := m'])
  }

  /** The loop of `adjust_bills_to_zero` over the bills found (`snapshot`
      at positions `idxs`). */
  function AdjustEach(snapshot: seq<Bill>, idxs: seq<nat>, a: Adjusting, xact: int, total: int,
                      requestor: Option<int>, note: string, now: int): (r: Adjusting)
    requires forall j :: 0 <= j < |idxs| ==> idxs[j] < |snapshot|
    ensures r.store.bills == a.store.bills && r.store.xacts == a.store.xacts && r.store.circs == a.store.circs
    ensures SameBills(a.maps, r.maps)
    ensures |a.store.payments| <= |r.store.payments| && r.store.payments[..|a.store.payments|] == a.store.payments
    ensures r.store.nextId == a.store.nextId + (|r.store.payments| - |a.store.payments|)
    decreases |idxs|
  {
    if |idxs| == 0 then a
    else
      var next := AdjustOne(a, snapshot[idxs[0]].id, xact, total, requestor, note, now);
      AdjustEach(snapshot, idxs[1..], next, xact, total, requestor, note, now)
  }

  /** The payments the loop wrote. */
  function Written(a: Adjusting, r: Adjusting): seq<Payment>
    requires |a.store.payments| <= |r.store.payments|
  {
    r.store.payments[|a.store.payments|..]
  }

  /** When the first bill writes an adjustment, it heads what the whole
      loop writes. */
  lemma WrittenCons(a: Adjusting, next: Adjusting, r: Adjusting)
    requires |next.store.payments| == |a.store.payments| + 1
    requires next.store.payments[..|a.store.payments|] == a.store.payments
    requires |next.store.payments| <= |r.store.payments| && r.store.payments[..|next.store.payments|] == next.store.payments
    ensures Written(a, r) == [next.store.payments[|a.store.payments|]] + Written(next, r)
  {
    var n := |a.store.payments|;
    assert r.store.payments[n] == r.store.payments[..n + 1][n];
    assert r.store.payments[n..] == [r.store.payments[n]] + r.store.payments[n + 1..];
  }

  /** An account adjustment as the loop writes it: on the transaction, not
      voided, dated `now`, collected in full, accepted by the requestor and
      carrying the note; its amount is at most the transaction's total, and
      positive exactly when that total is. */
  predicate WrittenAdjustment(p: Payment, xact: int, total: int, requestor: Option<int>, note: string, now: int)
  {
    && p.xact == xact && !p.voided && p.paymentTs == now
    && p.amount <= total && (p.amount > 0 <==> total > 0)
    && p.adjustment.Some?
    && p.adjustment.value.id == p.id
    && p.adjustment.value.amount == p.amount && p.adjustment.value.amountCollected == p.amount
    && p.adjustment.value.acceptingUsr == requestor && p.adjustment.value.note == note
  }

  /** `id` is the id of one of the bills the loop goes over. */
  predicate ListedId(snapshot: seq<Bill>, idxs: seq<nat>, id: int)
  {
    exists j :: 0 <= j < |idxs| && idxs[j] < |snapshot| && snapshot[idxs[j]].id == id
  }

  lemma ListedIdTail(snapshot: seq<Bill>, idxs: seq<nat>, id: int)
    requires |idxs| > 0 && ListedId(snapshot, idxs[1..], id)
    ensures ListedId(snapshot, idxs, id)
  {
    var j :| 0 <= j < |idxs[1..]| && idxs[1..][j] < |snapshot| && snapshot[idxs[1..][j]].id == id;
    assert idxs[j + 1] == idxs[1..][j];
  }

  /** When a bill has a map with something left to adjust, one adjustment
      is written for it, numbered with the store's next id, and its amount
      is added to that map alone. The amount is what was left, capped at the
      transaction's total. */
  lemma AdjustOneWrites(a: Adjusting, billId: int, xact: int, total: int, requestor: Option<int>, note: string, now: int)
    requires MapOf(a.maps, billId).Some? && Unadjusted(a.maps[MapOf(a.maps, billId).value]) > 0
    ensures var r := AdjustOne(a, billId, xact, total, requestor, note, now);
            var k := MapOf(a.maps, billId).value;
            && |r.store.payments| == |a.store.payments| + 1
            && var p := r.store.payments[|a.store.payments|];
            && r.store.payments == a.store.payments + [p]
            && WrittenAdjustment(p, xact, total, requestor, note, now)
            && p.id == a.store.nextId && p.adjustment.value.billing == billId
            && p.amount == Capped(Unadjusted(a.maps[k]), total)
            && r.maps[k].adjustmentAmount == a.maps[k].adjustmentAmount + p.amount
            && forall j :: 0 <= j < |a.maps| && j != k ==> r.maps[j] == a.maps[j]
  {
  }

  /** Each of `ws` is an account adjustment as the loop writes it, for a
      bill the loop went over that has a map, numbered from `firstId` on. */
  predicate WrittenFor(ws: seq<Payment>, snapshot: seq<Bill>, idxs: seq<nat>, maps: seq<BillPaymentMap>, xact: int,
                       total: int, requestor: Option<int>, note: string, now: int, firstId: int)
  {
    forall k :: 0 <= k < |ws| ==>
      && WrittenAdjustment(ws[k], xact, total, requestor, note, now)
      && ws[k].id == firstId + k
      && ListedId(snapshot, idxs, ws[k].adjustment.value.billing)
      && MapOf(maps, ws[k].adjustment.value.billing).Some?
  }

  /** What holds of the payments written for the later bills holds of
      them for the whole loop. */
  lemma WrittenForLift(ws: seq<Payment>, snapshot: seq<Bill>, idxs: seq<nat>, maps: seq<BillPaymentMap>,
                       later: seq<BillPaymentMap>, xact: int, total: int, requestor: Option<int>, note: string,
                       now: int, firstId: int)
    requires |idxs| > 0 && SameBills(maps, later)
    requires WrittenFor(ws, snapshot, idxs[1..], later, xact, total, requestor, note, now, firstId)
    ensures WrittenFor(ws, snapshot, idxs, maps, xact, total, requestor, note, now, firstId)
  {
    forall k | 0 <= k < |ws|
      ensures && ListedId(snapshot, idxs, ws[k].adjustment.value.billing)
              && MapOf(maps, ws[k].adjustment.value.billing).Some?
    {
      ListedIdTail(snapshot, idxs, ws[k].adjustment.value.billing);
      MapOfSameBills(maps, later, ws[k].adjustment.value.billing);
    }
  }

  lemma WrittenForCons(p: Payment, ws: seq<Payment>, snapshot: seq<Bill>, idxs: seq<nat>, maps: seq<BillPaymentMap>,
                       xact: int, total: int, requestor: Option<int>, note: string, now: int, firstId: int)
    requires WrittenAdjustment(p, xact, total, requestor, note, now) && p.id == firstId
    requires ListedId(snapshot, idxs, p.adjustment.value.billing) && MapOf(maps, p.adjustment.value.billing).Some?
    requires WrittenFor(ws, snapshot, idxs, maps, xact, total, requestor, note, now, firstId + 1)
    ensures WrittenFor([p] + ws, snapshot, idxs, maps, xact, total, requestor, note, now, firstId)
  {
    var all := [p] + ws;
    forall k | 0 <= k < |all|
      ensures && WrittenAdjustment(all[k], xact, total, requestor, note, now)
              && all[k].id == firstId + k
              && ListedId(snapshot, idxs, all[k].adjustment.value.billing)
              && MapOf(maps, all[k].adjustment.value.billing).Some?
    {
      if k > 0 {
        assert all[k] == ws[k - 1];
      }
    }
  }

  /** Every payment the loop writes is an account adjustment of a bill it
      went over that has a map, numbered from the store's next id on. */
  lemma {:induction false} AdjustEachWritten(snapshot: seq<Bill>, idxs: seq<nat>, a: Adjusting, xact: int, total: int,
                                             requestor: Option<int>, note: string, now: int)
    requires forall j :: 0 <= j < |idxs| ==> idxs[j] < |snapshot|
    ensures var r := AdjustEach(snapshot, idxs, a, xact, total, requestor, note, now);
            WrittenFor(Written(a, r), snapshot, idxs, a.maps, xact, total, requestor, note, now, a.store.nextId)
    decreases |idxs|
  {
    if |idxs| > 0 {
      var billId := snapshot[idxs[0]].id;
      var next := AdjustOne(a, billId, xact, total, requestor, note, now);
      var r := AdjustEach(snapshot, idxs[1..], next, xact, total, requestor, note, now);
      AdjustEachWritten(snapshot, idxs[1..], next, xact, total, requestor, note, now);
      var tail := Written(next, r);
      WrittenForLift(tail, snapshot, idxs, a.maps, next.maps, xact, total, requestor, note, now, next.store.nextId);
      if MapOf(a.maps, billId).Some? && Unadjusted(a.maps[MapOf(a.maps, billId).value]) > 0 {
        AdjustOneWrites(a, billId, xact, total, requestor, note, now);
        var p := next.store.payments[|a.store.payments|];
        WrittenCons(a, next, r);
        assert ListedId(snapshot, idxs, billId) by {
          assert snapshot[idxs[0]].id == billId;
        }
        WrittenForCons(p, tail, snapshot, idxs, a.maps, xact, total, requestor, note, now, a.store.nextId);
      } else {
        assert Written(a, r) == tail;
      }
    }
  }

  /** The loop takes what it writes off the transaction's balance and
      leaves every other balance as it was. */
  lemma {:induction false} AdjustEachBalance(snapshot: seq<Bill>, idxs: seq<nat>, a: Adjusting, xact: int, total: int,
                                             requestor: Option<int>, note: string, now: int)
    requires forall j :: 0 <= j < |idxs| ==> idxs[j] < |snapshot|
    ensures var r := AdjustEach(snapshot, idxs, a, xact, total, requestor, note, now);
            forall y :: BalanceOwed(r.store, y) == BalanceOwed(a.store, y) - (if y == xact then Recorded(Written(a, r)) else 0)
    decreases |idxs|
  {
    if |idxs| > 0 {
      var billId := snapshot[idxs[0]].id;
      var next := AdjustOne(a, billId, xact, total, requestor, note, now);
      var r := AdjustEach(snapshot, idxs[1..], next, xact, total, requestor, note, now);
      AdjustEachBalance(snapshot, idxs[1..], next, xact, total, requestor, note, now);
      if next != a {
        var p := next.store.payments[|a.store.payments|];
        assert next.store.payments == a.store.payments + [p];
        assert Written(a, r)[1..] == Written(next, r);
        forall y
          ensures BalanceOwed(next.store, y) == BalanceOwed(a.store, y) - (if y == xact then p.amount else 0)
        {
          PaidTotalAppend(a.store.payments, p, y);
        }
      }
    }
  }

  /** What the adjustments among `ps` take off bill `billId`. */
  function AdjustedFor(ps: seq<Payment>, billId: int): int
  {
    if |ps| == 0 then 0
    else
      (if ps[0].adjustment.Some? && ps[0].adjustment.value.billing == billId then ps[0].amount else 0)
      + AdjustedFor(ps[1..], billId)
  }

  /** No map is adjusted past its bill's amount. */
  predicate Within(maps: seq<BillPaymentMap>)
  {
    forall k :: 0 <= k < |maps| && maps[k].billAmount >= 0 ==> Unadjusted(maps[k]) >= 0
  }

  /** One step on the maps: the first map of the bill gains the amount
      written; no other map changes, and none is adjusted past its bill. */
  lemma AdjustOneMaps(a: Adjusting, billId: int, xact: int, total: int, requestor: Option<int>, note: string, now: int)
    requires MapOf(a.maps, billId).Some? && Unadjusted(a.maps[MapOf(a.maps, billId).value]) > 0
    ensures var next := AdjustOne(a, billId, xact, total, requestor, note, now);
            var p := next.store.payments[|a.store.payments|];
            forall b :: MapOf(a.maps, b).Some? ==>
              next.maps[MapOf(a.maps, b).value].adjustmentAmount
                == a.maps[MapOf(a.maps, b).value].adjustmentAmount + (if b == billId then p.amount else 0)
    ensures var next := AdjustOne(a, billId, xact, total, requestor, note, now);
            Within(a.maps) ==> Within(next.maps)
  {
    var next := AdjustOne(a, billId, xact, total, requestor, note, now);
    var k := MapOf(a.maps, billId).value;
    AdjustOneWrites(a, billId, xact, total, requestor, note, now);
    forall b | MapOf(a.maps, b).Some? && b != billId
      ensures MapOf(a.maps, b).value != k
    {
    }
    if Within(a.maps) {
      forall j | 0 <= j < |next.maps| && next.maps[j].billAmount >= 0
        ensures Unadjusted(next.maps[j]) >= 0
      {
        if j != k {
          assert next.maps[j] == a.maps[j];
        }
      }
    }
  }

  /** The map of each bill records exactly what the loop wrote off that
      bill. */
  lemma {:induction false} AdjustEachMaps(snapshot: seq<Bill>, idxs: seq<nat>, a: Adjusting, xact: int, total: int,
                                          requestor: Option<int>, note: string, now: int)
    requires forall j :: 0 <= j < |idxs| ==> idxs[j] < |snapshot|
    ensures var r := AdjustEach(snapshot, idxs, a, xact, total, requestor, note, now);
            forall b :: MapOf(a.maps, b).Some? ==>
              r.maps[MapOf(a.maps, b).value].adjustmentAmount
                == a.maps[MapOf(a.maps, b).value].adjustmentAmount + AdjustedFor(Written(a, r), b)
    decreases |idxs|
  {
    if |idxs| > 0 {
      var billId := snapshot[idxs[0]].id;
      var next := AdjustOne(a, billId, xact, total, requestor, note, now);
      var r := AdjustEach(snapshot, idxs[1..], next, xact, total, requestor, note, now);
      AdjustEachMaps(snapshot, idxs[1..], next, xact, total, requestor, note, now);
      var tail := Written(next, r);
      if MapOf(a.maps, billId).Some? && Unadjusted(a.maps[MapOf(a.maps, billId).value]) > 0 {
        AdjustOneMaps(a, billId, xact, total, requestor, note, now);
        AdjustOneWrites(a, billId, xact, total, requestor, note, now);
        var p := next.store.payments[|a.store.payments|];
        WrittenCons(a, next, r);
        forall b | MapOf(a.maps, b).Some?
          ensures r.maps[MapOf(a.maps, b).value].adjustmentAmount
                  == a.maps[MapOf(a.maps, b).value].adjustmentAmount + AdjustedFor(Written(a, r), b)
        {
          MapOfSameBills(a.maps, next.maps, b);
          assert AdjustedFor([p] + tail, b) == (if b == billId then p.amount else 0) + AdjustedFor(tail, b) by {
            assert ([p] + tail)[1..] == tail;
          }
        }
      } else {
        assert next == a;
      }
    }
  }

  /** No map is adjusted past its bill's amount by the loop. */
  lemma {:induction false} AdjustEachWithin(snapshot: seq<Bill>, idxs: seq<nat>, a: Adjusting, xact: int, total: int,
                                            requestor: Option<int>, note: string, now: int)
    requires forall j :: 0 <= j < |idxs| ==> idxs[j] < |snapshot|
    ensures Within(a.maps) ==> Within(AdjustEach(snapshot, idxs, a, xact, total, requestor, note, now).maps)
    decreases |idxs|
  {
    if |idxs| > 0 {
      var billId := snapshot[idxs[0]].id;
      if MapOf(a.maps, billId).Some? && Unadjusted(a.maps[MapOf(a.maps, billId).value]) > 0 {
        AdjustOneMaps(a, billId, xact, total, requestor, note, now);
      }
      var next := AdjustOne(a, billId, xact, total, requestor, note, now);
      AdjustEachWithin(snapshot, idxs[1..], next, xact, total, requestor, note, now);
    }
  }

  /** Payment `k` of `ws` adjusts a bill that has a map, by what was left
      on it (its amount, less what the map records and what earlier
      payments of `ws` took off it), capped at `total`. */
  predicate AmountAt(ws: seq<Payment>, k: nat, maps: seq<BillPaymentMap>, total: int)
    requires k < |ws|
  {
    && ws[k].adjustment.Some?
    && MapOf(maps, ws[k].adjustment.value.billing).Some?
    && ws[k].amount
       == Capped(Unadjusted(maps[MapOf(maps, ws[k].adjustment.value.billing).value])
                 - AdjustedFor(ws[..k], ws[k].adjustment.value.billing), total)
  }

  /** Every payment of `ws` adjusts what was left on its bill. */
  predicate AmountsFor(ws: seq<Payment>, maps: seq<BillPaymentMap>, total: int)
  {
    forall k :: 0 <= k < |ws| ==> AmountAt(ws, k, maps, total)
  }

  /** The adjustments of `[p] + ps` on a bill: `p`'s, if it names the bill,
      then those of `ps`. */
  lemma AdjustedForCons(p: Payment, ps: seq<Payment>, b: int)
    ensures AdjustedFor([p] + ps, b)
            == (if p.adjustment.Some? && p.adjustment.value.billing == b then p.amount else 0) + AdjustedFor(ps, b)
  {
    assert ([p] + ps)[1..] == ps;
  }

  /** `later` is `maps` after payment `p` was recorded on its bill's map. */
  ghost predicate Shifted(maps: seq<BillPaymentMap>, later: seq<BillPaymentMap>, p: Payment)
    requires p.adjustment.Some?
  {
    && SameBills(maps, later)
    && forall b :: MapOf(maps, b).Some? ==>
         later[MapOf(maps, b).value].adjustmentAmount
           == maps[MapOf(maps, b).value].adjustmentAmount + (if b == p.adjustment.value.billing then p.amount else 0)
  }

  /** The first payment's amount, as `AmountsFor` states it. */
  lemma AmountForFirst(p: Payment, tail: seq<Payment>, maps: seq<BillPaymentMap>, total: int)
    requires p.adjustment.Some? && MapOf(maps, p.adjustment.value.billing).Some?
    requires p.amount == Capped(Unadjusted(maps[MapOf(maps, p.adjustment.value.billing).value]), total)
    ensures AmountAt([p] + tail, 0, maps, total)
  {
    assert ([p] + tail)[..0] == [];
  }

  /** One later payment, seen from the maps before the first one: what the
      first took off its bill moves from the map into the prefix. */
  lemma AmountForLater(p: Payment, tail: seq<Payment>, j: nat, maps: seq<BillPaymentMap>,
                       later: seq<BillPaymentMap>, total: int)
    requires j < |tail| && p.adjustment.Some?
    requires Shifted(maps, later, p)
    requires AmountAt(tail, j, later, total)
    ensures AmountAt([p] + tail, j + 1, maps, total)
  {
    var b := tail[j].adjustment.value.billing;
    assert ([p] + tail)[j + 1] == tail[j];
    MapOfSameBills(maps, later, b);
    assert ([p] + tail)[..j + 1] == [p] + tail[..j];
    AdjustedForCons(p, tail[..j], b);
  }

  /** The amounts of what the loop writes after its first payment, seen
      from the maps before that payment. */
  lemma AmountsForCons(p: Payment, tail: seq<Payment>, maps: seq<BillPaymentMap>, later: seq<BillPaymentMap>,
                       total: int)
    requires p.adjustment.Some? && MapOf(maps, p.adjustment.value.billing).Some?
    requires p.amount == Capped(Unadjusted(maps[MapOf(maps, p.adjustment.value.billing).value]), total)
    requires Shifted(maps, later, p)
    requires AmountsFor(tail, later, total)
    ensures AmountsFor([p] + tail, maps, total)
  {
    var ws := [p] + tail;
    forall k | 0 <= k < |ws|
      ensures AmountAt(ws, k, maps, total)
    {
      if k == 0 {
        AmountForFirst(p, tail, maps, total);
      } else {
        AmountForLater(p, tail, k - 1, maps, later, total);
      }
    }
  }

  /** What the loop writes for each bill is what was left on it, capped at
      the transaction's total. */
  lemma {:induction false} AdjustEachAmounts(snapshot: seq<Bill>, idxs: seq<nat>, a: Adjusting, xact: int, total: int,
                                             requestor: Option<int>, note: string, now: int)
    requires forall j :: 0 <= j < |idxs| ==> idxs[j] < |snapshot|
    ensures var r := AdjustEach(snapshot, idxs, a, xact, total, requestor, note, now);
            AmountsFor(Written(a, r), a.maps, total)
    decreases |idxs|
  {
    var r := AdjustEach(snapshot, idxs, a, xact, total, requestor, note, now);
    if |idxs| == 0 {
      assert Written(a, r) == [];
    } else {
      var billId := snapshot[idxs[0]].id;
      var next := AdjustOne(a, billId, xact, total, requestor, note, now);
      AdjustEachAmounts(snapshot, idxs[1..], next, xact, total, requestor, note, now);
      var tail := Written(next, r);
      if MapOf(a.maps, billId).Some? && Unadjusted(a.maps[MapOf(a.maps, billId).value]) > 0 {
        AdjustOneWrites(a, billId, xact, total, requestor, note, now);
        AdjustOneMaps(a, billId, xact, total, requestor, note, now);
        var p := next.store.payments[|a.store.payments|];
        WrittenCons(a, next, r);
        AmountsForCons(p, tail, a.maps, next.maps, total);
      } else {
        assert Written(a, r) == tail;
      }
    }
  }

  /** Sum of what is still unpaid on each map's bill: the transaction total
      the adjustments are capped at. */
  function UnpaidTotal(maps: seq<BillPaymentMap>): int
  {
    if |maps| == 0 then 0 else maps[0].bill.amount + UnpaidTotal(maps[1..])
  }

  /** The transaction of the first listed bill in store order: the one the
      whole call works on. */
  function ListedXact(store: Store, billIds: seq<int>): (r: Option<int>)
    ensures r.None? <==> forall k :: 0 <= k < |store.bills| ==> store.bills[k].id !in billIds
    ensures r.Some? ==> exists k :: 0 <= k < |store.bills| && store.bills[k].id in billIds && store.bills[k].xact == r.value
  {
    var idxs := Positions(store.bills, billIds, 0);
    if |idxs| == 0 then None else Some(store.bills[idxs[0]].xact)
  }

  /** The loop over the listed bills (at positions `idxs`) with the maps of
      transaction `xact`. Every payment written is an account adjustment of
      a listed bill with a map, numbered from the store's next id on; the
      transaction's balance drops by their sum and no other balance
      changes; starting from unadjusted maps, no bill of non-negative
      amount is adjusted past that amount. */
  function AdjustAll(store: Store, idxs: seq<nat>, xact: int, maps: seq<BillPaymentMap>,
                     requestor: Option<int>, note: string, now: int): (r: Store)
    requires forall j :: 0 <= j < |idxs| ==> idxs[j] < |store.bills|
    ensures r.bills == store.bills && r.xacts == store.xacts && r.circs == store.circs
    ensures forall y :: FindXact(r, y) == FindXact(store, y)
    ensures |store.payments| <= |r.payments| && r.payments[..|store.payments|] == store.payments
    ensures r.nextId == store.nextId + (|r.payments| - |store.payments|)
    ensures WrittenFor(r.payments[|store.payments|..], store.bills, idxs, maps, xact, UnpaidTotal(maps),
                       requestor, note, now, store.nextId)
    ensures forall y :: BalanceOwed(r, y)
                        == BalanceOwed(store, y) - (if y == xact then Recorded(r.payments[|store.payments|..]) else 0)
    ensures (forall k :: 0 <= k < |maps| ==> maps[k].adjustmentAmount == 0) ==>
              forall b :: MapOf(maps, b).Some? && maps[MapOf(maps, b).value].billAmount >= 0 ==>
                AdjustedFor(r.payments[|store.payments|..], b) <= maps[MapOf(maps, b).value].billAmount
    ensures AmountsFor(r.payments[|store.payments|..], maps, UnpaidTotal(maps))
  {
    var start := Adjusting(store, maps);
    var done := AdjustEach(store.bills, idxs, start, xact, UnpaidTotal(maps), requestor, note, now);
    AdjustEachWritten(store.bills, idxs, start, xact, UnpaidTotal(maps), requestor, note, now);
    AdjustEachBalance(store.bills, idxs, start, xact, UnpaidTotal(maps), requestor, note, now);
    AdjustEachMaps(store.bills, idxs, start, xact, UnpaidTotal(maps), requestor, note, now);
    AdjustEachWithin(store.bills, idxs, start, xact, UnpaidTotal(maps), requestor, note, now);
    AdjustEachAmounts(store.bills, idxs, start, xact, UnpaidTotal(maps), requestor, note, now);
    done.store
  }

  /** `adjust_bills_to_zero`: for each listed bill with something left to
      adjust, writes an account adjustment of what is left (capped at the
      transaction's unpaid total), then settles the transaction and reports
      its payer for penalty recalculation. All bills are taken to belong to
      the transaction of the first one. */
  function AdjustBillsToZero(store: Store, requestor: Option<int>, billIds: seq<int>, note: string, now: int)
    : (r: Result<Outcome>)
    ensures ListedXact(store, billIds).None? ==> r == Ok(Outcome(store, {}))
    ensures r.Err? ==> r.error == Panic || r.error == Diverges
    ensures r.Ok? ==> && r.value.store.bills == store.bills && r.value.store.circs == store.circs
                      && SameXacts(store, r.value.store)
                      && |store.payments| <= |r.value.store.payments|
                      && r.value.store.payments[..|store.payments|] == store.payments
                      && r.value.store.nextId == store.nextId + (|r.value.store.payments| - |store.payments|)
    ensures r.Ok? && r.value.penalized == {} ==> r.value.store == store
  {
    var idxs := Positions(store.bills, billIds, 0);
    if |idxs| == 0 then Ok(Outcome(store, {}))
    else
      var xact := store.bills[idxs[0]].xact;
      match FindXact(store, xact)
      case None => Err(Panic)
      case Some(x) =>
        var maps :- BillPaymentMapForXact(store, xact);
        if |maps| == 0 then Ok(Outcome(store, {}))
        else
          var done := AdjustAll(store, idxs, xact, maps, requestor, note, now);
          Ok(Outcome(CheckOpenXact(done, xact, now).value, {Payer(x)}))
  }

  /** The call fails exactly when a bill is listed and its transaction is
      missing (a panic) or its allocation never returns. */
  lemma AdjustBillsToZeroFails(store: Store, requestor: Option<int>, billIds: seq<int>, note: string, now: int)
    ensures var r := AdjustBillsToZero(store, requestor, billIds, note, now);
            r.Err? <==> && ListedXact(store, billIds).Some?
                        && (|| FindXact(store, ListedXact(store, billIds).value).None?
                            || BillPaymentMapForXact(store, ListedXact(store, billIds).value).Err?)
    ensures var r := AdjustBillsToZero(store, requestor, billIds, note, now);
            r.Err? ==> (r.error == Panic <==> FindXact(store, ListedXact(store, billIds).value).None?)
  {
  }

  /** When the transaction has bills to adjust, the call is the loop over
      the transaction's maps followed by the check of the transaction. */
  lemma AdjustBillsToZeroRuns(store: Store, requestor: Option<int>, billIds: seq<int>, note: string, now: int)
    requires AdjustBillsToZero(store, requestor, billIds, note, now).Ok?
    requires AdjustBillsToZero(store, requestor, billIds, note, now).value.penalized != {}
    ensures ListedXact(store, billIds).Some?
    ensures var x := ListedXact(store, billIds).value;
            && FindXact(store, x).Some? && BillPaymentMapForXact(store, x).Ok?
            && var done := AdjustAll(store, Positions(store.bills, billIds, 0), x, BillPaymentMapForXact(store, x).value,
                                     requestor, note, now);
            && CheckOpenXact(done, x, now).Ok?
            && AdjustBillsToZero(store, requestor, billIds, note, now).value
               == Outcome(CheckOpenXact(done, x, now).value, {Payer(FindXact(store, x).value)})
  {
  }

  /** When the transaction has bills to adjust, it is settled afterwards
      and its payer's penalties are recalculated. */
  lemma AdjustBillsToZeroSettles(store: Store, requestor: Option<int>, billIds: seq<int>, note: string, now: int)
    requires AdjustBillsToZero(store, requestor, billIds, note, now).Ok?
    requires AdjustBillsToZero(store, requestor, billIds, note, now).value.penalized != {}
    ensures ListedXact(store, billIds).Some?
    ensures var r := AdjustBillsToZero(store, requestor, billIds, note, now).value;
            var x := ListedXact(store, billIds).value;
            && Settled(r.store, x)
            && FindXact(store, x).Some?
            && r.penalized == {Payer(FindXact(store, x).value)}
  {
    AdjustBillsToZeroRuns(store, requestor, billIds, note, now);
  }

  /** No transaction but the adjusted one changes. */
  lemma AdjustBillsToZeroOthers(store: Store, requestor: Option<int>, billIds: seq<int>, note: string, now: int, y: int)
    requires AdjustBillsToZero(store, requestor, billIds, note, now).Ok?
    requires ListedXact(store, billIds) != Some(y)
    ensures FindXact(AdjustBillsToZero(store, requestor, billIds, note, now).value.store, y) == FindXact(store, y)
  {
    if AdjustBillsToZero(store, requestor, billIds, note, now).value.penalized != {} {
      AdjustBillsToZeroRuns(store, requestor, billIds, note, now);
    }
  }

  /** A non-voided bill of transaction `xact` has id `id`. */
  predicate OpenBillOf(store: Store, xact: int, id: int)
  {
    exists j :: 0 <= j < |store.bills| && store.bills[j].id == id && store.bills[j].xact == xact && !store.bills[j].voided
  }

  /** A bill with a map in the transaction's allocation is one of its
      non-voided bills. */
  lemma MappedBillIsOpen(store: Store, xact: int, id: int)
    requires BillPaymentMapForXact(store, xact).Ok?
    requires MapOf(BillPaymentMapForXact(store, xact).value, id).Some?
    ensures OpenBillOf(store, xact, id)
  {
    var maps := BillPaymentMapForXact(store, xact).value;
    var bills := BillsInOrder(store, xact);
    var k := MapOf(maps, id).value;
    assert maps[k].bill == bills[k].(amount := maps[k].bill.amount);
    assert bills[k] in multiset(OpenBills(store.bills, xact));
    assert bills[k] in store.bills;
  }

  /** The payments written for listed bills with a map name listed,
      non-voided bills of the transaction. */
  lemma WrittenForOpenBills(ws: seq<Payment>, store: Store, billIds: seq<int>, xact: int, total: int,
                            requestor: Option<int>, note: string, now: int, firstId: int)
    requires BillPaymentMapForXact(store, xact).Ok?
    requires WrittenFor(ws, store.bills, Positions(store.bills, billIds, 0), BillPaymentMapForXact(store, xact).value,
                        xact, total, requestor, note, now, firstId)
    ensures forall k :: 0 <= k < |ws| ==>
              && WrittenAdjustment(ws[k], xact, total, requestor, note, now)
              && ws[k].id == firstId + k
              && ws[k].adjustment.value.billing in billIds
              && OpenBillOf(store, xact, ws[k].adjustment.value.billing)
  {
    var idxs := Positions(store.bills, billIds, 0);
    forall k | 0 <= k < |ws|
      ensures ws[k].adjustment.value.billing in billIds && OpenBillOf(store, xact, ws[k].adjustment.value.billing)
    {
      var j :| 0 <= j < |idxs| && idxs[j] < |store.bills| && store.bills[idxs[j]].id == ws[k].adjustment.value.billing;
      MappedBillIsOpen(store, xact, ws[k].adjustment.value.billing);
    }
  }

  /** Every payment the call writes is an account adjustment, as the loop
      writes it, of a listed non-voided bill of the transaction, numbered
      from the store's next id on. */
  lemma AdjustBillsToZeroWrites(store: Store, requestor: Option<int>, billIds: seq<int>, note: string, now: int)
    requires AdjustBillsToZero(store, requestor, billIds, note, now).Ok?
    requires AdjustBillsToZero(store, requestor, billIds, note, now).value.penalized != {}
    ensures ListedXact(store, billIds).Some? && BillPaymentMapForXact(store, ListedXact(store, billIds).value).Ok?
    ensures var r := AdjustBillsToZero(store, requestor, billIds, note, now).value.store;
            var x := ListedXact(store, billIds).value;
            var total := UnpaidTotal(BillPaymentMapForXact(store, x).value);
            var ws := r.payments[|store.payments|..];
            forall k :: 0 <= k < |ws| ==>
              && WrittenAdjustment(ws[k], x, total, requestor, note, now)
              && ws[k].id == store.nextId + k
              && ws[k].adjustment.value.billing in billIds
              && OpenBillOf(store, x, ws[k].adjustment.value.billing)
  {
    AdjustBillsToZeroRuns(store, requestor, billIds, note, now);
    var x := ListedXact(store, billIds).value;
    var maps := BillPaymentMapForXact(store, x).value;
    var done := AdjustAll(store, Positions(store.bills, billIds, 0), x, maps, requestor, note, now);
    var r := AdjustBillsToZero(store, requestor, billIds, note, now).value.store;
    assert r.payments == done.payments;
    WrittenForOpenBills(done.payments[|store.payments|..], store, billIds, x, UnpaidTotal(maps),
                        requestor, note, now, store.nextId);
  }

  /** What the call writes for a bill is the amount the bill was created
      with, less what this call already wrote for it, capped at the
      transaction's unpaid total (`xact_total`: the sum of what the
      allocation left on each bill). The cap is never lowered as
      adjustments are written, and payments already allocated to the bill
      are not subtracted. */
  lemma AdjustBillsToZeroAmounts(store: Store, requestor: Option<int>, billIds: seq<int>, note: string, now: int)
    requires AdjustBillsToZero(store, requestor, billIds, note, now).Ok?
    requires AdjustBillsToZero(store, requestor, billIds, note, now).value.penalized != {}
    ensures ListedXact(store, billIds).Some? && BillPaymentMapForXact(store, ListedXact(store, billIds).value).Ok?
    ensures var r := AdjustBillsToZero(store, requestor, billIds, note, now).value.store;
            var maps := BillPaymentMapForXact(store, ListedXact(store, billIds).value).value;
            && |store.payments| <= |r.payments|
            && AdjustsCreated(r.payments[|store.payments|..], maps, UnpaidTotal(maps))
  {
    AdjustBillsToZeroRuns(store, requestor, billIds, note, now);
    var x := ListedXact(store, billIds).value;
    var maps := BillPaymentMapForXact(store, x).value;
    var done := AdjustAll(store, Positions(store.bills, billIds, 0), x, maps, requestor, note, now);
    assert AdjustBillsToZero(store, requestor, billIds, note, now).value.store.payments == done.payments;
    AmountsFromUnadjusted(done.payments[|store.payments|..], maps, UnpaidTotal(maps));
  }

  /** Each of `ws` adjusts a bill that has a map by the amount the bill was
      created with, less what earlier payments of `ws` took off it, capped
      at `total`. */
  predicate AdjustsCreated(ws: seq<Payment>, maps: seq<BillPaymentMap>, total: int)
  {
    forall k :: 0 <= k < |ws| ==>
      && ws[k].adjustment.Some?
      && MapOf(maps, ws[k].adjustment.value.billing).Some?
      && ws[k].amount
         == Capped(maps[MapOf(maps, ws[k].adjustment.value.billing).value].billAmount
                   - AdjustedFor(ws[..k], ws[k].adjustment.value.billing), total)
  }

  /** With maps that record no adjustment yet, what is left on a bill is
      the amount it was created with. */
  lemma AmountsFromUnadjusted(ws: seq<Payment>, maps: seq<BillPaymentMap>, total: int)
    requires AmountsFor(ws, maps, total)
    requires forall k :: 0 <= k < |maps| ==> maps[k].adjustmentAmount == 0
    ensures AdjustsCreated(ws, maps, total)
  {
    forall k | 0 <= k < |ws|
      ensures && ws[k].adjustment.Some?
              && MapOf(maps, ws[k].adjustment.value.billing).Some?
              && ws[k].amount
                 == Capped(maps[MapOf(maps, ws[k].adjustment.value.billing).value].billAmount
                           - AdjustedFor(ws[..k], ws[k].adjustment.value.billing), total)
    {
      assert AmountAt(ws, k, maps, total);
    }
  }


  /** The call takes what it writes off the transaction's balance. */
  lemma AdjustBillsToZeroBalance(store: Store, requestor: Option<int>, billIds: seq<int>, note: string, now: int)
    requires AdjustBillsToZero(store, requestor, billIds, note, now).Ok?
    requires AdjustBillsToZero(store, requestor, billIds, note, now).value.penalized != {}
    ensures ListedXact(store, billIds).Some?
    ensures var r := AdjustBillsToZero(store, requestor, billIds, note, now).value.store;
            var x := ListedXact(store, billIds).value;
            BalanceOwed(r, x) == BalanceOwed(store, x) - Recorded(r.payments[|store.payments|..])
  {
    AdjustBillsToZeroRuns(store, requestor, billIds, note, now);
  }

  /** Every other transaction's balance stays as it was. */
  lemma AdjustBillsToZeroOtherBalances(store: Store, requestor: Option<int>, billIds: seq<int>, note: string, now: int,
                                       y: int)
    requires AdjustBillsToZero(store, requestor, billIds, note, now).Ok?
    requires ListedXact(store, billIds) != Some(y)
    ensures BalanceOwed(AdjustBillsToZero(store, requestor, billIds, note, now).value.store, y) == BalanceOwed(store, y)
  {
    var out := AdjustBillsToZero(store, requestor, billIds, note, now).value;
    if out.penalized != {} {
      AdjustBillsToZeroRuns(store, requestor, billIds, note, now);
      var x := ListedXact(store, billIds).value;
      var done := AdjustAll(store, Positions(store.bills, billIds, 0), x, BillPaymentMapForXact(store, x).value,
                            requestor, note, now);
      SameLedgerBalance(out.store, done, y);
    }
  }

  /** Balances depend on the bills and payments only. */
  lemma SameLedgerBalance(s: Store, t: Store, y: int)
    requires s.bills == t.bills && s.payments == t.payments
    ensures BalanceOwed(s, y) == BalanceOwed(t, y)
  {
  }

  /** No bill of non-negative amount is adjusted past that amount: the
      adjustments naming it add up to at most what it was created with. */
  lemma AdjustBillsToZeroCaps(store: Store, requestor: Option<int>, billIds: seq<int>, note: string, now: int)
    requires AdjustBillsToZero(store, requestor, billIds, note, now).Ok?
    requires AdjustBillsToZero(store, requestor, billIds, note, now).value.penalized != {}
    ensures ListedXact(store, billIds).Some? && BillPaymentMapForXact(store, ListedXact(store, billIds).value).Ok?
    ensures var r := AdjustBillsToZero(store, requestor, billIds, note, now).value.store;
            var maps := BillPaymentMapForXact(store, ListedXact(store, billIds).value).value;
            forall b :: MapOf(maps, b).Some? && maps[MapOf(maps, b).value].billAmount >= 0 ==>
              AdjustedFor(r.payments[|store.payments|..], b) <= maps[MapOf(maps, b).value].billAmount
  {
    AdjustBillsToZeroRuns(store, requestor, billIds, note, now);
  }

  // ---------------------------------------------------------------------

  /** A library setting as read: unset (`null`), a text, or any other
      value. */
  datatype SettingValue = Unset | Text(text: string) | OtherValue

  /** The settings `void_or_zero_bills_of_type` reads at the context org
      unit: the two prohibit-negative-balance flags (as `json_bool` reads
      them) and the two negative-balance intervals. */
  datatype ZeroSettings = ZeroSettings(
    prohibitOnLost: bool,
    prohibitDefault: bool,
    intervalOnLost: SettingValue,
    intervalDefault: SettingValue)

  /** Some bill of transaction `xact` with billing type `btype` has id
      `id`. */
  predicate TypeId(bills: seq<Bill>, xact: int, btype: int, id: int)
  {
    exists k :: 0 <= k < |bills| && OfType(bills[k], xact, btype) && bills[k].id == id
  }

  /** Ids, in store order from position `from` on, of the bills of
      transaction `xact` with billing type `btype`, voided or not. */
  function IdsOfType(bills: seq<Bill>, xact: int, btype: int, from: nat): (r: seq<int>)
    requires from <= |bills|
    ensures forall j :: 0 <= j < |r| ==> TypeId(bills, xact, btype, r[j])
    ensures forall k :: from <= k < |bills| && OfType(bills[k], xact, btype) ==> bills[k].id in r
    decreases |bills| - from
  {
    if from == |bills| then []
    else
      var rest := IdsOfType(bills, xact, btype, from + 1);
      if OfType(bills[from], xact, btype) then
        assert TypeId(bills, xact, btype, bills[from].id);
        [bills[from].id] + rest
      else rest
  }

  /** The interval setting used: the one for lost items unless it is
      unset. */
  function RefundInterval(s: ZeroSettings): SettingValue
  {
    if s.intervalOnLost.Unset? then s.intervalDefault else s.intervalOnLost
  }

  /** Whether the transaction had a payment within the refund interval;
      only a text interval is looked at. */
  function HasRefundable(store: Store, xact: int, s: ZeroSettings, now: int, addMonths: Interval.MonthAdder)
    : (r: Result<bool>)
    ensures !RefundInterval(s).Text? ==> r == Ok(false)
    ensures r == Ok(true) <==> && RefundInterval(s).Text?
                               && XactHasPaymentWithin(store, xact, RefundInterval(s).text, now, addMonths) == Ok(true)
    ensures r.Err? <==> RefundInterval(s).Text? && XactHasPaymentWithin(store, xact, RefundInterval(s).text, now, addMonths).Err?
  {
    match RefundInterval(s)
    case Text(interval) => XactHasPaymentWithin(store, xact, interval, now, addMonths)
    case _ => Ok(false)
  }

  /** Bills are adjusted to zero, not voided, when a negative balance is
      prohibited and there was no payment within the refund interval. */
  predicate Zeroes(s: ZeroSettings, refundable: bool)
  {
    (s.prohibitOnLost || s.prohibitDefault) && !refundable
  }

  /** `void_or_zero_bills_of_type`: the bills of one type on a transaction
      are adjusted to zero or voided, as the settings and the transaction's
      recent payments decide. */
  function VoidOrZeroBillsOfType(store: Store, requestor: Option<int>, xact: int, btype: int, forNote: string,
                                 s: ZeroSettings, now: int, addMonths: Interval.MonthAdder): (r: Result<Outcome>)
    ensures IdsOfType(store.bills, xact, btype, 0) == [] ==> r == Ok(Outcome(store, {}))
    ensures IdsOfType(store.bills, xact, btype, 0) != [] && HasRefundable(store, xact, s, now, addMonths).Err?
            ==> r == HasRefundable(store, xact, s, now, addMonths).PropagateFailure()
    ensures r.Ok? ==> && |r.value.store.bills| == |store.bills| && r.value.store.circs == store.circs
                      && SameXacts(store, r.value.store)
    ensures r.Ok? && HasRefundable(store, xact, s, now, addMonths).Ok?
                  && Zeroes(s, HasRefundable(store, xact, s, now, addMonths).value)
            ==> r.value.store.bills == store.bills
    ensures r.Ok? && HasRefundable(store, xact, s, now, addMonths).Ok?
                  && !Zeroes(s, HasRefundable(store, xact, s, now, addMonths).value)
            ==> r.value.store.payments == store.payments && r.value.store.nextId == store.nextId
  {
    var ids := IdsOfType(store.bills, xact, btype, 0);
    if |ids| == 0 then Ok(Outcome(store, {}))
    else
      var refundable :- HasRefundable(store, xact, s, now, addMonths);
      if Zeroes(s, refundable) then AdjustBillsToZero(store, requestor, ids, "System: ADJUSTED " + forNote, now)
      else VoidBills(store, requestor, ids, Some("System: VOIDED " + forNote), now)
  }

  /** When the bills are voided, exactly those of the type that were not
      voided yet carry the void and the note "System: VOIDED ..."; every
      other bill stays as it was. */
  lemma VoidOrZeroVoids(store: Store, requestor: Option<int>, xact: int, btype: int, forNote: string,
                        s: ZeroSettings, now: int, addMonths: Interval.MonthAdder)
    requires VoidOrZeroBillsOfType(store, requestor, xact, btype, forNote, s, now, addMonths).Ok?
    requires IdsOfType(store.bills, xact, btype, 0) != []
    requires HasRefundable(store, xact, s, now, addMonths).Ok?
    requires !Zeroes(s, HasRefundable(store, xact, s, now, addMonths).value)
    ensures requestor.Some?
    ensures var t := VoidOrZeroBillsOfType(store, requestor, xact, btype, forNote, s, now, addMonths).value.store;
            var ids := IdsOfType(store.bills, xact, btype, 0);
            forall k :: 0 <= k < |store.bills| ==>
              t.bills[k] == if store.bills[k].id in ids && !store.bills[k].voided
                            then VoidedBill(store.bills[k], requestor.value, Some("System: VOIDED " + forNote), now)
                            else store.bills[k]
  {
    var ids := IdsOfType(store.bills, xact, btype, 0);
    VoidBillsEffect(store, requestor, ids, Some("System: VOIDED " + forNote), now);
  }

  /** Bill ids are unique, as the table's primary key makes them. */
  predicate UniqueIds(store: Store)
  {
    forall i, j :: 0 <= i < j < |store.bills| ==> store.bills[i].id != store.bills[j].id
  }

  /** With unique ids, the bills of a type on a transaction lead the call
      to that transaction. */
  lemma ListedXactOfType(store: Store, xact: int, btype: int)
    requires UniqueIds(store) && IdsOfType(store.bills, xact, btype, 0) != []
    ensures ListedXact(store, IdsOfType(store.bills, xact, btype, 0)) == Some(xact)
  {
    var ids := IdsOfType(store.bills, xact, btype, 0);
    assert TypeId(store.bills, xact, btype, ids[0]);
    var k0 :| 0 <= k0 < |store.bills| && OfType(store.bills[k0], xact, btype) && store.bills[k0].id == ids[0];
    assert store.bills[k0].id in ids;
    var x := ListedXact(store, ids).value;
    var k :| 0 <= k < |store.bills| && store.bills[k].id in ids && store.bills[k].xact == x;
    var j :| 0 <= j < |ids| && ids[j] == store.bills[k].id;
    assert TypeId(store.bills, xact, btype, ids[j]);
    var k' :| 0 <= k' < |store.bills| && OfType(store.bills[k'], xact, btype) && store.bills[k'].id == ids[j];
    SameIdSameBill(store, k, k');
  }

  lemma SameIdSameBill(store: Store, i: nat, j: nat)
    requires UniqueIds(store) && i < |store.bills| && j < |store.bills|
    ensures store.bills[i].id == store.bills[j].id ==> i == j
  {
  }

  /** An account adjustment on transaction `xact` made at `now` with note
      `note`, of one of its non-voided bills of type `btype`. */
  predicate AdjustmentOfType(p: Payment, store: Store, xact: int, btype: int, note: string, now: int)
  {
    && p.xact == xact && !p.voided && p.paymentTs == now
    && p.adjustment.Some?
    && p.adjustment.value.note == note
    && TypeId(store.bills, xact, btype, p.adjustment.value.billing)
    && OpenBillOf(store, xact, p.adjustment.value.billing)
  }

  /** What adjusting the bills of a type writes: account adjustments on the
      transaction, each of one of its non-voided bills of the type. */
  lemma AdjustOfTypeWrites(store: Store, requestor: Option<int>, xact: int, btype: int, note: string, now: int)
    requires UniqueIds(store) && IdsOfType(store.bills, xact, btype, 0) != []
    requires AdjustBillsToZero(store, requestor, IdsOfType(store.bills, xact, btype, 0), note, now).Ok?
    ensures var t := AdjustBillsToZero(store, requestor, IdsOfType(store.bills, xact, btype, 0), note, now).value.store;
            && |store.payments| <= |t.payments|
            && var ws := t.payments[|store.payments|..];
               forall k :: 0 <= k < |ws| ==> AdjustmentOfType(ws[k], store, xact, btype, note, now)
  {
    var ids := IdsOfType(store.bills, xact, btype, 0);
    var out := AdjustBillsToZero(store, requestor, ids, note, now);
    ListedXactOfType(store, xact, btype);
    var ws := out.value.store.payments[|store.payments|..];
    if out.value.penalized != {} {
      AdjustBillsToZeroWrites(store, requestor, ids, note, now);
      forall k | 0 <= k < |ws|
        ensures AdjustmentOfType(ws[k], store, xact, btype, note, now)
      {
        var i :| 0 <= i < |ids| && ids[i] == ws[k].adjustment.value.billing;
      }
    } else {
      assert out.value.store == store;
      assert ws == [];
    }
  }

  /** Adjusting the bills of a type takes what it writes off the
      transaction's balance. */
  lemma AdjustOfTypeBalance(store: Store, requestor: Option<int>, xact: int, btype: int, note: string, now: int)
    requires UniqueIds(store) && IdsOfType(store.bills, xact, btype, 0) != []
    requires AdjustBillsToZero(store, requestor, IdsOfType(store.bills, xact, btype, 0), note, now).Ok?
    ensures var t := AdjustBillsToZero(store, requestor, IdsOfType(store.bills, xact, btype, 0), note, now).value.store;
            && |store.payments| <= |t.payments|
            && BalanceOwed(t, xact) == BalanceOwed(store, xact) - Recorded(t.payments[|store.payments|..])
  {
    var ids := IdsOfType(store.bills, xact, btype, 0);
    var out := AdjustBillsToZero(store, requestor, ids, note, now);
    ListedXactOfType(store, xact, btype);
    if out.value.penalized != {} {
      AdjustBillsToZeroBalance(store, requestor, ids, note, now);
    } else {
      assert out.value.store == store;
      assert store.payments[|store.payments|..] == [];
    }
  }

  /** When the bills are adjusted, every payment written is an account
      adjustment on the transaction, noted "System: ADJUSTED ...", of one
      of its non-voided bills of the type; the transaction's balance drops
      by their sum. */
  lemma VoidOrZeroAdjusts(store: Store, requestor: Option<int>, xact: int, btype: int, forNote: string,
                          s: ZeroSettings, now: int, addMonths: Interval.MonthAdder)
    requires UniqueIds(store)
    requires VoidOrZeroBillsOfType(store, requestor, xact, btype, forNote, s, now, addMonths).Ok?
    requires IdsOfType(store.bills, xact, btype, 0) != []
    requires HasRefundable(store, xact, s, now, addMonths).Ok?
    requires Zeroes(s, HasRefundable(store, xact, s, now, addMonths).value)
    ensures var t := VoidOrZeroBillsOfType(store, requestor, xact, btype, forNote, s, now, addMonths).value.store;
            && |store.payments| <= |t.payments|
            && BalanceOwed(t, xact) == BalanceOwed(store, xact) - Recorded(t.payments[|store.payments|..])
            && var ws := t.payments[|store.payments|..];
               forall k :: 0 <= k < |ws| ==> AdjustmentOfType(ws[k], store, xact, btype, "System: ADJUSTED " + forNote, now)
  {
    var ids := IdsOfType(store.bills, xact, btype, 0);
    var note := "System: ADJUSTED " + forNote;
    assert VoidOrZeroBillsOfType(store, requestor, xact, btype, forNote, s, now, addMonths)
        == AdjustBillsToZero(store, requestor, ids, note, now);
    AdjustOfTypeWrites(store, requestor, xact, btype, note, now);
    AdjustOfTypeBalance(store, requestor, xact, btype, note, now);
  }
}

=== FILE: zero_examples.dfy ===
/** Two concrete runs of `adjust_bills_to_zero` that show what the code, as
    written, does when payments or earlier adjustments already cover a
    bill. */
module ZeroExamples {
  import opened Basics
  import opened Records
  import opened Allocator
  import opened ZeroBills
  import opened Ledger
  import opened OpenXact

  /** A bill of transaction 1 for `amount` cents, billed at `instant`. */
  function ExampleBill(id: int, amount: int, instant: int): Bill
  {
    Bill(id, 1, amount, 1, "Overdue materials", Stamp("t", instant), None, None, false, None, None, None)
  }

  /** An account adjustment of `amount` cents on bill `billing`, as the
      call writes it at instant 1000 for requestor 5. */
  function ExampleAdjustment(id: int, billing: int, amount: int): Payment
  {
    Payment(id, 1, amount, 1000, false, Some(Adjustment(id, billing, amount, amount, Some(5), "zero")))
  }

  /** Bill 10 (500 cents) is paid in full by payment 20; bill 11 (300
      cents) is unpaid. The transaction owes 300. */
  function PaidAndUnpaid(): Store
  {
    Store([ExampleBill(10, 500, 100), ExampleBill(11, 300, 200)],
          [Payment(20, 1, 500, 150, false, None)],
          [Xact(1, 7, None, 3)], [], 21)
  }

  /** The maps the allocation gives for `PaidAndUnpaid`: payment 20 is
      matched to bill 10 exactly and 300 is left on bill 11. */
  function PaidAndUnpaidMaps(): seq<BillPaymentMap>
  {
    [BillPaymentMap(ExampleBill(10, 0, 100), [], [Payment(20, 1, 500, 150, false, None)], 500, 0),
     BillPaymentMap(ExampleBill(11, 300, 200), [], [], 300, 0)]
  }

  /** Both bills and the payment are open and already in the order the
      allocation reads them. */
  lemma PaidAndUnpaidOrder()
    ensures var s := PaidAndUnpaid();
            BillsInOrder(s, 1) == s.bills && PaymentsInOrder(s, 1) == s.payments
  {
    var s := PaidAndUnpaid();
    assert OpenBills(s.bills, 1) == s.bills;
    assert OpenPayments(s.payments, 1) == s.payments;
  }

  /** The exact-amount pass pays bill 10 with payment 20 and leaves no
      payment unused. */
  lemma PaidAndUnpaidAllocation()
    ensures var s := PaidAndUnpaid();
            AllocateMaps(s.bills, s.payments) == Ok(PaidAndUnpaidMaps())
  {
    var s := PaidAndUnpaid();
    AllocateOneExact(s.bills, s.payments[0]);
    assert s.payments == [s.payments[0]];
    PaidAndUnpaidPaid();
  }

  /** Paying bill 10 in the seeded maps gives the allocation's maps. */
  lemma PaidAndUnpaidPaid()
    ensures var s := PaidAndUnpaid();
            var seeded := Seed(s.bills);
            seeded[0 := seeded[0].(bill := s.bills[0].(amount := 0), payments := [s.payments[0]])] == PaidAndUnpaidMaps()
  {
    var s := PaidAndUnpaid();
    var paid := PaidAndUnpaidMaps();
    var seeded := Seed(s.bills);
    assert seeded[0].(bill := s.bills[0].(amount := 0), payments := [s.payments[0]]) == paid[0];
    assert seeded[1] == paid[1];
    UpdateHead(seeded, paid);
  }

  /** Together: the maps `adjust_bills_to_zero` reads for transaction 1. */
  lemma PaidAndUnpaidMapsForXact()
    ensures BillPaymentMapForXact(PaidAndUnpaid(), 1) == Ok(PaidAndUnpaidMaps())
  {
    PaidAndUnpaidOrder();
    PaidAndUnpaidAllocation();
  }

  /** Two sequences that differ at most at the head. */
  lemma UpdateHead<T>(xs: seq<T>, ys: seq<T>)
    requires |xs| == |ys| > 0
    requires forall k :: 0 < k < |xs| ==> xs[k] == ys[k]
    ensures xs[0 := ys[0]] == ys
  {
  }

  /** A single payment matching the first bill's amount exactly pays that
      bill and leaves nothing over: the allocation returns. */
  lemma AllocateOneExact(bills: seq<Bill>, p: Payment)
    requires |bills| > 0 && bills[0].amount == p.amount
    ensures AllocateMaps(bills, [p])
            == Ok(Seed(bills)[0 := Seed(bills)[0].(bill := bills[0].(amount := 0), payments := [p])])
  {
    var seeded := Seed(bills);
    AdjustmentPassNoOp(seeded, [p]);
    ExactStepFirst(seeded, p);
    assert seeded[0].payments + [p] == [p];
    assert [p][1..] == [];
    var paid := seeded[0 := seeded[0].(bill := bills[0].(amount := 0), payments := [p])];
    assert ExactMatchPass(seeded, [p], {}) == ExactMatchPass(paid, [], {p.id}) == (paid, {p.id});
    assert RemoveUsed([p], {p.id}) == [];
  }

  /** A payment whose amount matches the first bill exactly is allocated
      to that bill, which is zeroed. */
  lemma ExactStepFirst(maps: seq<BillPaymentMap>, p: Payment)
    requires |maps| > 0 && maps[0].bill.amount == p.amount
    ensures ExactStep(maps, p, {})
            == (maps[0 := maps[0].(bill := maps[0].bill.(amount := 0), payments := maps[0].payments + [p])], {p.id})
  {
    assert FirstWithAmount(maps, p.amount) == Some(0);
    var used: set<int> := {};
    assert used + {p.id} == {p.id};
  }


  /** The store after the loop over bills 10 and 11: each got a 300-cent
      adjustment. */
  function PaidAndUnpaidAdjusted(): Store
  {
    var s := PaidAndUnpaid();
    s.(payments := s.payments + [ExampleAdjustment(21, 10, 300), ExampleAdjustment(22, 11, 300)], nextId := 23)
  }

  /** Bill 10 has 500 left to adjust, since the payment that covered it is
      not counted, and the cap is the 300 left on bill 11; the cap is not
      lowered after the first adjustment, so bill 11 gets 300 as well. */
  lemma PaidAndUnpaidLoop()
    ensures AdjustAll(PaidAndUnpaid(), [0, 1], 1, PaidAndUnpaidMaps(), Some(5), "zero", 1000) == PaidAndUnpaidAdjusted()
  {
    var s := PaidAndUnpaid();
    var maps := PaidAndUnpaidMaps();
    assert UnpaidTotal(maps) == 300;
    var a0 := Adjusting(s, maps);
    assert MapOf(maps, 10) == Some(0);
    var a1 := AdjustOne(a0, 10, 1, 300, Some(5), "zero", 1000);
    var m0 := maps[0].(adjustmentAmount := 300, adjustments := [ExampleAdjustment(21, 10, 300).adjustment.value]);
    assert Capped(Unadjusted(maps[0]), 300) == 300;
    assert maps[0].adjustments + [ExampleAdjustment(21, 10, 300).adjustment.value] == m0.adjustments;
    assert a1 == Adjusting(s.(payments := s.payments + [ExampleAdjustment(21, 10, 300)], nextId := 22), maps[0 := m0]);
    assert MapOf(a1.maps, 11) == Some(1);
    var a2 := AdjustOne(a1, 11, 1, 300, Some(5), "zero", 1000);
    assert s.payments + [ExampleAdjustment(21, 10, 300)] + [ExampleAdjustment(22, 11, 300)]
           == PaidAndUnpaidAdjusted().payments;
    assert a2.store == PaidAndUnpaidAdjusted();
    assert [0, 1][1..] == [1] && [1][1..] == [];
    assert AdjustEach(s.bills, [0, 1], a0, 1, 300, Some(5), "zero", 1000) == a2;
  }

  /** The transaction still has no finish after the loop: it owes -300. */
  lemma PaidAndUnpaidSettled()
    ensures BalanceOwed(PaidAndUnpaid(), 1) == 300
    ensures BalanceOwed(PaidAndUnpaidAdjusted(), 1) == -300
    ensures CheckOpenXact(PaidAndUnpaidAdjusted(), 1, 1000) == Ok(PaidAndUnpaidAdjusted())
  {
    assert XactIndex(PaidAndUnpaidAdjusted().xacts, 1) == Some(0);
  }

  /** The call finds both bills, works on transaction 1 (of patron 7 at
      location 3) and leaves the store the loop produced. */
  lemma PaidAndUnpaidRun()
    ensures AdjustBillsToZero(PaidAndUnpaid(), Some(5), [10, 11], "zero", 1000)
            == Ok(Outcome(PaidAndUnpaidAdjusted(), {(7, 3)}))
  {
    var s := PaidAndUnpaid();
    PaidAndUnpaidPositions();
    assert FindXact(s, 1) == Some(Xact(1, 7, None, 3));
    PaidAndUnpaidMapsForXact();
    PaidAndUnpaidLoop();
    PaidAndUnpaidSettled();
    CallUnfolds(s, Some(5), [10, 11], "zero", 1000, 1, PaidAndUnpaidMaps());
  }

  /** A call whose first listed bill belongs to transaction `xact`, which
      exists and whose allocation gives `maps`, is the loop followed by the
      check of that transaction. */
  lemma CallUnfolds(store: Store, requestor: Option<int>, billIds: seq<int>, note: string, now: int,
                    xact: int, maps: seq<BillPaymentMap>)
    requires Positions(store.bills, billIds, 0) != []
    requires store.bills[Positions(store.bills, billIds, 0)[0]].xact == xact
    requires FindXact(store, xact).Some?
    requires BillPaymentMapForXact(store, xact) == Ok(maps) && maps != []
    ensures AdjustBillsToZero(store, requestor, billIds, note, now)
            == Ok(Outcome(CheckOpenXact(AdjustAll(store, Positions(store.bills, billIds, 0), xact, maps, requestor, note, now),
                                        xact, now).value,
                          {Payer(FindXact(store, xact).value)}))
  {
  }

  /** Bills 10 and 11 sit at positions 0 and 1. */
  lemma PaidAndUnpaidPositions()
    ensures Positions(PaidAndUnpaid().bills, [10, 11], 0) == [0, 1]
  {
    var s := PaidAndUnpaid();
    assert Positions(s.bills, [10, 11], 2) == [];
    assert Positions(s.bills, [10, 11], 1) == [1];
  }

  /** Listing both bills adjusts each by its full amount capped at the 300
      still owed: the bill already paid is written off a second time, two
      300-cent adjustments are written, and the transaction ends up owing
      -300 instead of zero. */
  lemma PaidBillAdjustedAgain()
    ensures var s := PaidAndUnpaid();
            var r := AdjustBillsToZero(s, Some(5), [10, 11], "zero", 1000);
            && BalanceOwed(s, 1) == 300
            && r.Ok?
            && r.value.store.payments == s.payments + [ExampleAdjustment(21, 10, 300), ExampleAdjustment(22, 11, 300)]
            && BalanceOwed(r.value.store, 1) == -300
  {
    PaidAndUnpaidRun();
    PaidAndUnpaidSettled();
  }

  /** One unpaid bill of 500 cents on an open transaction. */
  function OneBill(): Store
  {
    Store([ExampleBill(10, 500, 100)], [], [Xact(1, 7, None, 3)], [], 20)
  }

  /** The same after `adjust_bills_to_zero` wrote 500 off bill 10 and closed
      the transaction. */
  function OneBillZeroed(): Store
  {
    Store([ExampleBill(10, 500, 100)], [ExampleAdjustment(20, 10, 500)], [Xact(1, 7, Some(1000), 3)], [], 21)
  }

  /** Bill 10 sits at position 0 of both stores. */
  lemma OneBillPositions(s: Store)
    requires s.bills == [ExampleBill(10, 500, 100)]
    ensures Positions(s.bills, [10], 0) == [0]
  {
    assert Positions(s.bills, [10], 1) == [];
  }

  /** With no payment, the allocation is the bill alone. */
  lemma OneBillMaps()
    ensures BillPaymentMapForXact(OneBill(), 1) == Ok([BillPaymentMap(ExampleBill(10, 500, 100), [], [], 500, 0)])
  {
    var s := OneBill();
    assert OpenBills(s.bills, 1) == s.bills;
    assert OpenPayments(s.payments, 1) == [];
    assert BillsInOrder(s, 1) == s.bills;
    assert PaymentsInOrder(s, 1) == [];
    assert Seed(s.bills) == [BillPaymentMap(ExampleBill(10, 500, 100), [], [], 500, 0)];
  }

  /** The maps of `OneBill` before any adjustment. */
  function OneBillFresh(): seq<BillPaymentMap>
  {
    [BillPaymentMap(ExampleBill(10, 500, 100), [], [], 500, 0)]
  }

  /** The loop writes the 500 left on the bill, the cap being 500 too. */
  lemma OneBillFirstLoop()
    ensures AdjustAll(OneBill(), [0], 1, OneBillFresh(), Some(5), "zero", 1000)
            == OneBill().(payments := [ExampleAdjustment(20, 10, 500)], nextId := 21)
  {
    var s := OneBill();
    var maps := OneBillFresh();
    assert UnpaidTotal(maps) == 500;
    assert MapOf(maps, 10) == Some(0);
    var m := maps[0].(adjustmentAmount := 500, adjustments := [ExampleAdjustment(20, 10, 500).adjustment.value]);
    assert maps[0].adjustments + [ExampleAdjustment(20, 10, 500).adjustment.value] == m.adjustments;
    assert s.payments + [ExampleAdjustment(20, 10, 500)] == [ExampleAdjustment(20, 10, 500)];
    var a := AdjustOne(Adjusting(s, maps), 10, 1, 500, Some(5), "zero", 1000);
    assert a == Adjusting(s.(payments := [ExampleAdjustment(20, 10, 500)], nextId := 21), maps[0 := m]);
    assert [0][1..] == [];
    assert AdjustEach(s.bills, [0], Adjusting(s, maps), 1, 500, Some(5), "zero", 1000) == a;
  }

  /** With nothing owed and no circulation, the check closes the
      transaction at `now`. */
  lemma OneBillFirstSettled()
    ensures var done := OneBill().(payments := [ExampleAdjustment(20, 10, 500)], nextId := 21);
            CheckOpenXact(done, 1, 1000) == Ok(OneBillZeroed())
  {
    var done := OneBill().(payments := [ExampleAdjustment(20, 10, 500)], nextId := 21);
    assert BalanceOwed(done, 1) == 0;
    assert XactIndex(done.xacts, 1) == Some(0);
    assert FindCirc(done.circs, 1) == None;
    assert CheckOpenXact(done, 1, 1000) == Ok(SetFinish(done, 0, Some(1000)));
    assert done.xacts[0 := done.xacts[0].(finish := Some(1000))] == OneBillZeroed().xacts;
  }

  /** The first call writes the full 500 off and closes the transaction. */
  lemma OneBillFirstRun()
    ensures AdjustBillsToZero(OneBill(), Some(5), [10], "zero", 1000) == Ok(Outcome(OneBillZeroed(), {(7, 3)}))
  {
    var s := OneBill();
    OneBillPositions(s);
    assert FindXact(s, 1) == Some(Xact(1, 7, None, 3));
    OneBillMaps();
    CallUnfolds(s, Some(5), [10], "zero", 1000, 1, OneBillFresh());
    OneBillFirstLoop();
    OneBillFirstSettled();
  }

  /** Read again, the bill is matched exactly by the adjustment written
      for it, as if it were a payment, so nothing is left unpaid; the
      adjustment is not recorded against the map. */
  lemma OneBillZeroedMaps()
    ensures BillPaymentMapForXact(OneBillZeroed(), 1) == Ok(OneBillZeroedMapsValue())
  {
    var s := OneBillZeroed();
    var paid := OneBillZeroedMapsValue();
    assert OpenBills(s.bills, 1) == s.bills;
    assert OpenPayments(s.payments, 1) == s.payments;
    assert BillsInOrder(s, 1) == s.bills;
    assert PaymentsInOrder(s, 1) == s.payments;
    AllocateOneExact(s.bills, s.payments[0]);
    assert s.payments == [s.payments[0]];
    var seeded := Seed(s.bills);
    assert seeded[0].(bill := s.bills[0].(amount := 0), payments := [s.payments[0]]) == paid[0];
    UpdateHead(seeded, paid);
  }

  /** The maps of `OneBillZeroed`: the bill is zeroed by the earlier
      adjustment, taken as a payment. */
  function OneBillZeroedMapsValue(): seq<BillPaymentMap>
  {
    [BillPaymentMap(ExampleBill(10, 0, 100), [], [ExampleAdjustment(20, 10, 500)], 500, 0)]
  }

  /** The store after the second call's loop. */
  function OneBillTwice(): Store
  {
    OneBillZeroed().(payments := OneBillZeroed().payments + [ExampleAdjustment(21, 10, 0)], nextId := 22)
  }

  /** The loop finds 500 left to adjust on the map but a cap of zero. */
  lemma OneBillSecondLoop()
    ensures AdjustAll(OneBillZeroed(), [0], 1, OneBillZeroedMapsValue(), Some(5), "zero", 1000) == OneBillTwice()
  {
    var s := OneBillZeroed();
    var maps := OneBillZeroedMapsValue();
    assert UnpaidTotal(maps) == 0;
    assert MapOf(maps, 10) == Some(0);
    var m := maps[0].(adjustmentAmount := 0, adjustments := [ExampleAdjustment(21, 10, 0).adjustment.value]);
    assert maps[0].adjustments + [ExampleAdjustment(21, 10, 0).adjustment.value] == m.adjustments;
    var a := AdjustOne(Adjusting(s, maps), 10, 1, 0, Some(5), "zero", 1000);
    assert a == Adjusting(OneBillTwice(), maps[0 := m]);
    assert [0][1..] == [];
    assert AdjustEach(s.bills, [0], Adjusting(s, maps), 1, 0, Some(5), "zero", 1000) == a;
  }

  /** Nothing is owed and the transaction is closed: the check leaves it. */
  lemma OneBillSecondSettled()
    ensures CheckOpenXact(OneBillTwice(), 1, 1000) == Ok(OneBillTwice())
  {
    assert BalanceOwed(OneBillTwice(), 1) == 0;
    assert XactIndex(OneBillTwice().xacts, 1) == Some(0);
  }

  /** The second call writes a 0-cent adjustment; the closed transaction
      stays closed. */
  lemma OneBillSecondRun()
    ensures AdjustBillsToZero(OneBillZeroed(), Some(5), [10], "zero", 1000) == Ok(Outcome(OneBillTwice(), {(7, 3)}))
  {
    var s := OneBillZeroed();
    OneBillPositions(s);
    assert FindXact(s, 1) == Some(Xact(1, 7, Some(1000), 3));
    OneBillZeroedMaps();
    CallUnfolds(s, Some(5), [10], "zero", 1000, 1, OneBillZeroedMapsValue());
    OneBillSecondLoop();
    OneBillSecondSettled();
  }

  /** Calling twice on one bill: the first call zeroes the balance and
      closes the transaction; the second writes a further adjustment of 0
      cents on the same bill instead of nothing. */
  lemma RepeatWritesZero()
    ensures AdjustBillsToZero(OneBill(), Some(5), [10], "zero", 1000).Ok?
    ensures AdjustBillsToZero(OneBill(), Some(5), [10], "zero", 1000).value.store == OneBillZeroed()
    ensures BalanceOwed(OneBillZeroed(), 1) == 0
    ensures AdjustBillsToZero(OneBillZeroed(), Some(5), [10], "zero", 1000).Ok?
    ensures AdjustBillsToZero(OneBillZeroed(), Some(5), [10], "zero", 1000).value.store.payments
            == OneBillZeroed().payments + [ExampleAdjustment(21, 10, 0)]
  {
    OneBillFirstRun();
    OneBillSecondRun();
    OneBillZeroedOwes();
  }

  /** After the first call nothing is owed. */
  lemma OneBillZeroedOwes()
    ensures BalanceOwed(OneBillZeroed(), 1) == 0
  {
  }
}
